=== FILE: README.md ===
# Social backend rules, modelled in Dafny

This project models the rule-bearing core of a social and local-discovery
REST backend built on ASP.NET Core, EF Core and Redis. It covers the
friendship state machine, tag moderation and merging, user and IP bans
with the request gate in front of every controller, and user blocks. It
also covers the one-per-key insert rules: one review per user and
activity, one activity name per place, and a daily cap on place creation.
The per-day upsert counters and metrics are modelled too. So are the
nearby-place, review, tag and profile queries, the page envelopes, and
event status by time.

Each source file becomes one Dafny module, named after the file's class.
- Database tables and the Redis cache are abstract state:
  - a `map` for a table keyed by a composite primary key, or for the cache;
  - a `set` for a table of pairs;
  - otherwise a `seq` of rows plus the next identity value.
- Operations that change the tables are `class` methods with `modifies`
  clauses. Each method's `ensures` ties the new state to a pure step
  function, and lemmas about those step functions state the rules:
  guards, no-change on rejection, one-row-per-key invariants, cascades and
  idempotence.
- Read-only queries are functions whose contracts state:
  - which rows they keep (both directions);
  - the order, with the top-n selection made precise (no row left out
    ranks before one kept);
  - their exact length, and that no row appears more often than it does
    in the rows they select from.
- `DateTime.UtcNow` is a parameter `now`, in ticks. `DateOnly` values
  are day numbers, and "today" is a parameter.
- Geographic distance is a real-valued function handed in by the caller.
- Two snapshots of the code base exist (namespaces Conquest and Ping), and
  their entity shapes differ. Each module uses the fields its own file uses.

Shared modules:
- `Common` holds `Option`, the .NET string operations the services use and
  the LINQ stage `Distinct`.
- `Sorting` holds the LINQ stages `Where`, `OrderBy`, `Skip` and `Take`,
  over an ordering that is a total preorder.
- `TagQueries` holds the two tag queries of `TagService`, and
  `BannedUsers` the banned-user listing of `BanningService`; both read
  the tables of the module they extend.

## Model

| member | source | states |
|---|---|---|
| Common.StartOfDay | Services/Places/PlaceService.cs:15 | the midnight at or before a time, a whole number of days |
| Common.HourOf | Services/Business/BusinessAnalyticsService.cs:96 | an hour of the day, below 24 |
| Common.LeadingBlanks | Services/Places/PlaceService.cs:28-29 | the length of the white-space run that starts the string, the character after it not being white space |
| Common.TrailingBlanks | Services/Places/PlaceService.cs:28-29 | the length of the white-space run that ends the string, the character before it not being white space |
| Common.Trim | Services/Places/PlaceService.cs:28-29 | the string with white space removed from both ends, neither end of the result being white space |
| Common.BlankIffTrimEmpty | Controllers/Activities/ActivitiesController.cs:30-31 | a string is all white space exactly when trimming it leaves nothing |
| Common.TrimOfTrimmed | Middleware/BanningMiddleware.cs:41 | a string that neither starts nor ends with white space is its own trim |
| Common.TrimIdempotent | Controllers/Activities/ActivitiesController.cs:30-31 | trimming twice is trimming once |
| Common.ToLower | Services/Places/PlaceService.cs:122 | the same length, each character lower-cased |
| Common.ToUpper | Services/Profiles/ProfileService.cs:37 | the same length, each character upper-cased |
| Common.ToLowerIdempotent | Services/Places/PlaceService.cs:122 | lower-casing twice is lower-casing once |
| Common.ContainsAt | Services/Tags/TagService.cs:56 | a string contains another exactly when the other starts at some offset |
| Common.FirstField | Middleware/BanningMiddleware.cs:41 | a prefix of the string free of the separator, stopped by the separator or the end |
| Common.Distinct | Services/Places/PlaceService.cs:83 | the same elements without duplicates, no longer than the input, kept in the order of their first occurrences |
| Sorting.Filter | Services/Places/PlaceService.cs:120-134 | exactly the elements that satisfy the predicate, as a sub-multiset |
| Sorting.FilterCounts | Services/Places/PlaceService.cs:120-134 | `Where` keeps every copy of a row that satisfies the predicate and no copy of one that does not |
| Sorting.Take | Services/Analytics/AnalyticsService.cs:100 | the first n elements, or all when there are fewer |
| Sorting.Skip | Utils/PaginationExtensions.cs:12 | all but the first n elements |
| Sorting.SortBy | Services/Analytics/AnalyticsService.cs:99 | a sorted permutation of the input |
| Sorting.TopBy | Services/Analytics/AnalyticsService.cs:99-100 | the first n of a sorted permutation: sorted, drawn from the input, of the expected length |
| Friends.HttpStatus | Controllers/Friends/FriendsController.cs:48-110 | each answer's status, each in both directions: 200 exactly for success, 401 exactly for a missing user record, 404 exactly for an unknown user, 409 exactly for "Already friends", 500 exactly for a colliding insert, 400 exactly for every other refusal |
| Friends.FindByName | Controllers/Friends/FriendsController.cs:53 | a user is found by name exactly when the upper-cased name is in the directory, and it is that entry |
| Friends.AddFriendStep | Controllers/Friends/FriendsController.cs:48-111 | each refusal (Unauthorized, not found, self, already friends, already sent, accept instead, blocked) holds exactly under the source's condition, in the source's order, and leaves the table unchanged; success inserts exactly the Pending row me -> friend |
| Friends.AcceptFriendStep | Controllers/Friends/FriendsController.cs:115-159 | success exactly when a Pending request from them exists and the reverse row is already Accepted or absent; refused without such a request, a colliding insert otherwise; on success both directions are Accepted, one key at most is added and every other row is unchanged |
| Friends.RemoveFriendStep | Controllers/Friends/FriendsController.cs:182-202 | refused unless an Accepted row exists in either direction; on success neither Accepted row remains and only those rows are removed |
| Friends.GetMyFriends | Controllers/Friends/FriendsController.cs:27-44 | the listed ids are exactly the friends of the caller's Accepted rows |
| Friends.GetIncomingRequests | Controllers/Friends/FriendsController.cs:163-178 | the listed ids are exactly the senders of Pending rows aimed at the caller |
| Friends.AddFriendPreservesValid | Controllers/Friends/FriendsController.cs:63-108 | a request keeps the table valid: no self rows, Accepted rows in pairs, no crossed Pending requests |
| Friends.AcceptFriendPreservesValid | Controllers/Friends/FriendsController.cs:136-156 | accepting keeps the table valid |
| Friends.RemoveFriendPreservesValid | Controllers/Friends/FriendsController.cs:190-200 | removing keeps the table valid |
| Friends.FriendsAreMutual | Controllers/Friends/FriendsController.cs:139-154 | in a valid table b is among a's friends exactly when a is among b's |
| Friends.RequestThenAccept | Controllers/Friends/FriendsController.cs:99-156 | a request followed by its acceptance makes both users friends of each other and clears the incoming request |
| Friends.RemoveEndsFriendship | Controllers/Friends/FriendsController.cs:190-201 | removal succeeds exactly for friends, and afterwards neither lists the other |
| Friends.FriendsController.constructor | Controllers/Friends/FriendsController.cs:19-23 | the controller starts over the given table and directory |
| Friends.FriendsController.AddFriend | Controllers/Friends/FriendsController.cs:48-111 | answer and new table are those of AddFriendStep; validity is preserved |
| Friends.FriendsController.AcceptFriend | Controllers/Friends/FriendsController.cs:115-159 | answer and new table are those of AcceptFriendStep; validity is preserved |
| Friends.FriendsController.RemoveFriend | Controllers/Friends/FriendsController.cs:182-202 | answer and new table are those of RemoveFriendStep; validity is preserved |
| Tags.Find | Services/Tags/TagService.cs:73-74 | finds a row exactly when the id is a tag id, and the row found has that id |
| Tags.SetFlags | Services/Tags/TagService.cs:76-77 | the tag with the id gets both flags as given; every other row, and every id and name, is unchanged |
| Tags.RemoveTag | Services/Tags/TagService.cs:147 | exactly the rows of other tags remain; the id set loses only that id |
| Tags.RemoveTagKeepsUnique | Services/Tags/TagService.cs:147 | deleting a tag keeps the Tags primary key |
| Tags.MergeReparents | Services/Tags/TagService.cs:103-147 | after a merge the target is joined to the reviews of both tags, the source to none, and the rows of every other tag are unchanged |
| Tags.JoinCountAt | Services/Tags/TagService.cs:21-31 | the local usage count is positive exactly when a join row of the tag belongs to a review at that ping |
| Tags.PopularCandidates | Services/Tags/TagService.cs:14-33 | exactly the listed tags, used at the ping when one is given, each with its usage count |
| Tags.PopularCandidatesCount | Services/Tags/TagService.cs:14-33 | one candidate per eligible tag: exactly as many candidates as tags that are listed and, when a ping is given, used there |
| Tags.PopularCandidatesIds | Services/Tags/TagService.cs:14-33 | the candidates carry, in table order, exactly the ids of the eligible tags |
| Tags.PopularCandidatesDistinct | Services/Tags/TagService.cs:14-33 | with unique tag ids no two candidates share an id, so no tag is counted twice |
| Tags.EligibleIdsDistinct | Services/Tags/TagService.cs:14-16 | the ids of the tags a filter keeps are ids of the table and, with a unique primary key, are distinct |
| TagQueries.PopularTags | Services/Tags/TagService.cs:11-45 | exactly `count` rows or all candidates when fewer, none more often than in the candidate list, most used first |
| TagQueries.PopularTagsAreEligible | Services/Tags/TagService.cs:14-33 | every tag shown is an approved, unbanned, listed tag with its own usage count, used at the ping when one is given |
| TagQueries.PopularTagsLeaveOutLessUsed | Services/Tags/TagService.cs:34-35 | no eligible tag left out is used more than one shown |
| TagQueries.PopularTagsAllShownWhenFew | Services/Tags/TagService.cs:35 | with fewer than `count` tags shown, every eligible tag is shown |
| Tags.SearchCandidates | Services/Tags/TagService.cs:54-56 | exactly the unbanned tags whose name contains the query, each with its join-row count |
| Tags.SearchCandidatesCount | Services/Tags/TagService.cs:54-56 | one candidate per matching tag: exactly as many candidates as unbanned tags whose name contains the query |
| Tags.SearchCandidatesIds | Services/Tags/TagService.cs:54-56 | the candidates carry, in table order, exactly the ids of the matching tags |
| Tags.SearchCandidatesDistinct | Services/Tags/TagService.cs:54-56 | with unique tag ids no two candidates share an id, so no tag is suggested twice |
| TagQueries.SearchTags | Services/Tags/TagService.cs:47-69 | nothing for a blank query; otherwise exactly `count` rows or all matches when fewer, none more often than in the match list, shortest names first |
| TagQueries.SearchTagsMatch | Services/Tags/TagService.cs:52-62 | every suggestion is an unbanned tag whose name contains the trimmed lower-cased query, with its join-row count |
| TagQueries.SearchTagsShortestFirst | Services/Tags/TagService.cs:57-58 | no matching tag left out has a shorter name than a suggestion |
| TagQueries.SearchTagsAllShownWhenFew | Services/Tags/TagService.cs:58 | for a non-blank query with fewer than `count` suggestions, every matching tag is suggested |
| TagQueries.BannedTagIsHidden | Services/Tags/TagService.cs:16 | a banned tag appears in neither the popular list nor the search results |
| Tags.TagService.constructor | Services/Tags/TagService.cs:9 | the service starts over the given tables |
| Tags.TagService.ApproveTag | Services/Tags/TagService.cs:71-80 | KeyNotFound exactly for an unknown id; otherwise approved and unbanned, nothing else changes; primary keys kept |
| Tags.TagService.BanTag | Services/Tags/TagService.cs:82-91 | KeyNotFound exactly for an unknown id; otherwise banned and unapproved, nothing else changes; primary keys kept |
| Tags.TagService.SetTagFlags | Services/Tags/TagService.cs:73-78 | the shared find-and-set of both flags, with the KeyNotFound case |
| Tags.TagService.DeleteTagAsAdmin | Services/Tags/TagService.cs:153-162 | an unknown id changes nothing; otherwise the tag and its join rows are gone; primary keys kept |
| Tags.TagService.MergeTag | Services/Tags/TagService.cs:93-151 | merging a tag into itself does nothing; KeyNotFound exactly when either tag is missing; otherwise the source tag is deleted and the join table is MergedJoins of the old one, without duplicate keys |
| Tags.ReparentJoins | Services/Tags/TagService.cs:110-144 | the loop leaves a duplicate-free join table whose rows are MergedJoins of the old ones |
| Tags.AlreadyHavingBoth | Services/Tags/TagService.cs:114-122 | the reviews found already having the target are exactly those joined to both tags |
| Tags.MergeStep | Services/Tags/TagService.cs:124-144 | one iteration keeps the loop invariant: the visited source rows are gone, and each visited review is joined to the target once |
| Tags.MergeLoopResult | Services/Tags/TagService.cs:124-147 | once every source row has been visited the join table is MergedJoins of the original |
| Banning.KeysAreDistinct | Services/Moderation/BanningService.cs:13-14 | the "banned:ip:" and "banned:user:" key families never collide, and each is one-to-one |
| Banning.CacheGet | Services/Moderation/BanningService.cs:110 | a cached value reads back exactly while its key is present and unexpired |
| Banning.FindUser | Services/Moderation/BanningService.cs:18 | finds a row exactly when a user has the id, and the row found has that id |
| Banning.BanIpStep | Services/Moderation/BanningService.cs:62-92 | an address that already has a row changes nothing; otherwise the row is added and the reason cached: for good without an expiry, until the expiry while it lies ahead, not at all once it has passed |
| Banning.BanUserStep | Services/Moderation/BanningService.cs:16-48 | unknown or already banned users change nothing; otherwise only that user becomes banned with the reason and one more ban and the reason is cached without expiry; when the count reaches 3, an address is known and it has no row yet, exactly that address gets a row with the automatic reason and an unexpiring cache entry; otherwise the address table and the rest of the cache are unchanged |
| Banning.UnbanUserStep | Services/Moderation/BanningService.cs:50-60 | unknown or unbanned users change nothing; otherwise only IsBanned is cleared and the user's cache key dropped |
| Banning.UnbanIpStep | Services/Moderation/BanningService.cs:94-105 | removes the row and the cache key exactly when a row exists |
| Banning.CheckBan | Services/Moderation/BanningService.cs:107-127 | banned exactly when a reason is returned; an address reason wins, then the user's when an id is given, otherwise not banned |
| Banning.BanIpKeepsConsistent | Services/Moderation/BanningService.cs:62-92 | an address ban keeps the user keys in step with IsBanned and every cached address backed by a row |
| Banning.BanUserKeepsConsistent | Services/Moderation/BanningService.cs:16-48 | a user ban, with the threshold address ban, keeps the stores consistent |
| Banning.UnbanUserKeepsConsistent | Services/Moderation/BanningService.cs:50-60 | an unban keeps the stores consistent |
| Banning.UnbanIpKeepsConsistent | Services/Moderation/BanningService.cs:94-105 | an address unban keeps the stores consistent |
| Banning.BanUserIdempotent | Services/Moderation/BanningService.cs:25 | banning a banned user again changes nothing: no second count, no cache write |
| Banning.BannedUserIsStopped | Services/Moderation/BanningService.cs:40 | after a ban every later request carrying the user's id is stopped, from any address |
| Banning.UnbannedUserPasses | Services/Moderation/BanningService.cs:59 | after an unban a request with the user's id passes unless its address is banned |
| BannedUsers.ToBannedDtos | Services/Moderation/BanningService.cs:154-160 | one BannedUserDto per user row, in order |
| BannedUsers.BannedByCount | Services/Moderation/BanningService.cs:147-151 | exactly the banned users, each as often as in the table, highest BanCount first |
| BannedUsers.BannedPage | Services/Moderation/BanningService.cs:150-153 | the page is the slice of the ordered banned users at the wrapped, clamped offset, of length `limit` or what remains; only banned users, highest BanCount first |
| BannedUsers.PageKeepsOrder | Services/Moderation/BanningService.cs:152-153 | a page of an ordered list holds only its rows and keeps the order |
| BannedUsers.GetBannedUsers | Services/Moderation/BanningService.cs:145-164 | TotalCount counts all banned users; page and size echo the arguments; the items are the DTOs of that page's rows, one per row in order, as many as the page holds |
| BannedUsers.FirstPageIsMostBanned | Services/Moderation/BanningService.cs:151-153 | with at least `limit` banned users, page 1 is the `limit` most banned |
| BannedUsers.GetBannedUser | Services/Moderation/BanningService.cs:166-189 | a banned user matching the first criterion given is returned if one exists, none otherwise, and none when no criterion is given |
| Banning.BanningService.constructor | Services/Moderation/BanningService.cs:8-11 | the service starts over the given stores |
| Banning.BanningService.BanIp | Services/Moderation/BanningService.cs:62-92 | the new stores are those of BanIpStep; consistency is kept |
| Banning.BanningService.BanUser | Services/Moderation/BanningService.cs:16-48 | the new stores are those of BanUserStep; consistency is kept |
| Banning.BanningService.UnbanUser | Services/Moderation/BanningService.cs:50-60 | the new stores are those of UnbanUserStep; consistency is kept |
| Banning.BanningService.UnbanIp | Services/Moderation/BanningService.cs:94-105 | the new stores are those of UnbanIpStep; consistency is kept |
| BanningMiddleware.FirstAddress | Middleware/BanningMiddleware.cs:41 | the address is empty exactly when the first comma-separated field is blank; it holds no comma and has no white space at either end |
| BanningMiddleware.ForwardedIp | Middleware/BanningMiddleware.cs:39-44 | an address is taken from the header exactly when it is present and its first field is not blank, and it is that field trimmed |
| BanningMiddleware.ClientIp | Middleware/BanningMiddleware.cs:34-47 | the forwarded address, else the remote address, else "unknown" |
| BanningMiddleware.ForwardedAddressKeptVerbatim | Middleware/BanningMiddleware.cs:41-43 | a header whose first entry starts with a bare address yields exactly that address; later fields and values are ignored |
| BanningMiddleware.FirstFieldStopsAtSeparator | Middleware/BanningMiddleware.cs:41 | the first field of "ip,rest" is "ip" when ip holds no comma |
| BanningMiddleware.Gate | Middleware/BanningMiddleware.cs:11-29 | the request is forbidden exactly when the ban check of its client address and user id says banned, with the fixed error text and the check's reason |
| BanningMiddleware.BannedUserIsForbidden | Middleware/BanningMiddleware.cs:14-18 | once a user is banned through the service their requests are forbidden from every address |
| BanningMiddleware.BannedAddressIsForbidden | Middleware/BanningMiddleware.cs:11-27 | a live address ban forbids every request from that address, with the address's reason |
| BanningMiddleware.AnonymousUnbannedPasses | Middleware/BanningMiddleware.cs:14-31 | an anonymous request from an address without a live ban always passes |
| BanningMiddleware.HttpContext.constructor | Middleware/BanningMiddleware.cs:8 | a fresh context: status 200, no content type, no body, the next delegate not yet called |
| BanningMiddleware.InvokeAsync | Middleware/BanningMiddleware.cs:8-32 | a banned caller gets 403, the content type "application/json; charset=utf-8" that the JSON write leaves in place, and the ban body, and the next delegate is not called; anyone else reaches the next delegate exactly once with the response untouched |
| Blocks.BlockStep | Services/Blocks/BlockService.cs:12-42 | refuses self-blocks and ignores an existing block, changing nothing; a new block adds exactly its row and removes exactly the follows between the two users, in both directions |
| Blocks.UnblockStep | Services/Blocks/BlockService.cs:44-53 | exactly the given row is gone, every other row stays |
| Blocks.IsBlockedMeansRow | Services/Blocks/BlockService.cs:64-68 | the blocked test holds exactly when the one (blocker, blocked) row exists |
| Blocks.BlockedUsers | Services/Blocks/BlockService.cs:55-62 | every user the caller blocked is listed, and, with a consistent user map, only those |
| Blocks.Blacklist | Services/Blocks/BlockService.cs:70-87 | exactly the users the caller blocked together with the users who blocked the caller |
| Blocks.BlacklistIsSymmetric | Services/Blocks/BlockService.cs:70-87 | a is on b's blacklist exactly when b is on a's |
| Blocks.BlockSeparates | Services/Blocks/BlockService.cs:12-42 | after a block the blocked user is reported blocked, each is on the other's blacklist, and a new block leaves no follow between them |
| Blocks.BlockOnlyCutsThePair | Services/Blocks/BlockService.cs:31-41 | a block never adds a follow and keeps every follow between other pairs |
| Blocks.BlockIsIdempotent | Services/Blocks/BlockService.cs:17-20 | blocking again changes nothing |
| Blocks.UnblockDoesNotRestoreFollows | Services/Blocks/BlockService.cs:44-53 | unblocking removes the new block's row but the follows it cut stay cut |
| Blocks.BlockService.constructor | Services/Blocks/BlockService.cs:10 | the service starts over the given tables |
| Blocks.BlockService.BlockUser | Services/Blocks/BlockService.cs:12-42 | outcome and new tables are those of BlockStep |
| Blocks.BlockService.UnblockUser | Services/Blocks/BlockService.cs:44-53 | the blocks are those of UnblockStep; the follows are unchanged |
| Blocks.BlockService.IsBlockedBy | Services/Blocks/BlockService.cs:64-68 | true exactly when the (blocker, blocked) row exists |
| Blocks.BlockService.GetBlockedUsers | Services/Blocks/BlockService.cs:55-62 | every user the caller blocked, and, with a consistent user map, only those |
| Blocks.BlockService.GetBlacklistedUserIds | Services/Blocks/BlockService.cs:70-87 | exactly the ids with a block row to or from the caller |
| Reviews.ActivityRows | Controllers/Reviews/ReviewsController.cs:76 | exactly the reviews of the activity |
| Reviews.NewestFirst | Controllers/Reviews/ReviewsController.cs:75-77 | the activity's reviews, each as often as in the table, newest first |
| Reviews.CreateReviewStep | Controllers/Reviews/ReviewsController.cs:15-64 | Unauthorized exactly without an id or with a blank name; then NotFound exactly for an unknown activity; then Conflict exactly when the user already reviewed it; a refusal changes nothing, success appends exactly the new review and returns its DTO |
| Reviews.CreateKeepsOnePerUser | Controllers/Reviews/ReviewsController.cs:32-39 | creating keeps at most one review per user and activity |
| Reviews.SecondReviewConflicts | Controllers/Reviews/ReviewsController.cs:33-39 | after a successful review the same user's next review of that activity is refused and changes nothing |
| Reviews.ToDtos | Controllers/Reviews/ReviewsController.cs:78-84 | one DTO per row, in order |
| Reviews.GetReviews | Controllers/Reviews/ReviewsController.cs:67-88 | NotFound exactly for an unknown activity; otherwise every review of the activity and only those, as many, newest first |
| Reviews.ReviewsController.constructor | Controllers/Reviews/ReviewsController.cs:12 | the controller starts over the given table |
| Reviews.ReviewsController.CreateReview | Controllers/Reviews/ReviewsController.cs:15-64 | answer and new table are those of CreateReviewStep; the identity advances only on an insert; one review per user and activity is kept |
| ReviewService.CreateReviewAsyncStep | Services/Reviews/ReviewService.cs:15-49 | KeyNotFound exactly for an unknown activity, changing nothing; otherwise exactly the new review is appended and its DTO returned |
| ReviewService.ServiceAllowsSecondReview | Services/Reviews/ReviewService.cs:17-38 | the service has no per-user check: a user who already reviewed the activity ends up with two reviews of it |
| ReviewService.ParseScope | Services/Reviews/ReviewService.cs:64-86 | "mine" and "friends" arms are taken exactly for those words lower-cased; every other word takes the default arm |
| ReviewService.ScopeRows | Services/Reviews/ReviewService.cs:64-86 | exactly the rows the scope keeps, still newest first |
| ReviewService.ScopeRowsCounts | Services/Reviews/ReviewService.cs:64-86 | the scope keeps every copy of a row in scope and no copy of one out of it |
| ReviewService.ListedRows | Services/Reviews/ReviewService.cs:51-86 | each review of the activity that the scope lets through, as often as in the table, and nothing else |
| ReviewService.ScopedRowsAreListed | Services/Reviews/ReviewService.cs:58-86 | the ordered, scoped rows hold each listed review exactly as often as the table does |
| ReviewService.NoFriendsListsNothing | Services/Reviews/ReviewService.cs:71-79 | with the "friends" scope and no friends nothing is listed |
| ReviewService.GetReviewsAsync | Services/Reviews/ReviewService.cs:51-97 | KeyNotFound exactly for an unknown activity; otherwise every review of the activity in scope and only those, as many DTOs as such reviews, newest first; "friends" without friends is empty |
| ReviewService.ScopedDtos | Services/Reviews/ReviewService.cs:88-96 | the projection keeps the newest-first order and the scoped rows, each one present |
| ReviewService.ScopedIsPartOfGlobal | Services/Reviews/ReviewService.cs:64-86 | every scope returns a part of the global list |
| ReviewService.GlobalWordIsGlobal | Services/Reviews/ReviewService.cs:82-85 | the word "global" selects the unfiltered listing, as the default arm does |
| ReviewService.ScopeIgnoresCase | Services/Reviews/ReviewService.cs:64 | the scope word is matched without regard to case |
| ReviewService.ReviewService.constructor | Services/Reviews/ReviewService.cs:10-13 | the service starts over the given table |
| ReviewService.ReviewService.CreateReviewAsync | Services/Reviews/ReviewService.cs:15-49 | outcome and new table are those of CreateReviewAsyncStep; the identity advances only on an insert |
| Activities.CreateStep | Controllers/Activities/ActivitiesController.cs:22-75 | NotFound exactly for an unknown place; then BadRequest exactly for a blank name, then for an unknown kind; then Conflict exactly when the trimmed name is taken at the place; a refusal changes nothing, success appends exactly the new row with the trimmed name and returns its details with the kind's name |
| Activities.CreateKeepsNamesUnique | Controllers/Activities/ActivitiesController.cs:43-48 | creating keeps activity names unique within each place |
| Activities.CreatedNameIsTrimmed | Controllers/Activities/ActivitiesController.cs:30 | the stored name is not blank, has no white space at either end and is its own trim |
| Activities.PaddedNameConflicts | Controllers/Activities/ActivitiesController.cs:30-48 | names that differ only in surrounding white space are one name: after one is created, the other is a Conflict |
| Activities.ActivitiesController.constructor | Controllers/Activities/ActivitiesController.cs:16-19 | the controller starts over the given tables |
| Activities.ActivitiesController.Create | Controllers/Activities/ActivitiesController.cs:22-75 | answer and new table are those of CreateStep; the identity advances only on an insert; names stay unique per place |
| PlaceQueries.FilterIgnoresCaseAndPadding | Services/Places/PlaceService.cs:120-126 | an activity whose lower-cased name equals the trimmed, lower-cased query passes the name filter, whatever the query's case and padding |
| PlaceQueries.KindNames | Services/Places/PlaceService.cs:80-84 | every kind name of the place's activities, each exactly once |
| PlaceQueries.KindsOf | Services/Places/PlaceService.cs:81-82 | exactly the names of the activities' kinds, for activities that have one |
| PlaceQueries.WithinRadius | Services/Places/PlaceService.cs:150 | exactly the candidates within the radius, none more often than among the candidates |
| PlaceQueries.NearestWithin | Services/Places/PlaceService.cs:150-152 | exactly 100 candidates within the radius or all when fewer, none more often than among them, nearest first; no candidate left out within the radius is nearer than one kept, and with fewer than 100 none is left out |
| PlaceService.ToDetails | Services/Places/PlaceService.cs:65-96 | the DTO echoes the place's id, name, visibility and coordinates; IsOwner exactly for the signed-in owner; a missing address becomes empty; one summary per activity, at the same index, echoing its id, name and kind; the kind names are distinct and complete |
| PlaceService.CreatePlaceStep | Services/Places/PlaceService.cs:12-53 | refused exactly when the user already created 10 places since the start of the day, changing nothing; otherwise exactly the new place with trimmed name and address is appended, and its DTO says IsOwner with no activities |
| PlaceService.DailyCapHolds | Services/Places/PlaceService.cs:14-24 | creating never takes a user past 10 places a day, and leaves other users' counts unchanged |
| PlaceService.FindPlace | Services/Places/PlaceService.cs:57-61 | the first row with the id, if any |
| PlaceService.GetPlaceById | Services/Places/PlaceService.cs:55-97 | null exactly for a missing id or a private place the caller does not own; otherwise the place's details for the caller |
| PlaceService.PrivatePlaceOnlyForOwner | Services/Places/PlaceService.cs:65-69 | a private place is returned exactly to its owner, and then says IsOwner |
| PlaceService.NearbyCandidates | Services/Places/PlaceService.cs:110-136 | exactly the places in the box, visible to the caller, passing both activity filters |
| PlaceService.SearchNearbyPlaces | Services/Places/PlaceService.cs:99-153 | exactly 100 candidates within the radius or all when fewer, none more often than among them, nearest first; no candidate left out is nearer than one kept; with fewer than 100 none is left out |
| PlaceService.NearbyHidesOthersPrivatePlaces | Services/Places/PlaceService.cs:113 | a nearby search never shows a private place to anyone but its owner |
| PlaceService.SearchNearby | Services/Places/PlaceService.cs:155-185 | one DTO per row found, in order, each the row's details for the caller |
| PlaceService.ToDetailsAll | Services/Places/PlaceService.cs:155-185 | one DTO per row, in order, each the row's details for the caller |
| PlaceService.PlaceService.constructor | Services/Places/PlaceService.cs:10 | the service starts over the given table |
| PlaceService.PlaceService.CreatePlaceAsync | Services/Places/PlaceService.cs:12-53 | outcome and new table are those of CreatePlaceStep; the identity advances only on an insert |
| PlacesController.NamesOf | Controllers/Places/PlacesController.cs:52-53 | one name per activity, in order |
| PlacesController.ToDetails | Controllers/Places/PlacesController.cs:52-71 | the DTO echoes id, name, address and coordinates; every activity name and every kind name of the place appears, each exactly once |
| PlacesController.CreateStep | Controllers/Places/PlacesController.cs:15-39 | Create always inserts: the table gains exactly the new place with trimmed name and address and no activities, and the DTO echoes it |
| PlacesController.CreatedFieldsAreTrimmed | Controllers/Places/PlacesController.cs:19-20 | the stored name and address are their own trims |
| PlacesController.FindPlace | Controllers/Places/PlacesController.cs:45-48 | a row with the id if there is one, none otherwise |
| PlacesController.GetById | Controllers/Places/PlacesController.cs:43-72 | NotFound exactly for a missing id; otherwise the details of a place with that id, with no visibility rule |
| PlacesController.NearbyCandidates | Controllers/Places/PlacesController.cs:90-114 | exactly the places in the box passing both activity filters, private ones included |
| PlacesController.NearbyPlaces | Controllers/Places/PlacesController.cs:116-131 | exactly 100 candidates within the radius or all when fewer, none more often than among them, nearest first; none left out is nearer than one kept; with fewer than 100 none is left out |
| PlacesController.BlankFiltersKeepEverything | Controllers/Places/PlacesController.cs:98-114 | with both filters absent every place in the box and in range is returned when fewer than 100 are |
| PlacesController.Nearby | Controllers/Places/PlacesController.cs:76-158 | one DTO per row found, in order |
| PlacesController.ToDetailsAll | Controllers/Places/PlacesController.cs:133-158 | one DTO per row, in order |
| PlacesController.PlacesController.constructor | Controllers/Places/PlacesController.cs:11 | the controller starts over the given table |
| PlacesController.PlacesController.Create | Controllers/Places/PlacesController.cs:15-39 | result and new table are those of CreateStep; the identity advances by one |
| BusinessAnalytics.FindMetric | Services/Business/BusinessAnalyticsService.cs:23-24 | a row for the place and day if there is one, none otherwise |
| BusinessAnalytics.TotalViewsUpdate | Services/Business/BusinessAnalyticsService.cs:86-88 | replacing one row changes the place's view total by the difference of that row's views |
| BusinessAnalytics.TrackPlaceViewStep | Services/Business/BusinessAnalyticsService.cs:17-44 | without a row for the place and day a row with ViewCount 1 is appended; otherwise that row's count goes up by one and every other row is unchanged |
| BusinessAnalytics.TrackKeepsOneRowPerDay | Services/Business/BusinessAnalyticsService.cs:23-36 | tracking keeps at most one row per place and day |
| BusinessAnalytics.TrackAddsOneView | Services/Business/BusinessAnalyticsService.cs:26-41 | a view adds exactly one to the place's total and nothing to any other place's; a row is added exactly when none existed for that day |
| BusinessAnalytics.HistoryRows | Services/Business/BusinessAnalyticsService.cs:80-82 | exactly the place's rows on or after the cutoff, each as often as in the table, in date order |
| BusinessAnalytics.ToStats | Services/Business/BusinessAnalyticsService.cs:83 | one (date, views) entry per row, in order |
| BusinessAnalytics.ReviewTimes | Services/Business/BusinessAnalyticsService.cs:94-95 | the creation times of the place's reviews |
| BusinessAnalytics.HourGroupsFrom | Services/Business/BusinessAnalyticsService.cs:96-97 | one group per hour from `from` on that has reviews, with its count, in increasing hour |
| BusinessAnalytics.HourGroups | Services/Business/BusinessAnalyticsService.cs:94-98 | one group per hour of the day that has reviews, holding that hour's count, and no other group |
| BusinessAnalytics.SlotOfAbsentHour | Services/Business/BusinessAnalyticsService.cs:100-105 | an hour no group names keeps its initial 0 |
| BusinessAnalytics.SlotOfGroup | Services/Business/BusinessAnalyticsService.cs:101-105 | with distinct hours, each group's count lands in its hour's slot |
| BusinessAnalytics.SlotsCountReviews | Services/Business/BusinessAnalyticsService.cs:94-105 | each hour's slot ends up holding the number of the place's reviews created in that hour |
| BusinessAnalytics.FillPeakHours | Services/Business/BusinessAnalyticsService.cs:100-105 | 24 slots, each what the loop leaves for that hour |
| BusinessAnalytics.CountBelowHourEmpty | Services/Business/BusinessAnalyticsService.cs:100 | no reviews count in no hour |
| BusinessAnalytics.CountBelowHourAppend | Services/Business/BusinessAnalyticsService.cs:96 | one more review counts below hour n exactly when its hour is below n |
| BusinessAnalytics.HoursCoverEveryReview | Services/Business/BusinessAnalyticsService.cs:96-104 | every review falls in one of the 24 hours, so none is dropped by the range guard |
| BusinessAnalytics.SlotsSum | Services/Business/BusinessAnalyticsService.cs:100-105 | the first n slots add up to the reviews created before hour n |
| BusinessAnalytics.PeakHour | Services/Business/BusinessAnalyticsService.cs:108 | the first hour with the largest count |
| BusinessAnalytics.MaxOf | Services/Business/BusinessAnalyticsService.cs:108 | an element no smaller than any other |
| BusinessAnalytics.IndexOf | Services/Business/BusinessAnalyticsService.cs:108 | the first position holding the value |
| BusinessAnalytics.BusinessAnalyticsService.constructor | Services/Business/BusinessAnalyticsService.cs:15 | the service starts over the given tables |
| BusinessAnalytics.BusinessAnalyticsService.TrackPlaceViewAsync | Services/Business/BusinessAnalyticsService.cs:17-44 | the new metrics are TrackPlaceViewStep of the old; the identity advances only on an insert; one row per place and day is kept; the place's total goes up by exactly one |
| BusinessAnalytics.BusinessAnalyticsService.GetPlaceAnalyticsAsync | Services/Business/BusinessAnalyticsService.cs:46-125 | KeyNotFound exactly for an unknown place; otherwise the favorites, review and event counts, the last 30 days of history in date order, the all-time total, and 24 hour slots that each count that hour's reviews and add up to the review count |
| Analytics.FindSystemMetric | Services/Analytics/AnalyticsService.cs:147-148 | the first row with that date and metric type, or none when no row has both |
| Analytics.SaveMetricStep | Services/Analytics/AnalyticsService.cs:145-166 | without a row for (date, type) one row is appended with the value and dimensions; with one, that row takes them; every row of another (date, type) is unchanged |
| Analytics.SaveKeepsOneRowPerMetric | Services/Analytics/AnalyticsService.cs:145-166 | saving keeps the table at most one row per (date, type) |
| Analytics.SavedValueIsRead | Services/Analytics/AnalyticsService.cs:145-166 | after saving, looking up (date, type) finds the saved value and dimensions |
| Analytics.FindAfterAppend | Services/Analytics/AnalyticsService.cs:157-163 | appending a row leaves an existing lookup where it was and makes a missing one find the new row when it matches |
| Analytics.FindAfterUpdate | Services/Analytics/AnalyticsService.cs:150-154 | overwriting a row in place with one of the same key changes no lookup |
| Analytics.SaveCurrentValueIsNoOp | Services/Analytics/AnalyticsService.cs:145-166 | saving the value and dimensions a row already holds leaves the table and the identity counter as they were |
| Analytics.SaveKeepsOtherLookups | Services/Analytics/AnalyticsService.cs:145-166 | saving one (date, type) does not change what another (date, type) reads |
| Analytics.UsersOn | Services/Analytics/AnalyticsService.cs:28-29 | exactly the users with a log row on that day |
| Analytics.ActiveSince | Services/Analytics/AnalyticsService.cs:32-43 | exactly the distinct users with a log row on or after the day |
| Analytics.DashboardStats | Services/Analytics/AnalyticsService.cs:21-61 | DAU is today's log-row count, WAU and MAU the distinct users since today-6 and today-29, total users the user count, new users 0 |
| Analytics.LogsOnCountsUsers | Services/Analytics/AnalyticsService.cs:28-29 | with one log row per user and day, the day's row count is its number of distinct users |
| Analytics.PrefixKeepsOneLog | Services/Analytics/AnalyticsService.cs:28-29 | a prefix of a log with one row per user and day has the same property |
| Analytics.DashboardWindowsNest | Services/Analytics/AnalyticsService.cs:23-43 | with one log row per user and day, DAU <= WAU <= MAU |
| Analytics.SubsetSize | Services/Analytics/AnalyticsService.cs:32-43 | a set inside another is no larger, the step that nests the windows |
| Analytics.ComputedMetricsAreRead | Services/Analytics/AnalyticsService.cs:126-143 | after computing a day its DAU row holds that day's log count and its TotalUsers row the user count |
| Analytics.ComputeIsIdempotent | Services/Analytics/AnalyticsService.cs:126-143 | computing the same day a second time with unchanged inputs leaves the table and the identity counter unchanged |
| Analytics.ComputeDailyMetricsStep | Services/Analytics/AnalyticsService.cs:126-143 | the DAU save then the TotalUsers save for the date: at most two rows are added, none removed, and the rows of other dates are unchanged; ComputedMetricsAreRead and ComputeIsIdempotent state the rest |
| Analytics.HistoricalGrowth | Services/Analytics/AnalyticsService.cs:63-70 | exactly the rows of that metric type dated `days` days before today or later, each as often as in the table, in date order |
| Analytics.RegionRows | Services/Analytics/AnalyticsService.cs:77-78 | exactly the RegionGrowth rows, none more often than in the table |
| Analytics.GrowthByRegion | Services/Analytics/AnalyticsService.cs:72-82 | exactly 7 RegionGrowth rows or all of them when fewer, none more often than in the table, latest first |
| Analytics.GrowthByRegionKeepsNewest | Services/Analytics/AnalyticsService.cs:78-80 | every row shown is a RegionGrowth row of the table, and no RegionGrowth row left out is later than one shown |
| Analytics.GrowthByRegionAllShownWhenFew | Services/Analytics/AnalyticsService.cs:80 | with fewer than 7 rows shown, every RegionGrowth row is shown |
| Analytics.Interactions | Services/Analytics/AnalyticsService.cs:89-95 | positive exactly when some review of the place since the cutoff qualifies (its place is public) |
| Analytics.InteractionsSplit | Services/Analytics/AnalyticsService.cs:95-97 | a place's interaction count is its review count plus its check-in count |
| Analytics.QualifyingPlaceIds | Services/Analytics/AnalyticsService.cs:89-91 | exactly the places with a qualifying review since the cutoff |
| Analytics.TrendingGroups | Services/Analytics/AnalyticsService.cs:89-98 | one group per place, only public places, and every place with an interaction has its group |
| Analytics.TrendingOfQualifying | Services/Analytics/AnalyticsService.cs:89-98 | for distinct qualifying place ids, one entry per public place with its own counts, no entry twice, and every place with an interaction present |
| Analytics.BusiestFirst | Services/Analytics/AnalyticsService.cs:99-100 | the first ten (or all) groups, busiest first, drawn from the groups without repeats; no group left out is busier than one kept |
| Analytics.TrendingPlaces | Services/Analytics/AnalyticsService.cs:84-110 | at most ten entries, each place once, in non-increasing interaction count |
| Analytics.TrendingIsTopTen | Services/Analytics/AnalyticsService.cs:84-110 | each entry is a public place with its own review and check-in counts of the last 7 days; no place left out has more interactions than one kept; with fewer than ten entries none is left out |
| Analytics.ModerationStats | Services/Analytics/AnalyticsService.cs:112-124 | pending reports and banned users are counted, banned IPs is the ban count, rejected reviews is 0 |
| Analytics.AnalyticsService.constructor | Services/Analytics/AnalyticsService.cs:145-166 | the service starts over the given table and identity counter |
| Analytics.AnalyticsService.SaveMetric | Services/Analytics/AnalyticsService.cs:145-166 | the table becomes SaveMetricStep of the old table, keeping one row per (date, type) |
| Analytics.AnalyticsService.ComputeDailyMetricsAsync | Services/Analytics/AnalyticsService.cs:126-143 | the table becomes the DAU save followed by the TotalUsers save, keeping one row per (date, type) |
| ProfileService.FindUser | Services/Profiles/ProfileService.cs:13 | a user with the id if there is one, none otherwise |
| ProfileService.GetMyProfileAsync | Services/Profiles/ProfileService.cs:11-30 | KeyNotFound exactly when no user has the id; otherwise the personal profile of a user with that id |
| ProfileService.ServiceMatches | Services/Profiles/ProfileService.cs:41-42 | exactly the users the service's filter keeps, none more often than in the table |
| ProfileService.SearchRows | Services/Profiles/ProfileService.cs:39-44 | exactly 15 users whose normalised name starts with the upper-cased query, never the caller, or all such users when fewer, none more often than in the table, in user-name order; no matching user left out sorts before one kept; with fewer than 15 none is left out |
| ProfileService.ByUserNameTop | Services/Profiles/ProfileService.cs:43-44 | exactly 15 of the rows or all when fewer, none more often than in the input, in user-name order; none left out sorts before one kept; with fewer than 15 none is left out |
| ProfileService.ToProfiles | Services/Profiles/ProfileService.cs:45-51 | one profile per user row, in order |
| ProfileService.SearchProfilesAsync | Services/Profiles/ProfileService.cs:32-57 | ArgumentException exactly for a blank query; otherwise the profiles of SearchRows |
| ProfileService.SearchExcludesCaller | Services/Profiles/ProfileService.cs:42 | the searching user is never among the results |
| ProfileService.SearchIgnoresCase | Services/Profiles/ProfileService.cs:37-42 | with normalised names, a user whose name starts with the query in any letter case is found unless it is the caller, when fewer than 15 match |
| ProfilesController.Me | Controllers/Profiles/ProfilesController.cs:24-42 | Unauthorized exactly without an id claim or for an unknown id; otherwise the same profile the service returns |
| ProfilesController.ControllerMatches | Controllers/Profiles/ProfilesController.cs:55 | exactly the users the controller's filter keeps, none more often than in the table |
| ProfilesController.SearchMatches | Controllers/Profiles/ProfilesController.cs:54-57 | exactly 15 users whose lower-cased name starts with the lower-cased query, or all such users when fewer, none more often than in the table, in user-name order; no match left out sorts before one kept; with fewer than 15 none is left out |
| ProfilesController.Search | Controllers/Profiles/ProfilesController.cs:46-68 | BadRequest exactly for a missing or blank username; otherwise the profiles of SearchMatches |
| ProfilesController.CaseFoldsAgree | Controllers/Profiles/ProfilesController.cs:52-55 | two characters agree upper-cased exactly when they agree lower-cased |
| ProfilesController.PrefixFoldsAgree | Controllers/Profiles/ProfilesController.cs:52-55 | a prefix test on upper-cased strings agrees with the same test on lower-cased strings |
| ProfilesController.ServiceIsControllerLessCaller | Controllers/Profiles/ProfilesController.cs:55 | for a normalised user, the service's filter is the controller's filter less the caller |
| ProfilesController.SearchFindsCaller | Controllers/Profiles/ProfilesController.cs:54-57 | unlike the service, the controller returns the caller for their own name when fewer than 15 match |
| Pagination.CeilDiv | Dtos/Common/PaginatedResult.cs:9 | the page count is the least number of whole pages that hold `count` rows (the bound holds in both directions for either sign of the page size); no value for a zero page size |
| Pagination.PageCountBounds | Dtos/Common/PaginatedResult.cs:9 | for a positive page size and row count, the page count is never negative, is zero exactly for no rows, and covers every row with no page to spare |
| Pagination.NewPaginatedResult | Dtos/Common/PaginatedResult.cs:3-9 | the fields echo the arguments and TotalPages is the exact page count, none for a zero page size |
| Pagination.Wrap32 | Utils/PaginationExtensions.cs:12 | C# unchecked `int` arithmetic: a value in the 32-bit range, congruent to the input modulo 2^32, and the input itself when it fits |
| Pagination.PageStart | Utils/PaginationExtensions.cs:12 | where `Skip` of the wrapped offset starts: 0 for a non-positive offset, the offset when it lies within the rows, the end otherwise |
| Pagination.PageOf | Utils/PaginationExtensions.cs:12-13 | the slice at the page start, of length pageSize or what remains, none for a non-positive pageSize |
| Pagination.PageIsSkipTake | Utils/PaginationExtensions.cs:12-13 | the page is `Take(pageSize)` of `Skip` by the wrapped offset |
| Pagination.ToPaginatedResult | Utils/PaginationExtensions.cs:8-29 | TotalCount is the number of rows; the page is the contiguous slice at the offset (pageNumber - 1) * pageSize computed with 32-bit wrap-around and clamped as `Skip` clamps, of length pageSize or what remains; empty past the end |
| Pagination.FullPage | Utils/PaginationExtensions.cs:19-29 | a page inside the range is exactly the pageSize rows at its offset |
| Pagination.OffsetInRange | Utils/PaginationExtensions.cs:24 | for a page inside a list that fits in an `int`, the offset does not wrap and is non-negative |
| Pagination.HugePageWrapsToFirst | Utils/PaginationExtensions.cs:24 | page 30000000 of size 100 wraps to the offset -1294967396 and so returns the first 100 rows |
| Pagination.PagedResult.TotalPages | Dtos/Common/PagedResult.cs:9 | the getter reads the exact page count of the current TotalCount and PageSize |
| Pagination.EmptyPagedResult | Dtos/Common/PagedResult.cs:5-11 | the parameterless constructor: no items, every number 0 |
| Pagination.TotalPagesFollowsCount | Dtos/Common/PagedResult.cs:9 | after TotalCount is reassigned the getter reports no pages exactly when the new count is 0 |
| Events.ComputeStatus | Services/Events/EventsService.cs:7-14 | the status is one of the three; Upcoming exactly before the start, Ongoing exactly from the start until the end, Ended otherwise |
| Events.StatusNeverMovesBack | Services/Events/EventsService.cs:11-13 | as time passes the status only moves forward |
| Events.EmptySpanNeverOngoing | Services/Events/EventsService.cs:12 | an event that ends no later than it starts is never Ongoing |

## Left out

- Floating-point geometry is left out: the haversine distance, the bounding-box degree deltas and the AvgRating average. Distance is a parameter `dist`, and the bounding-box test is a parameter `inBox`. No relation between the two is assumed.
- Identity, tokens and passwords are left out. The user id and user name claims are optional parameters.
- Identity's maintenance of `NormalizedUserName` is left out. The profile lemmas assume it as the `Normalized` invariant.
- `CheckReportThresholdAsync` is left out, because it only logs. All logger calls are left out too.
- Transactions and races between concurrent requests are left out. Each operation is one atomic step over the abstract state, and each `SaveChangesAsync` either saves everything or nothing.
- A failing Redis call is not modelled. The cache is a map whose entries may carry an absolute expiry, and an expired entry reads as missing.
- The friend service behind the "friends" review scope is not part of this model. The caller's friend ids are a parameter.
- The foreign key from a PlaceDailyMetrics row to its place is not enforced. A view of an unknown place id is counted like any other.
- Counters and sums are unbounded integers. The 32-bit overflow of `BanCount`, `ViewCount` and the view totals is not modelled. The page offset `(pageNumber - 1) * pageSize` is the one place where the wrap is modelled.
- Pagination.ToPaginatedResult: for the database query path a negative offset is handed to the database, which rejects it, whereas the model follows the in-memory `Skip`, which skips nothing. The model does not distinguish the two paths.
- BannedUsers.BannedPage: a negative wrapped offset is handed to the database, which rejects it; the model skips nothing, as the in-memory `Skip` does.
- ProfileService.SearchRows, ProfileService.ByUserNameTop, ProfilesController.SearchMatches: the user-name order is the ordinal order `LexLeq`, whereas in the source the database collation decides it. Ties and case order may differ under another collation.
- Pagination.CeilDiv: a zero page size gives no value, whereas C# `(int)Math.Ceiling(count / 0.0)` converts an infinity or NaN into some unspecified `int`. Floating-point division is left out.
- Letter case is mapped for ASCII letters only. White space is the .NET set below U+0100. Culture-specific and other Unicode case mappings are left out.
- `GroupBy` results come in first-seen order in the model. The database's group order is unspecified, and only the ordered and truncated result is stated.
- Identity columns are a `nextId` counter that each insert takes and increments.
- The peak hour of a place's analytics is computed and its contract proved, but the source only logs it. It is not part of the returned DTO.
- The status and kind enumerations are modelled only with the values their files use.

=== FILE: activities.dfy ===
/** `ActivitiesController.Create`: adding an activity to a place. The
    guards run in order (the place, the name, the kind, the name's
    uniqueness at that place) and only then is one PlaceActivities row
    added.

    The PlaceActivities table is a sequence of rows and `nextId` the next
    identity value; Places enters as the set of its ids and ActivityKinds
    as a map from id to name. `now` stands for `DateTime.UtcNow`. */
module Activities {
  import opened Common

  datatype PlaceActivity = PlaceActivity(id: int, placeId: int, activityKindId: Option<int>, name: string,
                                         description: Option<string>, createdUtc: int)

  datatype ActivityDetailsDto = ActivityDetailsDto(id: int, placeId: int, name: string, activityKindId: Option<int>,
                                                   activityKindName: Option<string>, description: Option<string>,
                                                   createdUtc: int)

  /** The answers of Create: NotFound, the two BadRequests, Conflict, Ok. */
  datatype CreateResult = PlaceNotFound | NameRequired | InvalidKind | DuplicateName | Created(activity: ActivityDetailsDto)

  /** An activity of that name exists at that place. */
  predicate NameTaken(activities: seq<PlaceActivity>, placeId: int, name: string)
  {
    exists i :: 0 <= i < |activities| && activities[i].placeId == placeId && activities[i].name == name
  }

  /** No two activities of one place share a name. */
  predicate UniqueNamePerPlace(activities: seq<PlaceActivity>)
  {
    forall i, j :: 0 <= i < j < |activities| ==>
      activities[i].placeId != activities[j].placeId || activities[i].name != activities[j].name
  }

  /** Create on the PlaceActivities table: the answer and the new table. */
  function CreateStep(activities: seq<PlaceActivity>, places: set<int>, kinds: map<int, string>, nextId: int,
                      placeId: int, name: string, activityKindId: Option<int>, description: Option<string>, now: int)
    : (r: (CreateResult, seq<PlaceActivity>))
    ensures r.0.PlaceNotFound? <==> placeId !in places
    ensures r.0.NameRequired? <==> placeId in places && IsBlank(name)
    ensures r.0.InvalidKind? <==>
              placeId in places && !IsBlank(name) && activityKindId.Some? && activityKindId.value !in kinds
    ensures r.0.DuplicateName? <==>
              && placeId in places && !IsBlank(name) && (activityKindId.None? || activityKindId.value in kinds)
              && NameTaken(activities, placeId, Trim(name))
    ensures !r.0.Created? ==> r.1 == activities
    ensures r.0.Created? ==>
              var added := PlaceActivity(nextId, placeId, activityKindId, Trim(name), description, now);
              && r.1 == activities + [added]
              && r.0.activity == ActivityDetailsDto(nextId, placeId, Trim(name), activityKindId,
                                                    if activityKindId.Some? then Some(kinds[activityKindId.value]) else None,
                                                    description, now)
  {
    BlankIffTrimEmpty(name);
    if placeId !in places then (PlaceNotFound, activities)
    else
      var trimmed := Trim(name);
      if IsBlank(trimmed) then (NameRequired, activities)
      else if activityKindId.Some? && activityKindId.value !in kinds then (InvalidKind, activities)
      else if NameTaken(activities, placeId, trimmed) then (DuplicateName, activities)
      else
        var kindName := if activityKindId.Some? then Some(kinds[activityKindId.value]) else None;
        var added := PlaceActivity(nextId, placeId, activityKindId, trimmed, description, now);
        (Created(ActivityDetailsDto(added.id, added.placeId, added.name, added.activityKindId, kindName,
                                    added.description, added.createdUtc)),
         activities + [added])
  }

  /** Create keeps names unique within each place. */
  lemma CreateKeepsNamesUnique(activities: seq<PlaceActivity>, places: set<int>, kinds: map<int, string>, nextId: int,
                               placeId: int, name: string, activityKindId: Option<int>, description: Option<string>, now: int)
    requires UniqueNamePerPlace(activities)
    ensures UniqueNamePerPlace(CreateStep(activities, places, kinds, nextId, placeId, name, activityKindId, description, now).1)
  {
    var (res, activities') := CreateStep(activities, places, kinds, nextId, placeId, name, activityKindId, description, now);
    if res.Created? {
      forall i, j | 0 <= i < j < |activities'|
        ensures activities'[i].placeId != activities'[j].placeId || activities'[i].name != activities'[j].name
      {
        if j == |activities| {
          assert activities'[i] == activities[i];
        }
      }
    }
  }

  /** The stored name is the trimmed one: not blank, no white space at
      either end, and trimming it again changes nothing. */
  lemma CreatedNameIsTrimmed(activities: seq<PlaceActivity>, places: set<int>, kinds: map<int, string>, nextId: int,
                             placeId: int, name: string, activityKindId: Option<int>, description: Option<string>, now: int)
    ensures var (res, _) := CreateStep(activities, places, kinds, nextId, placeId, name, activityKindId, description, now);
            res.Created? ==>
              var stored := res.activity.name;
              && stored != []
              && !IsWhiteSpace(stored[0]) && !IsWhiteSpace(stored[|stored| - 1])
              && Trim(stored) == stored
  {
    var (res, _) := CreateStep(activities, places, kinds, nextId, placeId, name, activityKindId, description, now);
    if res.Created? {
      TrimIdempotent(name);
    }
  }

  /** Names that differ only in surrounding white space are the same name:
      once one is created, the other is a Conflict. */
  lemma PaddedNameConflicts(activities: seq<PlaceActivity>, places: set<int>, kinds: map<int, string>, nextId: int,
                            placeId: int, name: string, name2: string, activityKindId: Option<int>,
                            description: Option<string>, description2: Option<string>, now: int, later: int)
    requires Trim(name) == Trim(name2)
    ensures var (res, activities') := CreateStep(activities, places, kinds, nextId, placeId, name, activityKindId, description, now);
            res.Created? ==>
              CreateStep(activities', places, kinds, nextId + 1, placeId, name2, activityKindId, description2, later).0 == DuplicateName
  {
    var (res, activities') := CreateStep(activities, places, kinds, nextId, placeId, name, activityKindId, description, now);
    if res.Created? {
      BlankIffTrimEmpty(name);
      BlankIffTrimEmpty(name2);
      assert activities'[|activities|].placeId == placeId && activities'[|activities|].name == Trim(name2);
    }
  }

  /** The controller over the PlaceActivities table. */
  class ActivitiesController {
    var activities: seq<PlaceActivity>
    var nextId: int
    const places: set<int>
    const kinds: map<int, string>

    constructor (activities: seq<PlaceActivity>, nextId: int, places: set<int>, kinds: map<int, string>)
      ensures this.activities == activities && this.nextId == nextId && this.places == places && this.kinds == kinds
    {
      this.activities := activities;
      this.nextId := nextId;
      this.places := places;
      this.kinds := kinds;
    }

    /** Create. */
    method Create(placeId: int, name: string, activityKindId: Option<int>, description: Option<string>, now: int)
      returns (result: CreateResult)
      modifies this
      ensures (result, activities) == CreateStep(old(activities), places, kinds, old(nextId), placeId, name, activityKindId, description, now)
      ensures nextId == if result.Created? then old(nextId) + 1 else old(nextId)
      ensures UniqueNamePerPlace(old(activities)) ==> UniqueNamePerPlace(activities)
    {
      ghost var before := activities;
      if placeId !in places {
        return PlaceNotFound;
      }
      var trimmed := Trim(name);
      BlankIffTrimEmpty(name);
      if IsBlank(trimmed) {
        return NameRequired;
      }
      var kindName: Option<string> := None;
      if activityKindId.Some? {
        if activityKindId.value !in kinds {
          return InvalidKind;
        }
        kindName := Some(kinds[activityKindId.value]);
      }
      if NameTaken(activities, placeId, trimmed) {
        return DuplicateName;
      }
      var pa := PlaceActivity(nextId, placeId, activityKindId, trimmed, description, now);
      activities := activities + [pa];
      nextId := nextId + 1;
      result := Created(ActivityDetailsDto(pa.id, pa.placeId, pa.name, pa.activityKindId, kindName, pa.description, pa.createdUtc));
      if UniqueNamePerPlace(before) {
        CreateKeepsNamesUnique(before, places, kinds, pa.id, placeId, name, activityKindId, description, now);
      }
    }
  }
}

=== FILE: analytics.dfy ===
/** `AnalyticsService`: the admin dashboard counts, the daily system
    metrics with their one-row-per-(date, type) upsert, and the trending,
    growth and moderation queries.

    The DailySystemMetrics table is a sequence of rows with `nextId` the next
    identity value. Dates are day numbers (`DateOnly`) and times are ticks;
    `today` and `now` stand for the clock reads. The user-activity log, the
    users, the reviews, the reports and the IP bans enter as values. */
module Analytics {
  import opened Common
  import opened Sorting

  datatype DailySystemMetric = DailySystemMetric(id: int, date: int, metricType: string, value: real,
                                                 dimensions: Option<string>, createdAt: int)

  /** A UserActivityLogs row, by user and day. */
  datatype UserActivityLog = UserActivityLog(userId: string, date: int)

  datatype DashboardStatsDto = DashboardStatsDto(dau: int, wau: int, mau: int, totalUsers: int, newUsersToday: int)

  /** The two kinds of Reviews row the trending query tells apart. */
  datatype ReviewType = Review | CheckIn

  /** A Reviews row as the trending query sees it: the place of its
      activity, its type and its time. */
  datatype ReviewRow = ReviewRow(placeId: int, kind: ReviewType, createdAt: int)

  /** A Places row: its name and whether its Visibility is Public. */
  datatype PlaceRow = PlaceRow(name: string, isPublic: bool)

  datatype TrendingPlaceDto = TrendingPlaceDto(placeId: int, name: string, reviewCount: int, checkInCount: int,
                                               totalInteractions: int)

  datatype ModerationStatsDto = ModerationStatsDto(pendingReports: int, bannedUsers: int, bannedIps: int,
                                                   rejectedReviews: int)

  const DauType: string := "DAU"
  const TotalUsersType: string := "TotalUsers"
  const RegionGrowthType: string := "RegionGrowth"

  /** The trending list's length and the region list's length. */
  const MaxTrending: int := 10
  const MaxRegionRows: int := 7

  // ---------------------------------------------------------------- SaveMetric

  /** The first row for (date, type). */
  function FindSystemMetric(metrics: seq<DailySystemMetric>, date: int, metricType: string): (r: Option<nat>)
    ensures r.Some? ==> r.value < |metrics| && metrics[r.value].date == date && metrics[r.value].metricType == metricType
    ensures r.Some? ==> forall k :: 0 <= k < r.value ==> metrics[k].date != date || metrics[k].metricType != metricType
    ensures r.None? ==> forall k :: 0 <= k < |metrics| ==> metrics[k].date != date || metrics[k].metricType != metricType
  {
    if metrics == [] then None
    else if metrics[0].date == date && metrics[0].metricType == metricType then Some(0)
    else
      var rest := FindSystemMetric(metrics[1..], date, metricType);
      if rest.Some? then Some(rest.value + 1) else None
  }

  /** At most one row per (date, type). */
  predicate OneRowPerMetric(metrics: seq<DailySystemMetric>)
  {
    forall i, j :: 0 <= i < j < |metrics| ==>
      metrics[i].date != metrics[j].date || metrics[i].metricType != metrics[j].metricType
  }

  /** SaveMetric on the table: the row for (date, type) takes the new value
      and dimensions, or a row is added; the second component is the next
      identity value. Rows for every other (date, type) are untouched. */
  function SaveMetricStep(metrics: seq<DailySystemMetric>, nextId: int, date: int, metricType: string, value: real,
                          dimensions: Option<string>, now: int): (r: (seq<DailySystemMetric>, int))
    ensures FindSystemMetric(metrics, date, metricType).None? ==>
              r == (metrics + [DailySystemMetric(nextId, date, metricType, value, dimensions, now)], nextId + 1)
    ensures FindSystemMetric(metrics, date, metricType).Some? ==>
              var i := FindSystemMetric(metrics, date, metricType).value;
              && r.1 == nextId && |r.0| == |metrics|
              && r.0[i] == metrics[i].(value := value, dimensions := dimensions)
    ensures forall k :: 0 <= k < |metrics| && (metrics[k].date != date || metrics[k].metricType != metricType)
              ==> r.0[k] == metrics[k]
  {
    match FindSystemMetric(metrics, date, metricType)
    case None => (metrics + [DailySystemMetric(nextId, date, metricType, value, dimensions, now)], nextId + 1)
    case Some(i) => (metrics[i := metrics[i].(value := value, dimensions := dimensions)], nextId)
  }

  /** Saving keeps one row per (date, type). */
  lemma SaveKeepsOneRowPerMetric(metrics: seq<DailySystemMetric>, nextId: int, date: int, metricType: string,
                                 value: real, dimensions: Option<string>, now: int)
    requires OneRowPerMetric(metrics)
    ensures OneRowPerMetric(SaveMetricStep(metrics, nextId, date, metricType, value, dimensions, now).0)
  {
    var r := SaveMetricStep(metrics, nextId, date, metricType, value, dimensions, now).0;
    forall i, j | 0 <= i < j < |r| ensures r[i].date != r[j].date || r[i].metricType != r[j].metricType {
      if j < |metrics| {
        assert r[i].date == metrics[i].date && r[i].metricType == metrics[i].metricType;
        assert r[j].date == metrics[j].date && r[j].metricType == metrics[j].metricType;
      } else {
        assert r[i] == metrics[i];
      }
    }
  }

  /** After saving, reading (date, type) finds the saved value and dimensions. */
  lemma SavedValueIsRead(metrics: seq<DailySystemMetric>, nextId: int, date: int, metricType: string,
                         value: real, dimensions: Option<string>, now: int)
    ensures var r := SaveMetricStep(metrics, nextId, date, metricType, value, dimensions, now).0;
            var found := FindSystemMetric(r, date, metricType);
            found.Some? && r[found.value].value == value && r[found.value].dimensions == dimensions
  {
    var r := SaveMetricStep(metrics, nextId, date, metricType, value, dimensions, now).0;
    match FindSystemMetric(metrics, date, metricType)
    case None =>
      FindAfterAppend(metrics, r[|metrics|], date, metricType);
      assert r == metrics + [r[|metrics|]];
    case Some(i) =>
      FindAfterUpdate(metrics, i, r[i], date, metricType);
      assert r == metrics[i := r[i]];
  }

  /** Appending a row does not change where an existing key is found, and
      finds the new row when the key had none. */
  lemma {:induction false} FindAfterAppend(metrics: seq<DailySystemMetric>, m: DailySystemMetric, date: int, metricType: string)
    ensures FindSystemMetric(metrics, date, metricType).Some? ==>
              FindSystemMetric(metrics + [m], date, metricType) == FindSystemMetric(metrics, date, metricType)
    ensures FindSystemMetric(metrics, date, metricType).None? ==>
              FindSystemMetric(metrics + [m], date, metricType)
              == if m.date == date && m.metricType == metricType then Some(|metrics|) else None
  {
    if metrics != [] {
      assert (metrics + [m])[1..] == metrics[1..] + [m];
      FindAfterAppend(metrics[1..], m, date, metricType);
    }
  }

  /** Replacing a row by one with the same date and type does not move any lookup. */
  lemma {:induction false} FindAfterUpdate(metrics: seq<DailySystemMetric>, i: int, m: DailySystemMetric,
                                           date: int, metricType: string)
    requires 0 <= i < |metrics| && m.date == metrics[i].date && m.metricType == metrics[i].metricType
    ensures FindSystemMetric(metrics[i := m], date, metricType) == FindSystemMetric(metrics, date, metricType)
  {
    if i > 0 {
      assert metrics[i := m][1..] == metrics[1..][i - 1 := m];
      FindAfterUpdate(metrics[1..], i - 1, m, date, metricType);
    }
  }

  /** Saving a value already stored changes nothing. */
  lemma SaveCurrentValueIsNoOp(metrics: seq<DailySystemMetric>, nextId: int, date: int, metricType: string,
                               value: real, dimensions: Option<string>, now: int)
    requires FindSystemMetric(metrics, date, metricType).Some?
    requires var i := FindSystemMetric(metrics, date, metricType).value;
             metrics[i].value == value && metrics[i].dimensions == dimensions
    ensures SaveMetricStep(metrics, nextId, date, metricType, value, dimensions, now) == (metrics, nextId)
  {
    var i := FindSystemMetric(metrics, date, metricType).value;
    assert metrics[i].(value := value, dimensions := dimensions) == metrics[i];
    assert metrics[i := metrics[i]] == metrics;
  }

  /** Saving one key leaves the lookup of every other key where it was. */
  lemma SaveKeepsOtherLookups(metrics: seq<DailySystemMetric>, nextId: int, date: int, metricType: string,
                              value: real, dimensions: Option<string>, now: int, date2: int, metricType2: string)
    requires date2 != date || metricType2 != metricType
    ensures var r := SaveMetricStep(metrics, nextId, date, metricType, value, dimensions, now).0;
            && FindSystemMetric(r, date2, metricType2) == FindSystemMetric(metrics, date2, metricType2)
            && (FindSystemMetric(metrics, date2, metricType2).Some? ==>
                  r[FindSystemMetric(metrics, date2, metricType2).value]
                  == metrics[FindSystemMetric(metrics, date2, metricType2).value])
  {
    var r := SaveMetricStep(metrics, nextId, date, metricType, value, dimensions, now).0;
    match FindSystemMetric(metrics, date, metricType)
    case None =>
      FindAfterAppend(metrics, r[|metrics|], date2, metricType2);
      assert r == metrics + [r[|metrics|]];
    case Some(i) =>
      FindAfterUpdate(metrics, i, r[i], date2, metricType2);
      assert r == metrics[i := r[i]];
  }

  // ---------------------------------------------------------------- counts

  /** `CountAsync(l => l.Date == date)`: log rows of that day. */
  function LogsOn(logs: seq<UserActivityLog>, date: int): nat
  {
    if logs == [] then 0
    else LogsOn(logs[..|logs| - 1], date) + (if logs[|logs| - 1].date == date then 1 else 0)
  }

  /** The users with a log row on that day. */
  function UsersOn(logs: seq<UserActivityLog>, date: int): (r: set<string>)
    ensures forall u :: u in r <==> exists i :: 0 <= i < |logs| && logs[i].userId == u && logs[i].date == date
  {
    if logs == [] then {}
    else
      var prefix := logs[..|logs| - 1];
      var last := logs[|logs| - 1];
      assert forall i :: 0 <= i < |prefix| ==> prefix[i] == logs[i];
      UsersOn(prefix, date) + (if last.date == date then {last.userId} else {})
  }

  /** `Where(l => l.Date >= since).Select(l => l.UserId).Distinct()`. */
  function ActiveSince(logs: seq<UserActivityLog>, since: int): (r: set<string>)
    ensures forall u :: u in r <==> exists i :: 0 <= i < |logs| && logs[i].userId == u && logs[i].date >= since
  {
    if logs == [] then {}
    else
      var prefix := logs[..|logs| - 1];
      var last := logs[|logs| - 1];
      assert forall i :: 0 <= i < |prefix| ==> prefix[i] == logs[i];
      ActiveSince(prefix, since) + (if last.date >= since then {last.userId} else {})
  }

  /** GetDashboardStatsAsync: DAU counts today's log rows, WAU and MAU the
      distinct users of the last 7 and 30 days including today, and new
      users are always 0. */
  function DashboardStats(logs: seq<UserActivityLog>, userCount: nat, today: int): (d: DashboardStatsDto)
    ensures d.dau == LogsOn(logs, today)
    ensures d.wau == |ActiveSince(logs, today - 6)| && d.mau == |ActiveSince(logs, today - 29)|
    ensures d.totalUsers == userCount && d.newUsersToday == 0
  {
    DashboardStatsDto(LogsOn(logs, today), |ActiveSince(logs, today - 6)|, |ActiveSince(logs, today - 29)|, userCount, 0)
  }

  /** One log row per user and day. */
  predicate OneLogPerUserDay(logs: seq<UserActivityLog>)
  {
    forall i, j :: 0 <= i < j < |logs| ==> logs[i].userId != logs[j].userId || logs[i].date != logs[j].date
  }

  /** With one row per user and day, the day's rows are its distinct users. */
  lemma {:induction false} LogsOnCountsUsers(logs: seq<UserActivityLog>, date: int)
    requires OneLogPerUserDay(logs)
    ensures LogsOn(logs, date) == |UsersOn(logs, date)|
  {
    if logs != [] {
      var n := |logs|;
      var prefix := logs[..n - 1];
      var last := logs[n - 1];
      PrefixKeepsOneLog(logs);
      LogsOnCountsUsers(prefix, date);
      if last.date == date {
        LastUserIsNew(logs, date);
      }
    }
  }

  /** The last row of a day names a user no earlier row of that day names. */
  lemma LastUserIsNew(logs: seq<UserActivityLog>, date: int)
    requires OneLogPerUserDay(logs) && logs != [] && logs[|logs| - 1].date == date
    ensures logs[|logs| - 1].userId !in UsersOn(logs[..|logs| - 1], date)
  {
    var prefix := logs[..|logs| - 1];
    forall i | 0 <= i < |prefix| && prefix[i].date == date ensures prefix[i].userId != logs[|logs| - 1].userId {
      assert prefix[i] == logs[i];
    }
  }

  lemma PrefixKeepsOneLog(logs: seq<UserActivityLog>)
    requires OneLogPerUserDay(logs) && logs != []
    ensures OneLogPerUserDay(logs[..|logs| - 1])
  {
    var prefix := logs[..|logs| - 1];
    forall i, j | 0 <= i < j < |prefix| ensures prefix[i].userId != prefix[j].userId || prefix[i].date != prefix[j].date {
      assert prefix[i] == logs[i] && prefix[j] == logs[j];
    }
  }

  /** Every user active in the last 7 days is active in the last 30, and,
      with one log row per user and day, every user counted today is in
      the 7 days: DAU <= WAU <= MAU. */
  lemma DashboardWindowsNest(logs: seq<UserActivityLog>, userCount: nat, today: int)
    requires OneLogPerUserDay(logs)
    ensures var d := DashboardStats(logs, userCount, today);
            d.dau <= d.wau <= d.mau
  {
    LogsOnCountsUsers(logs, today);
    assert UsersOn(logs, today) <= ActiveSince(logs, today - 6);
    assert ActiveSince(logs, today - 6) <= ActiveSince(logs, today - 29);
    SubsetSize(UsersOn(logs, today), ActiveSince(logs, today - 6));
    SubsetSize(ActiveSince(logs, today - 6), ActiveSince(logs, today - 29));
  }

  lemma SubsetSize<T>(a: set<T>, b: set<T>)
    requires a <= b
    ensures |a| <= |b|
  {
    assert b == a + (b - a);
  }

  /** ComputeDailyMetricsAsync on the table: the day's DAU, then the user count. */
  function ComputeDailyMetricsStep(metrics: seq<DailySystemMetric>, nextId: int, logs: seq<UserActivityLog>,
                                   userCount: nat, date: int, now: int): (r: (seq<DailySystemMetric>, int))
    ensures |metrics| <= |r.0| <= |metrics| + 2
    ensures forall k :: 0 <= k < |metrics| && metrics[k].date != date ==> r.0[k] == metrics[k]
  {
    var (afterDau, id1) := SaveMetricStep(metrics, nextId, date, DauType, LogsOn(logs, date) as real, None, now);
    SaveMetricStep(afterDau, id1, date, TotalUsersType, userCount as real, None, now)
  }

  /** After computing a day, its DAU row holds the day's log count and its
      TotalUsers row the user count. */
  lemma ComputedMetricsAreRead(metrics: seq<DailySystemMetric>, nextId: int, logs: seq<UserActivityLog>,
                               userCount: nat, date: int, now: int)
    ensures var r := ComputeDailyMetricsStep(metrics, nextId, logs, userCount, date, now).0;
            && FindSystemMetric(r, date, DauType).Some?
            && r[FindSystemMetric(r, date, DauType).value].value == LogsOn(logs, date) as real
            && FindSystemMetric(r, date, TotalUsersType).Some?
            && r[FindSystemMetric(r, date, TotalUsersType).value].value == userCount as real
  {
    var (afterDau, id1) := SaveMetricStep(metrics, nextId, date, DauType, LogsOn(logs, date) as real, None, now);
    SavedValueIsRead(metrics, nextId, date, DauType, LogsOn(logs, date) as real, None, now);
    SavedValueIsRead(afterDau, id1, date, TotalUsersType, userCount as real, None, now);
    SaveKeepsOtherLookups(afterDau, id1, date, TotalUsersType, userCount as real, None, now, date, DauType);
  }

  /** Computing a day twice leaves the table as computing it once: the
      second run overwrites both rows with the same values and adds none. */
  lemma ComputeIsIdempotent(metrics: seq<DailySystemMetric>, nextId: int, logs: seq<UserActivityLog>,
                            userCount: nat, date: int, now: int, later: int)
    ensures var (once, id) := ComputeDailyMetricsStep(metrics, nextId, logs, userCount, date, now);
            ComputeDailyMetricsStep(once, id, logs, userCount, date, later) == (once, id)
  {
    var (once, id) := ComputeDailyMetricsStep(metrics, nextId, logs, userCount, date, now);
    ComputedMetricsAreRead(metrics, nextId, logs, userCount, date, now);
    var dau := LogsOn(logs, date) as real;
    SaveCurrentValueIsNoOp(once, id, date, DauType, dau, None, later) by {
      var (afterDau, id1) := SaveMetricStep(metrics, nextId, date, DauType, dau, None, now);
      SavedValueIsRead(metrics, nextId, date, DauType, dau, None, now);
      SaveKeepsOtherLookups(afterDau, id1, date, TotalUsersType, userCount as real, None, now, date, DauType);
    }
    SaveCurrentValueIsNoOp(once, id, date, TotalUsersType, userCount as real, None, later) by {
      var (afterDau, id1) := SaveMetricStep(metrics, nextId, date, DauType, dau, None, now);
      SavedValueIsRead(afterDau, id1, date, TotalUsersType, userCount as real, None, now);
    }
  }

  // ---------------------------------------------------------------- growth queries

  /** GetHistoricalGrowthAsync: the rows of that type dated `days` days
      before `today` or later, in date order. */
  function HistoricalGrowth(metrics: seq<DailySystemMetric>, metricType: string, today: int, days: int): (rows: seq<DailySystemMetric>)
    ensures forall m :: m in rows <==> m in metrics && m.metricType == metricType && m.date >= today - days
    ensures multiset(rows) == multiset(Filter(metrics, (m: DailySystemMetric) => m.metricType == metricType && m.date >= today - days))
    ensures forall i, j :: 0 <= i < j < |rows| ==> rows[i].date <= rows[j].date
  {
    var key := (m: DailySystemMetric) => m.date;
    KeyOrdersArePreorders(key);
    var matching := Filter(metrics, (m: DailySystemMetric) => m.metricType == metricType && m.date >= today - days);
    var rows := SortBy(matching, AscendingBy(key));
    assert forall m :: m in rows <==> m in matching by {
      forall m ensures m in rows <==> m in matching {
        assert m in rows <==> m in multiset(rows);
        assert m in matching <==> m in multiset(matching);
      }
    }
    rows
  }

  /** The RegionGrowth rows of the table, in table order. */
  function RegionRows(metrics: seq<DailySystemMetric>): (rows: seq<DailySystemMetric>)
    ensures forall m :: m in rows <==> m in metrics && m.metricType == RegionGrowthType
    ensures multiset(rows) <= multiset(metrics)
  {
    Filter(metrics, (m: DailySystemMetric) => m.metricType == RegionGrowthType)
  }

  /** GetGrowthByRegionAsync: the latest seven RegionGrowth rows, newest
      first, or all of them when there are fewer. */
  function GrowthByRegion(metrics: seq<DailySystemMetric>): (rows: seq<DailySystemMetric>)
    ensures var matching := RegionRows(metrics);
            && |rows| == (if MaxRegionRows < |matching| then MaxRegionRows else |matching|)
            && multiset(rows) <= multiset(matching)
    ensures forall i, j :: 0 <= i < j < |rows| ==> rows[i].date >= rows[j].date
  {
    var key := (m: DailySystemMetric) => m.date;
    assert forall m :: key(m) == m.date;
    TopDescending(RegionRows(metrics), key, MaxRegionRows)
  }

  /** Every region row shown is a RegionGrowth row of the table, and no
      RegionGrowth row left out is newer than one shown. */
  lemma GrowthByRegionKeepsNewest(metrics: seq<DailySystemMetric>)
    ensures var rows := GrowthByRegion(metrics);
            && (forall m :: m in rows ==> m in metrics && m.metricType == RegionGrowthType)
            && forall m, n :: (m in rows && n in metrics && n.metricType == RegionGrowthType && n !in rows)
                 ==> m.date >= n.date
  {
    var rows := GrowthByRegion(metrics);
    var key := (m: DailySystemMetric) => m.date;
    assert forall m :: key(m) == m.date;
    assert rows == TopDescending(RegionRows(metrics), key, MaxRegionRows);
  }

  /** With fewer than seven rows shown, every RegionGrowth row is shown. */
  lemma GrowthByRegionAllShownWhenFew(metrics: seq<DailySystemMetric>)
    ensures var rows := GrowthByRegion(metrics);
            |rows| < MaxRegionRows ==> forall n :: n in metrics && n.metricType == RegionGrowthType ==> n in rows
  {
    var rows := GrowthByRegion(metrics);
    var key := (m: DailySystemMetric) => m.date;
    assert forall m :: key(m) == m.date;
    assert rows == TopDescending(RegionRows(metrics), key, MaxRegionRows);
  }

  // ---------------------------------------------------------------- trending

  /** The review counts towards trending: recent enough, on a public place. */
  predicate Qualifies(r: ReviewRow, places: map<int, PlaceRow>, cutoff: int)
  {
    r.createdAt >= cutoff && r.placeId in places && places[r.placeId].isPublic
  }

  /** `g.Count()` of the place's group. */
  function Interactions(reviews: seq<ReviewRow>, places: map<int, PlaceRow>, cutoff: int, placeId: int): (n: nat)
    ensures n > 0 <==> exists i :: 0 <= i < |reviews| && Qualifies(reviews[i], places, cutoff) && reviews[i].placeId == placeId
  {
    if reviews == [] then 0
    else
      var prefix := reviews[..|reviews| - 1];
      var last := reviews[|reviews| - 1];
      assert forall i :: 0 <= i < |prefix| ==> prefix[i] == reviews[i];
      Interactions(prefix, places, cutoff, placeId) + (if Qualifies(last, places, cutoff) && last.placeId == placeId then 1 else 0)
  }

  /** `g.Count(x => x.Type == kind)` of the place's group. */
  function KindCount(reviews: seq<ReviewRow>, places: map<int, PlaceRow>, cutoff: int, placeId: int, kind: ReviewType): nat
  {
    if reviews == [] then 0
    else
      var last := reviews[|reviews| - 1];
      KindCount(reviews[..|reviews| - 1], places, cutoff, placeId, kind)
      + (if Qualifies(last, places, cutoff) && last.placeId == placeId && last.kind == kind then 1 else 0)
  }

  /** Every interaction is a review or a check-in. */
  lemma {:induction false} InteractionsSplit(reviews: seq<ReviewRow>, places: map<int, PlaceRow>, cutoff: int, placeId: int)
    ensures Interactions(reviews, places, cutoff, placeId)
            == KindCount(reviews, places, cutoff, placeId, Review) + KindCount(reviews, places, cutoff, placeId, CheckIn)
  {
    if reviews != [] {
      InteractionsSplit(reviews[..|reviews| - 1], places, cutoff, placeId);
    }
  }

  /** The trending entry of a place. */
  function TrendingOf(reviews: seq<ReviewRow>, places: map<int, PlaceRow>, cutoff: int, placeId: int): TrendingPlaceDto
    requires placeId in places
  {
    TrendingPlaceDto(placeId, places[placeId].name, KindCount(reviews, places, cutoff, placeId, Review),
                     KindCount(reviews, places, cutoff, placeId, CheckIn), Interactions(reviews, places, cutoff, placeId))
  }

  /** The place of every qualifying review, in review order. */
  function QualifyingPlaceIds(reviews: seq<ReviewRow>, places: map<int, PlaceRow>, cutoff: int): (r: seq<int>)
    ensures forall p :: p in r <==> exists i :: 0 <= i < |reviews| && Qualifies(reviews[i], places, cutoff) && reviews[i].placeId == p
  {
    if reviews == [] then []
    else
      var prefix := reviews[..|reviews| - 1];
      var last := reviews[|reviews| - 1];
      assert forall i :: 0 <= i < |prefix| ==> prefix[i] == reviews[i];
      QualifyingPlaceIds(prefix, places, cutoff) + (if Qualifies(last, places, cutoff) then [last.placeId] else [])
  }

  /** One entry per id, in the order of the ids. */
  function TrendingOfAll(reviews: seq<ReviewRow>, places: map<int, PlaceRow>, cutoff: int, ids: seq<int>): (g: seq<TrendingPlaceDto>)
    requires forall i :: 0 <= i < |ids| ==> ids[i] in places
    ensures |g| == |ids| && forall i :: 0 <= i < |ids| ==> g[i] == TrendingOf(reviews, places, cutoff, ids[i])
  {
    seq(|ids|, i requires 0 <= i < |ids| => TrendingOf(reviews, places, cutoff, ids[i]))
  }

  /** The entries of distinct qualifying place ids are the groups of GroupBy. */
  lemma TrendingOfQualifying(reviews: seq<ReviewRow>, places: map<int, PlaceRow>, cutoff: int, ids: seq<int>)
    requires NoDuplicates(ids)
    requires forall x :: x in ids <==> x in QualifyingPlaceIds(reviews, places, cutoff)
    ensures forall i :: 0 <= i < |ids| ==> ids[i] in places && places[ids[i]].isPublic
    ensures NoDuplicates(TrendingOfAll(reviews, places, cutoff, ids))
    ensures forall t :: t in TrendingOfAll(reviews, places, cutoff, ids) ==>
              && t.placeId in places && places[t.placeId].isPublic
              && t == TrendingOf(reviews, places, cutoff, t.placeId) && t.totalInteractions > 0
    ensures forall p :: p in places && Interactions(reviews, places, cutoff, p) > 0 ==>
              TrendingOf(reviews, places, cutoff, p) in TrendingOfAll(reviews, places, cutoff, ids)
  {
    assert forall i :: 0 <= i < |ids| ==> ids[i] in places && places[ids[i]].isPublic by {
      forall i | 0 <= i < |ids| ensures ids[i] in places && places[ids[i]].isPublic {
        assert ids[i] in ids;
        assert ids[i] in QualifyingPlaceIds(reviews, places, cutoff);
        var k :| 0 <= k < |reviews| && Qualifies(reviews[k], places, cutoff) && reviews[k].placeId == ids[i];
      }
    }
    var g := TrendingOfAll(reviews, places, cutoff, ids);
    assert forall p :: p in places && Interactions(reviews, places, cutoff, p) > 0 ==> TrendingOf(reviews, places, cutoff, p) in g by {
      forall p | p in places && Interactions(reviews, places, cutoff, p) > 0 ensures TrendingOf(reviews, places, cutoff, p) in g {
        assert p in QualifyingPlaceIds(reviews, places, cutoff);
        var i :| 0 <= i < |ids| && ids[i] == p;
        assert g[i] == TrendingOf(reviews, places, cutoff, p);
      }
    }
    assert forall t :: t in g ==> t.totalInteractions > 0 by {
      forall t | t in g ensures t.totalInteractions > 0 {
        var i :| 0 <= i < |g| && g[i] == t;
        assert ids[i] in ids;
      }
    }
  }

  /** `GroupBy(r => r.PlaceActivity!.Place)`: one entry per place with a
      qualifying review. */
  function TrendingGroups(reviews: seq<ReviewRow>, places: map<int, PlaceRow>, cutoff: int): (g: seq<TrendingPlaceDto>)
    ensures NoDuplicates(g)
    ensures forall t :: t in g ==> t.placeId in places && places[t.placeId].isPublic
                                   && t == TrendingOf(reviews, places, cutoff, t.placeId) && t.totalInteractions > 0
    ensures forall p :: p in places && Interactions(reviews, places, cutoff, p) > 0 ==> TrendingOf(reviews, places, cutoff, p) in g
  {
    var ids := Distinct(QualifyingPlaceIds(reviews, places, cutoff));
    TrendingOfQualifying(reviews, places, cutoff, ids);
    TrendingOfAll(reviews, places, cutoff, ids)
  }

  /** The window of GetTrendingPlacesAsync: reviews from seven days before `now` on. */
  function TrendingCutoff(now: int): int
  {
    now - 7 * TicksPerDay
  }

  /** GetTrendingPlacesAsync: at most ten entries, each place once, busiest
      first; which places they are is stated by `TrendingIsTopTen`. */
  function TrendingPlaces(reviews: seq<ReviewRow>, places: map<int, PlaceRow>, now: int): (r: seq<TrendingPlaceDto>)
    ensures |r| <= MaxTrending
    ensures NoDuplicates(r)
    ensures forall i, j :: 0 <= i < j < |r| ==> r[i].totalInteractions >= r[j].totalInteractions
  {
    BusiestFirst(TrendingGroups(reviews, places, TrendingCutoff(now)))
  }

  /** `OrderByDescending(x => x.Count).Take(10)`. */
  function BusiestFirst(groups: seq<TrendingPlaceDto>): (r: seq<TrendingPlaceDto>)
    ensures |r| == if |groups| < MaxTrending then |groups| else MaxTrending
    ensures multiset(r) <= multiset(groups)
    ensures NoDuplicates(groups) ==> NoDuplicates(r)
    ensures forall i, j :: 0 <= i < j < |r| ==> r[i].totalInteractions >= r[j].totalInteractions
    ensures forall x, y :: x in r && y in groups && y !in r ==> x.totalInteractions >= y.totalInteractions
  {
    var key := (t: TrendingPlaceDto) => t.totalInteractions;
    assert forall t :: key(t) == t.totalInteractions;
    TopDescending(groups, key, MaxTrending)
  }

  /** The trending entries are public places, each with its own counts of
      reviews and check-ins of the last 7 days; no place left out has more
      interactions than one kept, and with fewer than ten entries none is
      left out. */
  lemma TrendingIsTopTen(reviews: seq<ReviewRow>, places: map<int, PlaceRow>, now: int)
    ensures var r := TrendingPlaces(reviews, places, now);
            var cutoff := TrendingCutoff(now);
            && (forall t :: t in r ==>
                  && t.placeId in places && places[t.placeId].isPublic && t.totalInteractions > 0
                  && t == TrendingOf(reviews, places, cutoff, t.placeId))
            && (forall t, p :: (t in r && p in places && TrendingOf(reviews, places, cutoff, p) !in r)
                  ==> t.totalInteractions >= Interactions(reviews, places, cutoff, p))
            && (|r| < MaxTrending ==>
                  forall p :: p in places && Interactions(reviews, places, cutoff, p) > 0
                    ==> TrendingOf(reviews, places, cutoff, p) in r)
  {
    var cutoff := TrendingCutoff(now);
    var groups := TrendingGroups(reviews, places, cutoff);
    var r := BusiestFirst(groups);
    forall t | t in r ensures t in groups { assert t in multiset(r); }
    forall t, p | t in r && p in places && TrendingOf(reviews, places, cutoff, p) !in r
      ensures t.totalInteractions >= Interactions(reviews, places, cutoff, p)
    {
      if Interactions(reviews, places, cutoff, p) > 0 {
        assert TrendingOf(reviews, places, cutoff, p) in groups;
      }
    }
    if |r| < MaxTrending {
      assert |multiset(r)| == |multiset(groups)|;
      var d := multiset(groups) - multiset(r);
      assert multiset(groups) == multiset(r) + d;
      forall p | p in places && Interactions(reviews, places, cutoff, p) > 0 ensures TrendingOf(reviews, places, cutoff, p) in r {
        assert TrendingOf(reviews, places, cutoff, p) in multiset(groups);
      }
    }
  }

  // ---------------------------------------------------------------- moderation

  /** GetModerationStatsAsync: pending reports, banned users and IP bans
      counted; rejected reviews are not tracked and reported as 0. */
  function ModerationStats(reportIsPending: seq<bool>, userIsBanned: seq<bool>, ipBanCount: nat): (d: ModerationStatsDto)
    ensures d.pendingReports == multiset(reportIsPending)[true] && d.bannedUsers == multiset(userIsBanned)[true]
    ensures d.bannedIps == ipBanCount && d.rejectedReviews == 0
    ensures 0 <= d.pendingReports <= |reportIsPending| && 0 <= d.bannedUsers <= |userIsBanned|
  {
    ModerationStatsDto(multiset(reportIsPending)[true], multiset(userIsBanned)[true], ipBanCount, 0)
  }

  /** The service over the DailySystemMetrics table. */
  class AnalyticsService {
    var metrics: seq<DailySystemMetric>
    var nextId: int

    constructor (metrics: seq<DailySystemMetric>, nextId: int)
      ensures this.metrics == metrics && this.nextId == nextId
    {
      this.metrics := metrics;
      this.nextId := nextId;
    }

    /** SaveMetric. */
    method SaveMetric(date: int, metricType: string, value: real, dimensions: Option<string>, now: int)
      modifies this
      ensures (metrics, nextId) == SaveMetricStep(old(metrics), old(nextId), date, metricType, value, dimensions, now)
      ensures OneRowPerMetric(old(metrics)) ==> OneRowPerMetric(metrics)
    {
      ghost var before := metrics;
      var existing := FindSystemMetric(metrics, date, metricType);
      if existing.Some? {
        var i := existing.value;
        metrics := metrics[i := metrics[i].(value := value, dimensions := dimensions)];
      } else {
        metrics := metrics + [DailySystemMetric(nextId, date, metricType, value, dimensions, now)];
        nextId := nextId + 1;
      }
      if OneRowPerMetric(before) {
        SaveKeepsOneRowPerMetric(before, old(nextId), date, metricType, value, dimensions, now);
      }
    }

    /** ComputeDailyMetricsAsync. */
    method ComputeDailyMetricsAsync(date: int, logs: seq<UserActivityLog>, userCount: nat, now: int)
      modifies this
      ensures (metrics, nextId) == ComputeDailyMetricsStep(old(metrics), old(nextId), logs, userCount, date, now)
      ensures OneRowPerMetric(old(metrics)) ==> OneRowPerMetric(metrics)
    {
      var dauCount := LogsOn(logs, date);
      SaveMetric(date, DauType, dauCount as real, None, now);
      SaveMetric(date, TotalUsersType, userCount as real, None, now);
    }
  }
}

=== FILE: banned_users.dfy ===
/** The banned-user listing of `BanningService` (Conquest snapshot): the
    paged list ordered by BanCount and the lookup of one banned user by id,
    user name or e-mail. The Users rows are those of `Banning`. */
module BannedUsers {
  import opened Common
  import opened Sorting
  import opened Pagination
  import opened Banning

  datatype BannedUserDto = BannedUserDto(id: UserId, username: string, email: string, banReason: Option<string>, banCount: int)

  function ToBannedDto(u: User): BannedUserDto
  {
    BannedUserDto(u.id, u.userName, u.email, u.banReason, u.banCount)
  }

  function ToBannedDtos(users: seq<User>): (r: seq<BannedUserDto>)
    ensures |r| == |users|
    ensures forall k :: 0 <= k < |users| ==> r[k] == ToBannedDto(users[k])
  {
    seq(|users|, k requires 0 <= k < |users| => ToBannedDto(users[k]))
  }

  /** The banned users, highest BanCount first. */
  function BannedByCount(users: seq<User>): (ordered: seq<User>)
    ensures |ordered| == CountWhere(users, (u: User) => u.isBanned)
    ensures multiset(ordered) == multiset(Filter(users, (u: User) => u.isBanned))
    ensures forall u :: u in ordered ==> u in users && u.isBanned
    ensures forall u :: u in users && u.isBanned ==> u in ordered
    ensures forall i, j :: 0 <= i < j < |ordered| ==> ordered[i].banCount >= ordered[j].banCount
  {
    var banned := Filter(users, (u: User) => u.isBanned);
    var key := (u: User) => u.banCount;
    KeyOrdersArePreorders(key);
    var ordered := SortBy(banned, DescendingBy(key));
    assert |ordered| == |multiset(ordered)| == |multiset(banned)| == |banned|;
    assert forall u :: u in ordered <==> u in banned by {
      forall u ensures u in ordered <==> u in banned {
        assert u in ordered <==> u in multiset(ordered);
        assert u in banned <==> u in multiset(banned);
      }
    }
    ordered
  }

  /** The user rows of page `page` of GetBannedUsersAsync: the slice of the
      ordered banned users after the (wrapped) offset (page - 1) * limit, as
      long as `limit` allows and the rows last. */
  function BannedPage(users: seq<User>, page: int, limit: int): (rows: seq<User>)
    ensures var ordered := BannedByCount(users);
            var from := PageStart(|ordered|, page, limit);
            && |rows| == (if limit <= 0 then 0 else if limit < |ordered| - from then limit else |ordered| - from)
            && forall k :: 0 <= k < |rows| ==> rows[k] == ordered[from + k]
    ensures forall u :: u in rows ==> u in users && u.isBanned
    ensures forall i, j :: 0 <= i < j < |rows| ==> rows[i].banCount >= rows[j].banCount
  {
    var ordered := BannedByCount(users);
    PageKeepsOrder(ordered, page, limit);
    PageOf(ordered, page, limit)
  }

  /** A page of a list holds rows of the list, and a page of a list ordered
      by BanCount is ordered by BanCount. */
  lemma PageKeepsOrder(ordered: seq<User>, page: int, limit: int)
    ensures forall u :: u in PageOf(ordered, page, limit) ==> u in ordered
    ensures (forall i, j :: 0 <= i < j < |ordered| ==> ordered[i].banCount >= ordered[j].banCount) ==>
              var rows := PageOf(ordered, page, limit);
              forall i, j :: 0 <= i < j < |rows| ==> rows[i].banCount >= rows[j].banCount
  {
    var rows := PageOf(ordered, page, limit);
    var from := PageStart(|ordered|, page, limit);
    forall u | u in rows ensures u in ordered {
      var k :| 0 <= k < |rows| && rows[k] == u;
      assert ordered[from + k] in ordered;
    }
  }

  /** GetBannedUsersAsync: the total is the number of banned users, and
      item `k` is the DTO of the banned user at position offset + k of the
      BanCount order. */
  function GetBannedUsers(users: seq<User>, page: int, limit: int): (r: PagedResult<BannedUserDto>)
    ensures r.totalCount == CountWhere(users, (u: User) => u.isBanned)
    ensures r.page == page && r.pageSize == limit
    ensures var ordered := BannedByCount(users);
            var from := PageStart(|ordered|, page, limit);
            && |r.items| == (if limit <= 0 then 0 else if limit < |ordered| - from then limit else |ordered| - from)
            && forall k :: 0 <= k < |r.items| ==> r.items[k] == ToBannedDto(ordered[from + k])
  {
    var rows := BannedPage(users, page, limit);
    PagedResult(ToBannedDtos(rows), CountWhere(users, (u: User) => u.isBanned), page, limit)
  }

  /** With at least `limit` banned users, the first page holds the `limit`
      users with the highest BanCount. */
  lemma FirstPageIsMostBanned(users: seq<User>, limit: int)
    requires limit > 0 && CountWhere(users, (u: User) => u.isBanned) >= limit
    ensures BannedPage(users, 1, limit) == BannedByCount(users)[..limit]
  {
    assert PageOffset(1, limit) == 0;
  }

  /** GetBannedUserAsync: the first banned user matching the first criterion
      given (id, else user name, else e-mail, compared upper-cased with the
      normalised columns); none when no criterion is given. */
  predicate MatchesCriterion(u: User, userId: Option<UserId>, username: Option<string>, email: Option<string>)
  {
    if userId.Some? then u.id == userId.value
    else if username.Some? then u.normalizedUserName == ToUpper(username.value)
    else email.Some? && u.normalizedEmail == ToUpper(email.value)
  }

  function GetBannedUser(users: seq<User>, userId: Option<UserId>, username: Option<string>, email: Option<string>): (r: Option<BannedUserDto>)
    ensures r.Some? ==> exists u :: u in users && u.isBanned && MatchesCriterion(u, userId, username, email) && r.value == ToBannedDto(u)
    ensures r.None? ==> forall u :: u in users && u.isBanned ==> !MatchesCriterion(u, userId, username, email)
    ensures userId.None? && username.None? && email.None? ==> r.None?
  {
    if users == [] then None
    else
      var u := users[0];
      assert forall v :: v in users <==> v == u || v in users[1..];
      if u.isBanned && MatchesCriterion(u, userId, username, email) then Some(ToBannedDto(u))
      else GetBannedUser(users[1..], userId, username, email)
  }
}

=== FILE: banning.dfy ===
/** Moderation bans, `BanningService` of the Conquest snapshot.

    The state is the Users table (ban fields only), the IpBans table keyed
    by address, and the Redis cache, a map from key to a string value with
    an optional absolute expiry time. A cache entry whose expiry has passed
    reads as missing. Times are DateTime ticks and `now` is a parameter. */
module Banning {
  import opened Common
  import opened Sorting

  type UserId = string

  datatype User = User(
    id: UserId,
    userName: string,
    email: string,
    normalizedUserName: string,
    normalizedEmail: string,
    isBanned: bool,
    banReason: Option<string>,
    banCount: int,
    lastIpAddress: Option<string>)

  datatype IpBan = IpBan(ipAddress: string, reason: string, createdAt: int, expiresAt: Option<int>)

  datatype CacheEntry = CacheEntry(value: string, expiresAt: Option<int>)

  type Cache = map<string, CacheEntry>

  /** The three stores the service reads and writes. */
  datatype Store = Store(users: seq<User>, ipBans: map<string, IpBan>, cache: Cache)

  const IpBanKeyPrefix: string := "banned:ip:"
  const UserBanKeyPrefix: string := "banned:user:"

  /** The user count at which the last known IP address is banned too. */
  const BanThreshold: int := 3

  function IpKey(ip: string): string
  {
    IpBanKeyPrefix + ip
  }

  function UserKey(userId: UserId): string
  {
    UserBanKeyPrefix + userId
  }

  /** The two key families never collide, and each is one-to-one. */
  lemma KeysAreDistinct(ip: string, userId: UserId, ip2: string, userId2: UserId)
    ensures IpKey(ip) != UserKey(userId)
    ensures IpKey(ip) == IpKey(ip2) ==> ip == ip2
    ensures UserKey(userId) == UserKey(userId2) ==> userId == userId2
  {
    assert IpKey(ip)[7] == 'i';
    assert UserKey(userId)[7] == 'u';
    assert IpKey(ip)[|IpBanKeyPrefix|..] == ip;
    assert IpKey(ip2)[|IpBanKeyPrefix|..] == ip2;
    assert UserKey(userId)[|UserBanKeyPrefix|..] == userId;
    assert UserKey(userId2)[|UserBanKeyPrefix|..] == userId2;
  }

  /** Redis `GET` at time `now`. */
  function CacheGet(cache: Cache, key: string, now: int): (r: Option<string>)
    ensures r.Some? <==> key in cache && (cache[key].expiresAt.None? || now < cache[key].expiresAt.value)
    ensures r.Some? ==> r.value == cache[key].value
  {
    if key in cache && (cache[key].expiresAt.None? || now < cache[key].expiresAt.value) then Some(cache[key].value)
    else None
  }

  /** The primary key of Users. */
  predicate UniqueIds(users: seq<User>)
  {
    forall i, j :: 0 <= i < j < |users| ==> users[i].id != users[j].id
  }

  /** `context.Users.FindAsync(userId)`. */
  function FindUser(users: seq<User>, userId: UserId): (r: Option<nat>)
    ensures r.None? <==> forall u :: u in users ==> u.id != userId
    ensures r.Some? ==> r.value < |users| && users[r.value].id == userId
  {
    if users == [] then None
    else if users[0].id == userId then Some(0)
    else
      assert forall u :: u in users <==> u == users[0] || u in users[1..];
      match FindUser(users[1..], userId)
      case None => None
      case Some(i) => Some(i + 1)
  }

  /** What the service keeps true: user ids are unique, a user's cache key
      is present (without expiry, holding the ban reason) exactly when the
      user is banned, and a cached IP key always has its IpBans row. */
  ghost predicate Consistent(s: Store)
  {
    && UniqueIds(s.users)
    && (forall u :: u in s.users ==>
          (UserKey(u.id) in s.cache <==> u.isBanned)
          && (u.isBanned ==> u.banReason.Some? && s.cache[UserKey(u.id)] == CacheEntry(u.banReason.value, None)))
    && (forall ip :: IpKey(ip) in s.cache ==> ip in s.ipBans)
  }

  /** BanIpAsync: nothing if the address already has a row; otherwise the row
      is added and the reason cached, for good when there is no expiry,
      until the expiry when it is still ahead, and not at all otherwise. */
  function BanIpStep(s: Store, ip: string, reason: string, expiresAt: Option<int>, now: int): (t: Store)
    ensures ip in s.ipBans ==> t == s
    ensures ip !in s.ipBans ==>
              && t.users == s.users
              && t.ipBans == s.ipBans[ip := IpBan(ip, reason, now, expiresAt)]
              && (expiresAt.None? ==> t.cache == s.cache[IpKey(ip) := CacheEntry(reason, None)])
              && (expiresAt.Some? && expiresAt.value - now > 0 ==>
                    t.cache == s.cache[IpKey(ip) := CacheEntry(reason, expiresAt)])
              && (expiresAt.Some? && expiresAt.value - now <= 0 ==> t.cache == s.cache)
  {
    if ip in s.ipBans then s
    else
      var ipBans := s.ipBans[ip := IpBan(ip, reason, now, expiresAt)];
      if expiresAt.Some? then
        var ttl := expiresAt.value - now;
        if ttl > 0 then Store(s.users, ipBans, s.cache[IpKey(ip) := CacheEntry(reason, expiresAt)])
        else Store(s.users, ipBans, s.cache)
      else Store(s.users, ipBans, s.cache[IpKey(ip) := CacheEntry(reason, None)])
  }

  /** The reason recorded for an IP banned by the threshold rule. */
  function AutoBanReason(userId: UserId): string
  {
    "Automatic ban due to user " + userId + " reaching ban threshold."
  }

  /** The first save of BanUserAsync: user `i` flagged, its reason stored,
      its count raised, and its cache key set without expiry. */
  function MarkBanned(s: Store, i: nat, reason: string): (t: Store)
    requires i < |s.users|
    ensures |t.users| == |s.users| && t.ipBans == s.ipBans
    ensures forall k :: 0 <= k < |s.users| && k != i ==> t.users[k] == s.users[k]
  {
    var u := s.users[i];
    Store(s.users[i := u.(isBanned := true, banReason := Some(reason), banCount := u.banCount + 1)], s.ipBans,
          s.cache[UserKey(u.id) := CacheEntry(reason, None)])
  }

  /** BanUserAsync. */
  function BanUserStep(s: Store, userId: UserId, reason: string, now: int): (t: Store)
    ensures var i := FindUser(s.users, userId);
            i.None? || s.users[i.value].isBanned ==> t == s
    ensures var i := FindUser(s.users, userId);
            i.Some? && !s.users[i.value].isBanned ==>
              var u := s.users[i.value];
              && |t.users| == |s.users|
              && t.users[i.value] == u.(isBanned := true, banReason := Some(reason), banCount := u.banCount + 1)
              && (forall k :: 0 <= k < |s.users| && k != i.value ==> t.users[k] == s.users[k])
    ensures var i := FindUser(s.users, userId);
            i.Some? && !s.users[i.value].isBanned ==>
              var u := s.users[i.value];
              var marked := s.cache[UserKey(userId) := CacheEntry(reason, None)];
              if u.banCount + 1 >= BanThreshold && !IsNullOrEmpty(u.lastIpAddress) && u.lastIpAddress.value !in s.ipBans then
                var ip := u.lastIpAddress.value;
                && t.ipBans == s.ipBans[ip := IpBan(ip, AutoBanReason(userId), now, None)]
                && t.cache == marked[IpKey(ip) := CacheEntry(AutoBanReason(userId), None)]
              else
                t.ipBans == s.ipBans && t.cache == marked
  {
    match FindUser(s.users, userId)
    case None => s
    case Some(i) =>
      var u := s.users[i];
      if u.isBanned then s
      else
        var u' := u.(isBanned := true, banReason := Some(reason), banCount := u.banCount + 1);
        var saved := MarkBanned(s, i, reason);
        assert saved.users[i] == u' && saved.cache == s.cache[UserKey(userId) := CacheEntry(reason, None)];
        if u'.banCount >= BanThreshold && !IsNullOrEmpty(u'.lastIpAddress) then
          KeysAreDistinct(u'.lastIpAddress.value, userId, u'.lastIpAddress.value, userId);
          BanIpStep(saved, u'.lastIpAddress.value, AutoBanReason(userId), None, now)
        else saved
  }

  /** UnbanUserAsync: clears IsBanned (BanReason and BanCount stay) and
      drops the user's cache key. */
  function UnbanUserStep(s: Store, userId: UserId): (t: Store)
    ensures var i := FindUser(s.users, userId);
            i.None? || !s.users[i.value].isBanned ==> t == s
    ensures var i := FindUser(s.users, userId);
            i.Some? && s.users[i.value].isBanned ==>
              && |t.users| == |s.users|
              && t.users[i.value] == s.users[i.value].(isBanned := false)
              && (forall k :: 0 <= k < |s.users| && k != i.value ==> t.users[k] == s.users[k])
              && t.ipBans == s.ipBans
              && t.cache == s.cache - {UserKey(userId)}
  {
    match FindUser(s.users, userId)
    case None => s
    case Some(i) =>
      if !s.users[i].isBanned then s
      else Store(s.users[i := s.users[i].(isBanned := false)], s.ipBans, s.cache - {UserKey(userId)})
  }

  /** UnbanIpAsync: removes the row and the cache key, if there is a row. */
  function UnbanIpStep(s: Store, ip: string): (t: Store)
    ensures ip !in s.ipBans ==> t == s
    ensures ip in s.ipBans ==> t == Store(s.users, s.ipBans - {ip}, s.cache - {IpKey(ip)})
  {
    if ip !in s.ipBans then s else Store(s.users, s.ipBans - {ip}, s.cache - {IpKey(ip)})
  }

  /** CheckBanAsync: the IP first, then the user (when an id is given). */
  function CheckBan(cache: Cache, ip: string, userId: Option<UserId>, now: int): (r: (bool, Option<string>))
    ensures r.0 <==> r.1.Some?
    ensures CacheGet(cache, IpKey(ip), now).Some? ==> r.1 == CacheGet(cache, IpKey(ip), now)
    ensures CacheGet(cache, IpKey(ip), now).None? && !IsNullOrEmpty(userId) ==> r.1 == CacheGet(cache, UserKey(userId.value), now)
    ensures CacheGet(cache, IpKey(ip), now).None? && IsNullOrEmpty(userId) ==> r == (false, None)
  {
    var ipBanReason := CacheGet(cache, IpKey(ip), now);
    if ipBanReason.Some? then (true, ipBanReason)
    else if !IsNullOrEmpty(userId) then
      var userBanReason := CacheGet(cache, UserKey(userId.value), now);
      if userBanReason.Some? then (true, userBanReason) else (false, None)
    else (false, None)
  }

  lemma BanIpKeepsConsistent(s: Store, ip: string, reason: string, expiresAt: Option<int>, now: int)
    requires Consistent(s)
    ensures Consistent(BanIpStep(s, ip, reason, expiresAt, now))
  {
    var t := BanIpStep(s, ip, reason, expiresAt, now);
    forall u | u in t.users ensures UserKey(u.id) in t.cache <==> UserKey(u.id) in s.cache {
      KeysAreDistinct(ip, u.id, ip, u.id);
    }
    forall ip2 | IpKey(ip2) in t.cache ensures ip2 in t.ipBans {
      KeysAreDistinct(ip, "", ip2, "");
    }
  }

  lemma MarkBannedKeepsConsistent(s: Store, i: nat, reason: string)
    requires Consistent(s) && i < |s.users| && !s.users[i].isBanned
    ensures Consistent(MarkBanned(s, i, reason))
  {
    var saved := MarkBanned(s, i, reason);
    var userId := s.users[i].id;
    forall v | v in saved.users
      ensures (UserKey(v.id) in saved.cache <==> v.isBanned)
              && (v.isBanned ==> v.banReason.Some? && saved.cache[UserKey(v.id)] == CacheEntry(v.banReason.value, None))
    {
      var k :| 0 <= k < |saved.users| && saved.users[k] == v;
      KeysAreDistinct("", v.id, "", userId);
      if k != i {
        assert v == s.users[k] && v.id != userId;
      }
    }
    forall ip2 | IpKey(ip2) in saved.cache ensures ip2 in saved.ipBans {
      KeysAreDistinct(ip2, userId, ip2, userId);
    }
    assert UniqueIds(saved.users) by {
      forall a, b | 0 <= a < b < |saved.users| ensures saved.users[a].id != saved.users[b].id {
        assert s.users[a].id != s.users[b].id;
      }
    }
  }

  lemma BanUserKeepsConsistent(s: Store, userId: UserId, reason: string, now: int)
    requires Consistent(s)
    ensures Consistent(BanUserStep(s, userId, reason, now))
  {
    var i := FindUser(s.users, userId);
    if i.Some? && !s.users[i.value].isBanned {
      var saved := MarkBanned(s, i.value, reason);
      MarkBannedKeepsConsistent(s, i.value, reason);
      var u' := saved.users[i.value];
      if u'.banCount >= BanThreshold && !IsNullOrEmpty(u'.lastIpAddress) {
        BanIpKeepsConsistent(saved, u'.lastIpAddress.value, AutoBanReason(userId), None, now);
      }
    }
  }

  lemma UnbanUserKeepsConsistent(s: Store, userId: UserId)
    requires Consistent(s)
    ensures Consistent(UnbanUserStep(s, userId))
  {
    var i := FindUser(s.users, userId);
    if i.Some? && s.users[i.value].isBanned {
      var t := UnbanUserStep(s, userId);
      forall v | v in t.users
        ensures (UserKey(v.id) in t.cache <==> v.isBanned)
                && (v.isBanned ==> v.banReason.Some? && t.cache[UserKey(v.id)] == CacheEntry(v.banReason.value, None))
      {
        var k :| 0 <= k < |t.users| && t.users[k] == v;
        KeysAreDistinct("", v.id, "", userId);
        if k != i.value {
          assert v == s.users[k] && v.id != userId;
        }
      }
      forall ip2 | IpKey(ip2) in t.cache ensures ip2 in t.ipBans {
        KeysAreDistinct(ip2, userId, ip2, userId);
      }
      assert UniqueIds(t.users) by {
        forall a, b | 0 <= a < b < |t.users| ensures t.users[a].id != t.users[b].id {
          assert s.users[a].id != s.users[b].id;
        }
      }
    }
  }

  lemma UnbanIpKeepsConsistent(s: Store, ip: string)
    requires Consistent(s)
    ensures Consistent(UnbanIpStep(s, ip))
  {
    var t := UnbanIpStep(s, ip);
    forall u | u in t.users ensures UserKey(u.id) in t.cache <==> UserKey(u.id) in s.cache {
      KeysAreDistinct(ip, u.id, ip, u.id);
    }
    forall ip2 | IpKey(ip2) in t.cache ensures ip2 in t.ipBans {
      KeysAreDistinct(ip, "", ip2, "");
    }
  }

  /** Banning a banned user changes nothing: a second ban neither counts
      again nor touches the cache. */
  lemma BanUserIdempotent(s: Store, userId: UserId, reason: string, reason2: string, now: int, now2: int)
    requires UniqueIds(s.users)
    ensures var t := BanUserStep(s, userId, reason, now);
            BanUserStep(t, userId, reason2, now2) == t
  {
    var t := BanUserStep(s, userId, reason, now);
    var i := FindUser(s.users, userId);
    if i.Some? && !s.users[i.value].isBanned {
      var j := FindUser(t.users, userId);
      assert j.Some? by {
        assert t.users[i.value].id == userId;
        assert t.users[i.value] in t.users;
      }
    }
  }

  /** Once a user is banned, every request carrying their id is stopped,
      from any address, as long as the state stays consistent. */
  lemma BannedUserIsStopped(s: Store, userId: UserId, reason: string, now: int, ip: string, later: int)
    requires Consistent(s)
    requires userId != [] && FindUser(s.users, userId).Some?
    ensures CheckBan(BanUserStep(s, userId, reason, now).cache, ip, Some(userId), later).0
  {
    var t := BanUserStep(s, userId, reason, now);
    BanUserKeepsConsistent(s, userId, reason, now);
    var i := FindUser(s.users, userId).value;
    assert t.users[i].isBanned by {
      if !s.users[i].isBanned {
      } else {
        assert t == s;
      }
    }
    assert t.users[i] in t.users;
  }

  /** After an unban, a request with the user's id passes unless its
      address is banned. */
  lemma UnbannedUserPasses(s: Store, userId: UserId, ip: string, now: int)
    requires Consistent(s)
    requires FindUser(s.users, userId).Some?
    requires CacheGet(s.cache, IpKey(ip), now).None?
    ensures !CheckBan(UnbanUserStep(s, userId).cache, ip, Some(userId), now).0
  {
    var t := UnbanUserStep(s, userId);
    var i := FindUser(s.users, userId).value;
    KeysAreDistinct(ip, userId, ip, userId);
    if !s.users[i].isBanned {
      assert s.users[i] in s.users;
    }
  }

  /** The moderation service over the three stores. */
  class BanningService {
    var users: seq<User>
    var ipBans: map<string, IpBan>
    var cache: Cache

    function State(): Store
      reads this
    {
      Store(users, ipBans, cache)
    }

    constructor (s: Store)
      ensures State() == s
    {
      users := s.users;
      ipBans := s.ipBans;
      cache := s.cache;
    }

    method BanIp(ip: string, reason: string, expiresAt: Option<int>, now: int)
      modifies this
      ensures State() == BanIpStep(old(State()), ip, reason, expiresAt, now)
      ensures old(Consistent(State())) ==> Consistent(State())
    {
      ghost var before := State();
      if ip in ipBans {
        return;
      }
      var ban := IpBan(ip, reason, now, expiresAt);
      ipBans := ipBans[ip := ban];
      if expiresAt.Some? {
        var ttl := expiresAt.value - now;
        if ttl > 0 {
          cache := cache[IpKey(ip) := CacheEntry(reason, expiresAt)];
        }
      } else {
        cache := cache[IpKey(ip) := CacheEntry(reason, None)];
      }
      if Consistent(before) {
        BanIpKeepsConsistent(before, ip, reason, expiresAt, now);
      }
    }

    method BanUser(userId: UserId, reason: string, now: int)
      modifies this
      ensures State() == BanUserStep(old(State()), userId, reason, now)
      ensures old(Consistent(State())) ==> Consistent(State())
    {
      ghost var before := State();
      var found := FindUser(users, userId);
      if found.None? {
        return;
      }
      var i := found.value;
      var user := users[i];
      if user.isBanned {
        return;
      }
      user := user.(isBanned := true, banReason := Some(reason), banCount := user.banCount + 1);
      users := users[i := user];
      cache := cache[UserKey(userId) := CacheEntry(reason, None)];
      assert State() == MarkBanned(before, i, reason);
      if user.banCount >= BanThreshold && !IsNullOrEmpty(user.lastIpAddress) {
        BanIp(user.lastIpAddress.value, AutoBanReason(userId), None, now);
      }
      if Consistent(before) {
        BanUserKeepsConsistent(before, userId, reason, now);
      }
    }

    method UnbanUser(userId: UserId)
      modifies this
      ensures State() == UnbanUserStep(old(State()), userId)
      ensures old(Consistent(State())) ==> Consistent(State())
    {
      ghost var before := State();
      var found := FindUser(users, userId);
      if found.None? || !users[found.value].isBanned {
        return;
      }
      var i := found.value;
      users := users[i := users[i].(isBanned := false)];
      cache := cache - {UserKey(userId)};
      if Consistent(before) {
        UnbanUserKeepsConsistent(before, userId);
      }
    }

    method UnbanIp(ip: string)
      modifies this
      ensures State() == UnbanIpStep(old(State()), ip)
      ensures old(Consistent(State())) ==> Consistent(State())
    {
      ghost var before := State();
      if ip !in ipBans {
        return;
      }
      ipBans := ipBans - {ip};
      cache := cache - {IpKey(ip)};
      if Consistent(before) {
        UnbanIpKeepsConsistent(before, ip);
      }
    }
  }
}

=== FILE: banning_middleware.dfy ===
/** `BanningMiddleware`: the admission gate every request passes before it
    reaches a controller. The client address is taken from the first
    `X-Forwarded-For` entry when there is one, the ban check is the
    cache-first `CheckBan` of the banning service, and a banned caller gets
    a 403 JSON answer instead of the rest of the pipeline. */
module BanningMiddleware {
  import opened Common
  import opened Banning

  const ForbiddenStatus: int := 403
  /** The Content-Type a banned caller receives. The middleware first sets
      "application/json", but `WriteAsJsonAsync` without a content type
      argument then overwrites the header with the JSON default, which
      carries the charset. */
  const JsonContentType: string := "application/json; charset=utf-8"
  const BannedMessage: string := "You have been banned from accessing this service."
  const NoReasonGiven: string := "No reason specified."
  const UnknownAddress: string := "unknown"

  /** The JSON body written for a banned caller. */
  datatype BanResponse = BanResponse(error: string, reason: string)

  /** What the gate reads from a request: the `X-Forwarded-For` values
      (`None` when the header is absent), the connection's remote address
      (`None` when unknown) and the NameIdentifier claim (`None` when the
      caller is anonymous). */
  datatype Request = Request(forwardedFor: Option<seq<string>>, remoteIp: Option<string>, userId: Option<UserId>)

  /** The gate's decision: answer 403 with this body, or call the next delegate. */
  datatype Decision = Forbid(response: BanResponse) | Proceed

  /** One `X-Forwarded-For` value's client address: its first
      comma-separated field with the surrounding white space cut. */
  function FirstAddress(value: string): (r: string)
    ensures r == [] <==> IsBlank(FirstField(value, ','))
    ensures ',' !in r
    ensures r == [] || (!IsWhiteSpace(r[0]) && !IsWhiteSpace(r[|r| - 1]))
  {
    var field := FirstField(value, ',');
    var ip := Trim(field);
    BlankIffTrimEmpty(field);
    TrimKeepsCharacters(field);
    ip
  }

  /** The address named by `X-Forwarded-For`: the first value's address,
      when the header is there and that address is not empty. */
  function ForwardedIp(forwardedFor: Option<seq<string>>): (r: Option<string>)
    ensures r.Some? <==> forwardedFor.Some? && |forwardedFor.value| > 0
                         && !IsBlank(FirstField(forwardedFor.value[0], ','))
    ensures r.Some? ==> r.value == FirstAddress(forwardedFor.value[0]) && r.value != []
  {
    if forwardedFor.Some? && |forwardedFor.value| > 0 && FirstAddress(forwardedFor.value[0]) != [] then
      Some(FirstAddress(forwardedFor.value[0]))
    else None
  }

  /** `GetClientIp`: the forwarded address, else the remote address, else "unknown". */
  function ClientIp(req: Request): (r: string)
    ensures ForwardedIp(req.forwardedFor).Some? ==> r == ForwardedIp(req.forwardedFor).value
    ensures ForwardedIp(req.forwardedFor).None? && req.remoteIp.Some? ==> r == req.remoteIp.value
    ensures ForwardedIp(req.forwardedFor).None? && req.remoteIp.None? ==> r == UnknownAddress
  {
    var forwarded := ForwardedIp(req.forwardedFor);
    if forwarded.Some? then forwarded.value
    else if req.remoteIp.Some? then req.remoteIp.value
    else UnknownAddress
  }

  /** A forwarded address is taken exactly as the client wrote it, apart
      from the white space around it: a header whose first entry is already
      a bare address yields that address, and later entries are ignored. */
  lemma {:induction false} ForwardedAddressKeptVerbatim(ip: string, rest: string, later: seq<string>)
    requires ip != [] && ',' !in ip
    requires !IsWhiteSpace(ip[0]) && !IsWhiteSpace(ip[|ip| - 1])
    ensures ForwardedIp(Some([ip + "," + rest] + later)) == Some(ip)
  {
    var v := ip + "," + rest;
    FirstFieldStopsAtSeparator(ip, rest);
    assert FirstField(v, ',') == ip;
    TrimOfTrimmed(ip);
    assert FirstAddress(v) == ip;
  }

  lemma {:induction false} FirstFieldStopsAtSeparator(ip: string, rest: string)
    requires ',' !in ip
    ensures FirstField(ip + "," + rest, ',') == ip
  {
    var v := ip + "," + rest;
    if ip == [] {
      assert v[0] == ',';
    } else {
      assert v[1..] == ip[1..] + "," + rest;
      FirstFieldStopsAtSeparator(ip[1..], rest);
    }
  }

  /** The ban check of InvokeAsync as a decision. */
  function Gate(cache: Cache, req: Request, now: int): (d: Decision)
    ensures d.Forbid? <==> CheckBan(cache, ClientIp(req), req.userId, now).0
    ensures d.Forbid? ==> d.response.error == BannedMessage
    ensures d.Forbid? ==> d.response.reason == CheckBan(cache, ClientIp(req), req.userId, now).1.value
  {
    var (isBanned, reason) := CheckBan(cache, ClientIp(req), req.userId, now);
    if isBanned then
      Forbid(BanResponse(BannedMessage, if reason.Some? then reason.value else NoReasonGiven))
    else Proceed
  }

  /** A caller whose id was banned through the service is turned away from
      every address while the store stays consistent; the reason is the
      address's own ban reason when it has one and the user's otherwise. */
  lemma BannedUserIsForbidden(s: Store, userId: UserId, reason: string, now: int, req: Request, later: int)
    requires Consistent(s)
    requires userId != [] && FindUser(s.users, userId).Some?
    requires req.userId == Some(userId)
    ensures Gate(BanUserStep(s, userId, reason, now).cache, req, later).Forbid?
  {
    BannedUserIsStopped(s, userId, reason, now, ClientIp(req), later);
  }

  /** A request whose address carries a live IP ban is turned away whoever
      sends it, anonymous or not, with the address's reason. */
  lemma BannedAddressIsForbidden(cache: Cache, req: Request, now: int)
    requires IpKey(ClientIp(req)) in cache
    requires cache[IpKey(ClientIp(req))].expiresAt.None? || now < cache[IpKey(ClientIp(req))].expiresAt.value
    ensures Gate(cache, req, now) == Forbid(BanResponse(BannedMessage, cache[IpKey(ClientIp(req))].value))
  {
  }

  /** An anonymous request from an address without a live ban always passes. */
  lemma AnonymousUnbannedPasses(cache: Cache, req: Request, now: int)
    requires req.userId.None? || req.userId == Some([])
    requires CacheGet(cache, IpKey(ClientIp(req)), now).None?
    ensures Gate(cache, req, now) == Proceed
  {
  }

  /** The request's `HttpContext`: the request and the response being built.
      `nextCalls` counts the calls to the next delegate; what the rest of
      the pipeline writes is not part of this model. */
  class HttpContext {
    const request: Request
    var statusCode: int
    var contentType: Option<string>
    var body: Option<BanResponse>
    var nextCalls: nat

    constructor (request: Request)
      ensures this.request == request
      ensures statusCode == 200 && contentType.None? && body.None? && nextCalls == 0
    {
      this.request := request;
      statusCode := 200;
      contentType := None;
      body := None;
      nextCalls := 0;
    }
  }

  /** `InvokeAsync`: a banned caller gets 403 and the JSON ban body and the
      next delegate is not called; anyone else goes on to the next delegate
      exactly once, with the response left as it was. */
  method InvokeAsync(context: HttpContext, cache: Cache, now: int)
    modifies context
    ensures var d := Gate(cache, context.request, now);
            d.Forbid? ==> && context.statusCode == ForbiddenStatus
                          && context.contentType == Some(JsonContentType)
                          && context.body == Some(d.response)
                          && context.nextCalls == old(context.nextCalls)
    ensures Gate(cache, context.request, now).Proceed? ==>
              && context.nextCalls == old(context.nextCalls) + 1
              && context.statusCode == old(context.statusCode)
              && context.contentType == old(context.contentType)
              && context.body == old(context.body)
  {
    var ip := ClientIp(context.request);
    var userId := context.request.userId;
    var (isBanned, reason) := CheckBan(cache, ip, userId, now);
    if isBanned {
      context.statusCode := ForbiddenStatus;
      context.contentType := Some(JsonContentType);
      context.body := Some(BanResponse(BannedMessage, if reason.Some? then reason.value else NoReasonGiven));
      return;
    }
    context.nextCalls := context.nextCalls + 1;
  }
}

=== FILE: blocks.dfy ===
/** `BlockService`: user blocks and their effect on follows.

    The UserBlocks and Follows tables are sets of rows identified by their
    pair of user ids. Blocking someone cuts every follow between the two
    users, in both directions; unblocking only removes the block. */
module Blocks {
  type UserId = string

  /** A UserBlocks row: `blockerId` has blocked `blockedId`. */
  datatype UserBlock = UserBlock(blockerId: UserId, blockedId: UserId)

  /** A Follows row: `followerId` follows `followeeId`. */
  datatype Follow = Follow(followerId: UserId, followeeId: UserId)

  datatype AppUser = AppUser(id: UserId, userName: string)

  /** How BlockUserAsync ends: a new block, the early return for an existing
      block, or the ArgumentException for blocking oneself. */
  datatype BlockOutcome = NewBlock | AlreadyBlocked | CannotBlockSelf

  /** The follow joins the two users, in either direction. */
  predicate Between(f: Follow, a: UserId, b: UserId)
  {
    (f.followerId == a && f.followeeId == b) || (f.followerId == b && f.followeeId == a)
  }

  /** BlockUserAsync on the two tables: the outcome, the new blocks and the new follows. */
  function BlockStep(blocks: set<UserBlock>, follows: set<Follow>, blockerId: UserId, blockedId: UserId)
    : (r: (BlockOutcome, set<UserBlock>, set<Follow>))
    ensures r.0 == CannotBlockSelf <==> blockerId == blockedId
    ensures r.0 == AlreadyBlocked <==> blockerId != blockedId && UserBlock(blockerId, blockedId) in blocks
    ensures r.0 != NewBlock ==> r.1 == blocks && r.2 == follows
    ensures r.0 == NewBlock ==> r.1 == blocks + {UserBlock(blockerId, blockedId)}
    ensures r.0 == NewBlock ==> forall f :: f in r.2 <==> f in follows && !Between(f, blockerId, blockedId)
  {
    if blockerId == blockedId then (CannotBlockSelf, blocks, follows)
    else if UserBlock(blockerId, blockedId) in blocks then (AlreadyBlocked, blocks, follows)
    else
      var severed := set f | f in follows && Between(f, blockerId, blockedId);
      (NewBlock, blocks + {UserBlock(blockerId, blockedId)}, follows - severed)
  }

  /** UnblockUserAsync: removes the row when there is one. */
  function UnblockStep(blocks: set<UserBlock>, blockerId: UserId, blockedId: UserId): (r: set<UserBlock>)
    ensures UserBlock(blockerId, blockedId) !in r
    ensures forall b :: b in r <==> b in blocks && b != UserBlock(blockerId, blockedId)
  {
    blocks - {UserBlock(blockerId, blockedId)}
  }

  /** IsBlockedAsync(userId, potentiallyBlockedById). */
  predicate IsBlocked(blocks: set<UserBlock>, userId: UserId, potentiallyBlockedById: UserId)
  {
    exists b :: b in blocks && b.blockerId == potentiallyBlockedById && b.blockedId == userId
  }

  /** IsBlockedAsync asks for exactly one row. */
  lemma IsBlockedMeansRow(blocks: set<UserBlock>, userId: UserId, blocker: UserId)
    ensures IsBlocked(blocks, userId, blocker) <==> UserBlock(blocker, userId) in blocks
  {
    if UserBlock(blocker, userId) in blocks {
      var b := UserBlock(blocker, userId);
      assert b in blocks && b.blockerId == blocker && b.blockedId == userId;
    }
  }

  /** GetBlockedUsersAsync: the users `userId` has blocked. */
  function BlockedUsers(blocks: set<UserBlock>, users: map<UserId, AppUser>, userId: UserId): (r: set<AppUser>)
    ensures forall b :: b in blocks && b.blockerId == userId && b.blockedId in users ==> users[b.blockedId] in r
    ensures (forall k :: k in users ==> users[k].id == k) ==>
              forall u :: u in r ==> u.id in users && IsBlocked(blocks, u.id, userId)
  {
    set b | b in blocks && b.blockerId == userId && b.blockedId in users :: users[b.blockedId]
  }

  /** GetBlacklistedUserIdsAsync: the users `userId` blocked together with
      the users who blocked `userId`. */
  function Blacklist(blocks: set<UserBlock>, userId: UserId): (r: set<UserId>)
    ensures forall x :: x in r <==> IsBlocked(blocks, x, userId) || IsBlocked(blocks, userId, x)
  {
    var blockedByMe := set b | b in blocks && b.blockerId == userId :: b.blockedId;
    var blockedMe := set b | b in blocks && b.blockedId == userId :: b.blockerId;
    blockedByMe + blockedMe
  }

  /** Blacklisting is mutual: if either user blocked the other, each is on
      the other's blacklist. */
  lemma BlacklistIsSymmetric(blocks: set<UserBlock>, a: UserId, b: UserId)
    ensures a in Blacklist(blocks, b) <==> b in Blacklist(blocks, a)
  {
  }

  /** After a new block the blocker's and the blocked user's blacklists each
      hold the other, the blocked user is reported blocked, and no follow
      joins them in either direction. */
  lemma BlockSeparates(blocks: set<UserBlock>, follows: set<Follow>, blockerId: UserId, blockedId: UserId)
    requires blockerId != blockedId
    ensures var (outcome, blocks', follows') := BlockStep(blocks, follows, blockerId, blockedId);
            && IsBlocked(blocks', blockedId, blockerId)
            && blockedId in Blacklist(blocks', blockerId)
            && blockerId in Blacklist(blocks', blockedId)
            && (outcome == NewBlock ==> !(Follow(blockerId, blockedId) in follows' || Follow(blockedId, blockerId) in follows'))
  {
    var (outcome, blocks', follows') := BlockStep(blocks, follows, blockerId, blockedId);
    IsBlockedMeansRow(blocks', blockedId, blockerId);
  }

  /** A block never adds a follow, and leaves every follow between other
      pairs in place. */
  lemma BlockOnlyCutsThePair(blocks: set<UserBlock>, follows: set<Follow>, blockerId: UserId, blockedId: UserId)
    ensures var follows' := BlockStep(blocks, follows, blockerId, blockedId).2;
            && follows' <= follows
            && forall f :: f in follows && !Between(f, blockerId, blockedId) ==> f in follows'
  {
  }

  /** Blocking again changes nothing. */
  lemma BlockIsIdempotent(blocks: set<UserBlock>, follows: set<Follow>, blockerId: UserId, blockedId: UserId)
    ensures var (_, blocks', follows') := BlockStep(blocks, follows, blockerId, blockedId);
            BlockStep(blocks', follows', blockerId, blockedId) == (if blockerId == blockedId then CannotBlockSelf else AlreadyBlocked, blocks', follows')
  {
  }

  /** Unblocking undoes a new block's row but not its effect on follows:
      the follows cut by the block stay cut. */
  lemma UnblockDoesNotRestoreFollows(blocks: set<UserBlock>, follows: set<Follow>, blockerId: UserId, blockedId: UserId)
    requires blockerId != blockedId && UserBlock(blockerId, blockedId) !in blocks
    requires Follow(blockerId, blockedId) in follows
    ensures var (_, blocks', follows') := BlockStep(blocks, follows, blockerId, blockedId);
            && UnblockStep(blocks', blockerId, blockedId) == blocks
            && Follow(blockerId, blockedId) !in follows'
  {
  }

  /** The service over the UserBlocks and Follows tables; the Users table
      is read-only here. */
  class BlockService {
    var userBlocks: set<UserBlock>
    var follows: set<Follow>
    const users: map<UserId, AppUser>

    constructor (userBlocks: set<UserBlock>, follows: set<Follow>, users: map<UserId, AppUser>)
      ensures this.userBlocks == userBlocks && this.follows == follows && this.users == users
    {
      this.userBlocks := userBlocks;
      this.follows := follows;
      this.users := users;
    }

    /** BlockUserAsync. `CannotBlockSelf` is the ArgumentException. */
    method BlockUser(blockerId: UserId, blockedId: UserId) returns (outcome: BlockOutcome)
      modifies this
      ensures (outcome, userBlocks, follows) == BlockStep(old(userBlocks), old(follows), blockerId, blockedId)
    {
      if blockerId == blockedId {
        return CannotBlockSelf;
      }
      if UserBlock(blockerId, blockedId) in userBlocks {
        return AlreadyBlocked;
      }
      userBlocks := userBlocks + {UserBlock(blockerId, blockedId)};
      var severed := set f | f in follows && Between(f, blockerId, blockedId);
      if severed != {} {
        follows := follows - severed;
      } else {
        assert follows - severed == follows;
      }
      outcome := NewBlock;
    }

    /** UnblockUserAsync. */
    method UnblockUser(blockerId: UserId, blockedId: UserId)
      modifies this
      ensures userBlocks == UnblockStep(old(userBlocks), blockerId, blockedId)
      ensures follows == old(follows)
    {
      if UserBlock(blockerId, blockedId) !in userBlocks {
        return;
      }
      userBlocks := userBlocks - {UserBlock(blockerId, blockedId)};
    }

    /** IsBlockedAsync. */
    function IsBlockedBy(userId: UserId, potentiallyBlockedById: UserId): (r: bool)
      reads this
      ensures r <==> UserBlock(potentiallyBlockedById, userId) in userBlocks
    {
      IsBlockedMeansRow(userBlocks, userId, potentiallyBlockedById);
      IsBlocked(userBlocks, userId, potentiallyBlockedById)
    }

    /** GetBlockedUsersAsync. */
    function GetBlockedUsers(userId: UserId): (r: set<AppUser>)
      reads this
      ensures forall b :: b in userBlocks && b.blockerId == userId && b.blockedId in users ==> users[b.blockedId] in r
      ensures (forall k :: k in users ==> users[k].id == k) ==>
                forall u :: u in r ==> UserBlock(userId, u.id) in userBlocks
    {
      var r := BlockedUsers(userBlocks, users, userId);
      forall u | u in r ensures (forall k :: k in users ==> users[k].id == k) ==> UserBlock(userId, u.id) in userBlocks {
        IsBlockedMeansRow(userBlocks, u.id, userId);
      }
      r
    }

    /** GetBlacklistedUserIdsAsync. */
    function GetBlacklistedUserIds(userId: UserId): (r: set<UserId>)
      reads this
      ensures forall x :: x in r <==> UserBlock(userId, x) in userBlocks || UserBlock(x, userId) in userBlocks
    {
      var r := Blacklist(userBlocks, userId);
      forall x ensures x in r <==> UserBlock(userId, x) in userBlocks || UserBlock(x, userId) in userBlocks {
        IsBlockedMeansRow(userBlocks, x, userId);
        IsBlockedMeansRow(userBlocks, userId, x);
      }
      r
    }
  }
}

=== FILE: business_analytics.dfy ===
/** `BusinessAnalyticsService`: a per-place, per-day view counter and the
    analytics read for a place owner.

    The PlaceDailyMetrics table is a sequence of rows with `nextId` the next
    identity value; dates are day numbers (`DateOnly`) and times are ticks.
    Places enter as a map from id to their Favorites count, reviews as the
    place and creation time of each Reviews row (through its activity), and
    events as the PlaceId of each Events row. `today` stands for
    `DateOnly.FromDateTime(DateTime.UtcNow)`. */
module BusinessAnalytics {
  import opened Common
  import opened Sorting

  datatype PlaceDailyMetric = PlaceDailyMetric(id: int, placeId: int, date: int, viewCount: int)

  /** A Reviews row as the analytics see it: its activity's place and its time. */
  datatype ReviewStamp = ReviewStamp(placeId: int, createdAt: nat)

  datatype PlaceDailyStatDto = PlaceDailyStatDto(date: int, views: int)

  /** One group of `GroupBy(r => r.CreatedAt.Hour)`. */
  datatype HourCount = HourCount(hour: int, count: int)

  /** The analytics DTO without AvgRating. */
  datatype PlaceAnalytics = PlaceAnalytics(placeId: int, totalViews: int, favorites: int, totalReviews: int,
                                           eventCount: int, viewsHistory: seq<PlaceDailyStatDto>, peakHours: seq<int>)

  /** How many days of view history the analytics return. */
  const HistoryDays: int := 30

  /** The first row for (place, date). */
  function FindMetric(metrics: seq<PlaceDailyMetric>, placeId: int, date: int): (r: Option<nat>)
    ensures r.Some? ==> r.value < |metrics| && metrics[r.value].placeId == placeId && metrics[r.value].date == date
    ensures r.None? ==> forall k :: 0 <= k < |metrics| ==> metrics[k].placeId != placeId || metrics[k].date != date
  {
    if metrics == [] then None
    else if metrics[0].placeId == placeId && metrics[0].date == date then Some(0)
    else
      var rest := FindMetric(metrics[1..], placeId, date);
      if rest.Some? then Some(rest.value + 1) else None
  }

  /** At most one row per (place, date). */
  predicate OneRowPerDay(metrics: seq<PlaceDailyMetric>)
  {
    forall i, j :: 0 <= i < j < |metrics| ==> metrics[i].placeId != metrics[j].placeId || metrics[i].date != metrics[j].date
  }

  /** What one row adds to a place's total. */
  function ViewsFor(m: PlaceDailyMetric, placeId: int): int
  {
    if m.placeId == placeId then m.viewCount else 0
  }

  /** `Where(m => m.PlaceId == placeId).SumAsync(m => m.ViewCount)`. */
  function TotalViews(metrics: seq<PlaceDailyMetric>, placeId: int): int
  {
    if metrics == [] then 0
    else TotalViews(metrics[..|metrics| - 1], placeId) + ViewsFor(metrics[|metrics| - 1], placeId)
  }

  /** Replacing one row changes a total by the difference of the two rows. */
  lemma {:induction false} TotalViewsUpdate(metrics: seq<PlaceDailyMetric>, i: int, m: PlaceDailyMetric, placeId: int)
    requires 0 <= i < |metrics|
    ensures TotalViews(metrics[i := m], placeId)
            == TotalViews(metrics, placeId) - ViewsFor(metrics[i], placeId) + ViewsFor(m, placeId)
  {
    var n := |metrics|;
    var updated := metrics[i := m];
    if i < n - 1 {
      assert updated[..n - 1] == metrics[..n - 1][i := m];
      TotalViewsUpdate(metrics[..n - 1], i, m, placeId);
    } else {
      assert updated[..n - 1] == metrics[..n - 1];
    }
  }

  /** TrackPlaceViewAsync on the table: a new row with one view, or one more
      view on the existing row. */
  function TrackPlaceViewStep(metrics: seq<PlaceDailyMetric>, nextId: int, placeId: int, today: int)
    : (r: seq<PlaceDailyMetric>)
    ensures FindMetric(metrics, placeId, today).None? ==> r == metrics + [PlaceDailyMetric(nextId, placeId, today, 1)]
    ensures FindMetric(metrics, placeId, today).Some? ==>
              var i := FindMetric(metrics, placeId, today).value;
              |r| == |metrics| && r[i].viewCount == metrics[i].viewCount + 1
              && r[i].id == metrics[i].id && r[i].placeId == placeId && r[i].date == today
              && forall k :: 0 <= k < |metrics| && k != i ==> r[k] == metrics[k]
  {
    match FindMetric(metrics, placeId, today)
    case None => metrics + [PlaceDailyMetric(nextId, placeId, today, 1)]
    case Some(i) => metrics[i := metrics[i].(viewCount := metrics[i].viewCount + 1)]
  }

  /** Tracking keeps at most one row per (place, date). */
  lemma TrackKeepsOneRowPerDay(metrics: seq<PlaceDailyMetric>, nextId: int, placeId: int, today: int)
    requires OneRowPerDay(metrics)
    ensures OneRowPerDay(TrackPlaceViewStep(metrics, nextId, placeId, today))
  {
    var r := TrackPlaceViewStep(metrics, nextId, placeId, today);
    if FindMetric(metrics, placeId, today).None? {
      forall i, j | 0 <= i < j < |r| ensures r[i].placeId != r[j].placeId || r[i].date != r[j].date {
        if j == |metrics| {
          assert r[i] == metrics[i];
        }
      }
    } else {
      forall i, j | 0 <= i < j < |r| ensures r[i].placeId != r[j].placeId || r[i].date != r[j].date {
        assert r[i].placeId == metrics[i].placeId && r[i].date == metrics[i].date;
        assert r[j].placeId == metrics[j].placeId && r[j].date == metrics[j].date;
      }
    }
  }

  /** Each view adds exactly one to the place's total and nothing to any
      other place's; a row is added only when the day had none. */
  lemma TrackAddsOneView(metrics: seq<PlaceDailyMetric>, nextId: int, placeId: int, today: int, other: int)
    ensures var r := TrackPlaceViewStep(metrics, nextId, placeId, today);
            && TotalViews(r, placeId) == TotalViews(metrics, placeId) + 1
            && (other != placeId ==> TotalViews(r, other) == TotalViews(metrics, other))
            && (|r| == |metrics| <==> FindMetric(metrics, placeId, today).Some?)
  {
    var r := TrackPlaceViewStep(metrics, nextId, placeId, today);
    match FindMetric(metrics, placeId, today)
    case None =>
      assert r[..|r| - 1] == metrics;
    case Some(i) =>
      TotalViewsUpdate(metrics, i, metrics[i].(viewCount := metrics[i].viewCount + 1), placeId);
      TotalViewsUpdate(metrics, i, metrics[i].(viewCount := metrics[i].viewCount + 1), other);
  }

  /** `Where(m => m.PlaceId == placeId && m.Date >= cutoff).OrderBy(m => m.Date)`. */
  function HistoryRows(metrics: seq<PlaceDailyMetric>, placeId: int, cutoff: int): (rows: seq<PlaceDailyMetric>)
    ensures forall m :: m in rows <==> m in metrics && m.placeId == placeId && m.date >= cutoff
    ensures multiset(rows) == multiset(Filter(metrics, (m: PlaceDailyMetric) => m.placeId == placeId && m.date >= cutoff))
    ensures forall i, j :: 0 <= i < j < |rows| ==> rows[i].date <= rows[j].date
  {
    var key := (m: PlaceDailyMetric) => m.date;
    KeyOrdersArePreorders(key);
    var matching := Filter(metrics, (m: PlaceDailyMetric) => m.placeId == placeId && m.date >= cutoff);
    var rows := SortBy(matching, AscendingBy(key));
    assert forall m :: m in rows <==> m in matching by {
      forall m ensures m in rows <==> m in matching {
        assert m in rows <==> m in multiset(rows);
        assert m in matching <==> m in multiset(matching);
      }
    }
    rows
  }

  /** `.Select(m => new PlaceDailyStatDto(m.Date, m.ViewCount))`. */
  function ToStats(rows: seq<PlaceDailyMetric>): (r: seq<PlaceDailyStatDto>)
    ensures |r| == |rows|
    ensures forall i :: 0 <= i < |rows| ==> r[i] == PlaceDailyStatDto(rows[i].date, rows[i].viewCount)
  {
    if rows == [] then [] else [PlaceDailyStatDto(rows[0].date, rows[0].viewCount)] + ToStats(rows[1..])
  }

  /** The creation times of the place's reviews. */
  function ReviewTimes(reviews: seq<ReviewStamp>, placeId: int): (r: seq<nat>)
    ensures |r| <= |reviews|
  {
    if reviews == [] then []
    else
      var rest := ReviewTimes(reviews[..|reviews| - 1], placeId);
      var last := reviews[|reviews| - 1];
      if last.placeId == placeId then rest + [last.createdAt] else rest
  }

  /** How many of the times fall in hour `h` of their day. */
  function CountAtHour(times: seq<nat>, h: int): nat
  {
    if times == [] then 0
    else CountAtHour(times[..|times| - 1], h) + (if HourOf(times[|times| - 1]) == h then 1 else 0)
  }

  /** The groups of the hour query: one per hour that has reviews, with
      their number, in hour order from `from`. */
  function HourGroupsFrom(times: seq<nat>, from: nat): (r: seq<HourCount>)
    requires from <= 24
    ensures forall g :: g in r ==> from <= g.hour < 24 && g.count == CountAtHour(times, g.hour) && g.count > 0
    ensures forall h :: from <= h < 24 && CountAtHour(times, h) > 0 ==> HourCount(h, CountAtHour(times, h)) in r
    ensures forall i, j :: 0 <= i < j < |r| ==> r[i].hour < r[j].hour
    decreases 24 - from
  {
    if from == 24 then []
    else
      var rest := HourGroupsFrom(times, from + 1);
      var c := CountAtHour(times, from);
      if c > 0 then [HourCount(from, c)] + rest else rest
  }

  /** `GroupBy(r => r.CreatedAt.Hour).Select(g => new { Hour = g.Key, Count = g.Count() })`. */
  function HourGroups(times: seq<nat>): (r: seq<HourCount>)
    ensures forall g :: g in r ==> 0 <= g.hour < 24 && g.count == CountAtHour(times, g.hour) && g.count > 0
    ensures forall h :: 0 <= h < 24 && CountAtHour(times, h) > 0 ==> HourCount(h, CountAtHour(times, h)) in r
    ensures forall i, j :: 0 <= i < j < |r| ==> r[i].hour < r[j].hour
  {
    HourGroupsFrom(times, 0)
  }

  /** What slot `h` of the 24-slot list holds after the groups are written
      in order: the count of the last group for hour `h`, or 0. */
  function SlotValue(groups: seq<HourCount>, h: int): int
  {
    if groups == [] then 0
    else if groups[|groups| - 1].hour == h then groups[|groups| - 1].count
    else SlotValue(groups[..|groups| - 1], h)
  }

  /** A slot no group names stays 0. */
  lemma {:induction false} SlotOfAbsentHour(groups: seq<HourCount>, h: int)
    requires forall g :: g in groups ==> g.hour != h
    ensures SlotValue(groups, h) == 0
  {
    if groups != [] {
      assert forall g :: g in groups[..|groups| - 1] ==> g in groups;
      SlotOfAbsentHour(groups[..|groups| - 1], h);
    }
  }

  /** With hours in increasing order, a group's slot holds its count. */
  lemma {:induction false} SlotOfGroup(groups: seq<HourCount>, k: int)
    requires forall i, j :: 0 <= i < j < |groups| ==> groups[i].hour < groups[j].hour
    requires 0 <= k < |groups|
    ensures SlotValue(groups, groups[k].hour) == groups[k].count
  {
    var n := |groups|;
    if k < n - 1 {
      assert groups[..n - 1][k] == groups[k];
      SlotOfGroup(groups[..n - 1], k);
    }
  }

  /** Slot `h` of the list built from the hour groups is the number of the
      place's reviews created in hour `h`. */
  lemma SlotsCountReviews(times: seq<nat>, h: int)
    requires 0 <= h < 24
    ensures SlotValue(HourGroups(times), h) == CountAtHour(times, h)
  {
    var groups := HourGroups(times);
    if CountAtHour(times, h) > 0 {
      var k :| 0 <= k < |groups| && groups[k] == HourCount(h, CountAtHour(times, h));
      SlotOfGroup(groups, k);
    } else {
      SlotOfAbsentHour(groups, h);
    }
  }

  /** The 24-slot list: every slot starts at 0 and each group with an hour
      in 0..23 writes its count into its slot; other hours are skipped. */
  method FillPeakHours(groups: seq<HourCount>) returns (peakHours: seq<int>)
    ensures |peakHours| == 24
    ensures forall h :: 0 <= h < 24 ==> peakHours[h] == SlotValue(groups, h)
  {
    var slots := new int[24](_ => 0);
    for i := 0 to |groups|
      invariant forall h :: 0 <= h < 24 ==> slots[h] == SlotValue(groups[..i], h)
    {
      var g := groups[i];
      if 0 <= g.hour < 24 {
        slots[g.hour] := g.count;
      }
      assert groups[..i + 1][..i] == groups[..i];
    }
    assert groups[..|groups|] == groups;
    peakHours := slots[..];
  }

  /** The sum of a list of counts. */
  function Sum(s: seq<int>): int
  {
    if s == [] then 0 else Sum(s[..|s| - 1]) + s[|s| - 1]
  }

  /** The reviews in hours below `n`. */
  function CountBelowHour(times: seq<nat>, n: nat): nat
  {
    if n == 0 then 0 else CountBelowHour(times, n - 1) + CountAtHour(times, n - 1)
  }

  lemma {:induction false} CountBelowHourEmpty(n: nat)
    ensures CountBelowHour([], n) == 0
  {
    if n > 0 {
      CountBelowHourEmpty(n - 1);
    }
  }

  /** One more time adds one to the count below `n` exactly when its hour is below `n`. */
  lemma {:induction false} CountBelowHourAppend(times: seq<nat>, t: nat, n: nat)
    ensures CountBelowHour(times + [t], n) == CountBelowHour(times, n) + (if HourOf(t) < n then 1 else 0)
  {
    assert (times + [t])[..|times|] == times;
    if n > 0 {
      CountBelowHourAppend(times, t, n - 1);
    }
  }

  /** Every time falls in one of the 24 hours. */
  lemma {:induction false} HoursCoverEveryReview(times: seq<nat>)
    ensures CountBelowHour(times, 24) == |times|
  {
    if times == [] {
      CountBelowHourEmpty(24);
    } else {
      var n := |times|;
      assert times == times[..n - 1] + [times[n - 1]];
      HoursCoverEveryReview(times[..n - 1]);
      CountBelowHourAppend(times[..n - 1], times[n - 1], 24);
    }
  }

  /** Slots that each hold their hour's count sum to the count below `n`. */
  lemma {:induction false} SlotsSum(peakHours: seq<int>, times: seq<nat>, n: nat)
    requires n <= |peakHours|
    requires forall h :: 0 <= h < n ==> peakHours[h] == CountAtHour(times, h)
    ensures Sum(peakHours[..n]) == CountBelowHour(times, n)
  {
    if n > 0 {
      assert peakHours[..n][..n - 1] == peakHours[..n - 1];
      SlotsSum(peakHours, times, n - 1);
    }
  }

  /** `peakHours.IndexOf(peakHours.Max())`: the first slot holding the
      largest count. The service only logs it. */
  function PeakHour(peakHours: seq<int>): (h: nat)
    requires |peakHours| > 0
    ensures h < |peakHours|
    ensures forall k :: 0 <= k < |peakHours| ==> peakHours[k] <= peakHours[h]
    ensures forall k :: 0 <= k < h ==> peakHours[k] < peakHours[h]
  {
    IndexOf(peakHours, MaxOf(peakHours))
  }

  function MaxOf(s: seq<int>): (m: int)
    requires |s| > 0
    ensures m in s
    ensures forall k :: 0 <= k < |s| ==> s[k] <= m
  {
    if |s| == 1 then s[0]
    else
      var rest := MaxOf(s[1..]);
      assert forall k :: 1 <= k < |s| ==> s[k] == s[1..][k - 1];
      if s[0] >= rest then s[0] else rest
  }

  function IndexOf(s: seq<int>, x: int): (i: nat)
    requires x in s
    ensures i < |s| && s[i] == x
    ensures forall k :: 0 <= k < i ==> s[k] != x
  {
    if s[0] == x then 0 else IndexOf(s[1..], x) + 1
  }

  /** The service over the PlaceDailyMetrics table. */
  class BusinessAnalyticsService {
    var metrics: seq<PlaceDailyMetric>
    var nextId: int
    const favorites: map<int, int>
    const reviews: seq<ReviewStamp>
    const eventPlaceIds: seq<int>

    constructor (metrics: seq<PlaceDailyMetric>, nextId: int, favorites: map<int, int>, reviews: seq<ReviewStamp>,
                 eventPlaceIds: seq<int>)
      ensures this.metrics == metrics && this.nextId == nextId && this.favorites == favorites
      ensures this.reviews == reviews && this.eventPlaceIds == eventPlaceIds
    {
      this.metrics := metrics;
      this.nextId := nextId;
      this.favorites := favorites;
      this.reviews := reviews;
      this.eventPlaceIds := eventPlaceIds;
    }

    /** TrackPlaceViewAsync. */
    method TrackPlaceViewAsync(placeId: int, today: int)
      modifies this
      ensures metrics == TrackPlaceViewStep(old(metrics), old(nextId), placeId, today)
      ensures nextId == if |metrics| > |old(metrics)| then old(nextId) + 1 else old(nextId)
      ensures OneRowPerDay(old(metrics)) ==> OneRowPerDay(metrics)
      ensures TotalViews(metrics, placeId) == TotalViews(old(metrics), placeId) + 1
    {
      ghost var before := metrics;
      var found := FindMetric(metrics, placeId, today);
      if found.None? {
        metrics := metrics + [PlaceDailyMetric(nextId, placeId, today, 1)];
        nextId := nextId + 1;
      } else {
        var i := found.value;
        metrics := metrics[i := metrics[i].(viewCount := metrics[i].viewCount + 1)];
      }
      TrackAddsOneView(before, old(nextId), placeId, today, placeId);
      if OneRowPerDay(before) {
        TrackKeepsOneRowPerDay(before, old(nextId), placeId, today);
      }
    }

    /** GetPlaceAnalyticsAsync: `None` is the KeyNotFoundException of an
        unknown place. The history covers the last 30 days in date order,
        the total covers every day, and slot `h` of the 24 peak-hour slots
        counts the place's reviews created in hour `h`, so the slots add up
        to the review count. */
    method GetPlaceAnalyticsAsync(placeId: int, today: int) returns (r: Option<PlaceAnalytics>)
      ensures r.None? <==> placeId !in favorites
      ensures r.Some? ==>
                && r.value.placeId == placeId
                && r.value.favorites == favorites[placeId]
                && r.value.totalReviews == |ReviewTimes(reviews, placeId)|
                && r.value.eventCount == multiset(eventPlaceIds)[placeId]
                && r.value.totalViews == TotalViews(metrics, placeId)
                && r.value.viewsHistory == ToStats(HistoryRows(metrics, placeId, today - HistoryDays))
      ensures r.Some? ==> |r.value.peakHours| == 24
      ensures r.Some? ==> forall h :: 0 <= h < 24 ==> r.value.peakHours[h] == CountAtHour(ReviewTimes(reviews, placeId), h)
      ensures r.Some? ==> Sum(r.value.peakHours) == r.value.totalReviews
    {
      if placeId !in favorites {
        return None;
      }
      var times := ReviewTimes(reviews, placeId);
      var eventCount := multiset(eventPlaceIds)[placeId];
      var history := ToStats(HistoryRows(metrics, placeId, today - HistoryDays));
      var totalViews := TotalViews(metrics, placeId);
      var groups := HourGroups(times);
      var peakHours := FillPeakHours(groups);
      forall h | 0 <= h < 24 ensures peakHours[h] == CountAtHour(times, h) {
        SlotsCountReviews(times, h);
      }
      SlotsSum(peakHours, times, 24);
      HoursCoverEveryReview(times);
      assert peakHours[..24] == peakHours;
      r := Some(PlaceAnalytics(placeId, totalViews, favorites[placeId], |times|, eventCount, history, peakHours));
    }
  }
}

=== FILE: common.dfy ===
/** Values shared by every module: optional values and the handful of .NET
    string operations the services rely on (Trim, ToLower/ToUpper,
    IsNullOrWhiteSpace, StartsWith, Contains, the first field of a Split). */
module Common {

  /** A C# nullable reference (`string?`, `int?`, `DateTime?`). */
  datatype Option<T> = None | Some(value: T)

  /** DateTime values are 100-nanosecond ticks. */
  const TicksPerHour: nat := 36_000_000_000
  const TicksPerDay: nat := 864_000_000_000

  /** `DateTime.Date`: the midnight that starts the day holding `t`. */
  function StartOfDay(t: nat): (d: nat)
    ensures d <= t < d + TicksPerDay
    ensures d % TicksPerDay == 0
  {
    t - t % TicksPerDay
  }

  /** `DateTime.Hour`. */
  function HourOf(t: nat): (h: nat)
    ensures h < 24
  {
    (t % TicksPerDay) / TicksPerHour
  }

  /** `char.IsWhiteSpace` on the characters it accepts below U+0100. */
  predicate IsWhiteSpace(c: char)
  {
    c == ' ' || ('\t' <= c <= '\r') || c == '\U{85}' || c == '\U{A0}'
  }

  /** Empty or made only of white space. */
  predicate IsBlank(s: string)
  {
    forall i :: 0 <= i < |s| ==> IsWhiteSpace(s[i])
  }

  /** `string.IsNullOrWhiteSpace`. */
  predicate IsNullOrWhiteSpace(s: Option<string>)
  {
    s.None? || IsBlank(s.value)
  }

  /** `string.IsNullOrEmpty`. */
  predicate IsNullOrEmpty(s: Option<string>)
  {
    s.None? || s.value == []
  }

  /** How many white-space characters `s` starts with. */
  function LeadingBlanks(s: string): (n: nat)
    ensures n <= |s|
    ensures forall i :: 0 <= i < n ==> IsWhiteSpace(s[i])
    ensures n < |s| ==> !IsWhiteSpace(s[n])
  {
    if s != [] && IsWhiteSpace(s[0]) then
      var n := LeadingBlanks(s[1..]);
      assert forall i :: 1 <= i < |s| ==> s[i] == s[1..][i - 1];
      n + 1
    else 0
  }

  /** How many white-space characters `s` ends with. */
  function TrailingBlanks(s: string): (n: nat)
    ensures n <= |s|
    ensures forall i :: |s| - n <= i < |s| ==> IsWhiteSpace(s[i])
    ensures n < |s| ==> !IsWhiteSpace(s[|s| - n - 1])
  {
    if s != [] && IsWhiteSpace(s[|s| - 1]) then
      var n := TrailingBlanks(s[..|s| - 1]);
      assert forall i :: 0 <= i < |s| - 1 ==> s[i] == s[..|s| - 1][i];
      n + 1
    else 0
  }

  /** `Trim()`: the infix of `s` left after cutting the leading and the
      trailing white space; what is cut off on either side is white space. */
  function Trim(s: string): (r: string)
    ensures var a := LeadingBlanks(s);
            && a + |r| <= |s| && r == s[a..a + |r|]
            && (forall i :: 0 <= i < a ==> IsWhiteSpace(s[i]))
            && (forall i :: a + |r| <= i < |s| ==> IsWhiteSpace(s[i]))
    ensures r == [] || (!IsWhiteSpace(r[0]) && !IsWhiteSpace(r[|r| - 1]))
  {
    var a := LeadingBlanks(s);
    if a == |s| then []
    else
      var b := |s| - TrailingBlanks(s);
      s[a..b]
  }

  /** A string is blank exactly when trimming leaves nothing. */
  lemma BlankIffTrimEmpty(s: string)
    ensures IsBlank(s) <==> Trim(s) == []
  {
    var r := Trim(s);
    if r != [] {
      var a := LeadingBlanks(s);
      assert s[a] == r[0];
    }
  }

  /** Trimming a string that neither starts nor ends with white space
      leaves it as it is. */
  lemma TrimOfTrimmed(r: string)
    requires r == [] || (!IsWhiteSpace(r[0]) && !IsWhiteSpace(r[|r| - 1]))
    ensures Trim(r) == r
  {
    if r != [] {
      assert LeadingBlanks(r) == 0;
      assert TrailingBlanks(r) == 0;
      assert r[0..|r|] == r;
    }
  }

  /** Trimming twice is trimming once. */
  lemma TrimIdempotent(s: string)
    ensures Trim(Trim(s)) == Trim(s)
  {
    TrimOfTrimmed(Trim(s));
  }

  /** Trimming only drops characters: every character of the result is in the input. */
  lemma TrimKeepsCharacters(s: string)
    ensures forall c :: c in Trim(s) ==> c in s
  {
    var r := Trim(s);
    var a := LeadingBlanks(s);
    forall c | c in r ensures c in s {
      var k :| 0 <= k < |r| && r[k] == c;
      assert r[k] == s[a + k];
    }
  }

  /** ASCII part of `char.ToLowerInvariant`. */
  function LowerChar(c: char): char
  {
    if 'A' <= c <= 'Z' then (c as int + 32) as char else c
  }

  /** ASCII part of `char.ToUpperInvariant`. */
  function UpperChar(c: char): char
  {
    if 'a' <= c <= 'z' then (c as int - 32) as char else c
  }

  /** `ToLower()` / `ToLowerInvariant()`: maps every character, keeps the length. */
  function ToLower(s: string): (r: string)
    ensures |r| == |s|
    ensures forall i :: 0 <= i < |s| ==> r[i] == LowerChar(s[i])
  {
    seq(|s|, i requires 0 <= i < |s| => LowerChar(s[i]))
  }

  /** `ToUpper()` / `ToUpperInvariant()`. */
  function ToUpper(s: string): (r: string)
    ensures |r| == |s|
    ensures forall i :: 0 <= i < |s| ==> r[i] == UpperChar(s[i])
  {
    seq(|s|, i requires 0 <= i < |s| => UpperChar(s[i]))
  }

  /** Lower-casing is idempotent: a lower-cased query matches itself. */
  lemma ToLowerIdempotent(s: string)
    ensures ToLower(ToLower(s)) == ToLower(s)
  {
  }

  /** `s.StartsWith(prefix)` (ordinal). */
  predicate StartsWith(s: string, prefix: string)
  {
    |prefix| <= |s| && s[..|prefix|] == prefix
  }

  /** `s.Contains(sub)` (ordinal): `sub` occurs at some offset of `s`. */
  predicate Contains(s: string, sub: string)
  {
    StartsWith(s, sub) || (s != [] && Contains(s[1..], sub))
  }

  /** `Contains` means an occurrence at some offset. */
  lemma {:induction false} ContainsAt(s: string, sub: string)
    ensures Contains(s, sub) <==> exists k :: 0 <= k <= |s| - |sub| && StartsWith(s[k..], sub)
  {
    if s != [] {
      ContainsAt(s[1..], sub);
      if Contains(s[1..], sub) {
        var k :| 0 <= k <= |s[1..]| - |sub| && StartsWith(s[1..][k..], sub);
        assert s[1..][k..] == s[k + 1..];
        assert StartsWith(s[k + 1..], sub);
      }
      if StartsWith(s, sub) {
        assert s[0..] == s;
      }
      if k :| 0 <= k <= |s| - |sub| && StartsWith(s[k..], sub) {
        if k > 0 {
          assert s[1..][k - 1..] == s[k..];
          assert Contains(s[1..], sub);
        } else {
          assert s[0..] == s;
        }
      }
    } else {
      assert s[0..] == s;
    }
  }

  /** `s.Split(sep)[0]`: everything before the first `sep`, or all of `s`. */
  function FirstField(s: string, sep: char): (r: string)
    ensures StartsWith(s, r)
    ensures sep !in r
    ensures |r| < |s| ==> s[|r|] == sep
  {
    if s == [] || s[0] == sep then [] else [s[0]] + FirstField(s[1..], sep)
  }

  /** Sequence of distinct elements. */
  predicate NoDuplicates<T(==)>(s: seq<T>)
  {
    forall i, j :: 0 <= i < j < |s| ==> s[i] != s[j]
  }

  /** Appending an element not yet present keeps the elements distinct. */
  lemma NoDuplicatesAppend<T>(s: seq<T>, x: T)
    requires NoDuplicates(s) && x !in s
    ensures NoDuplicates(s + [x])
  {
  }

  /** The position of the first occurrence of `x` in `s`. */
  function FirstIndex<T(==)>(s: seq<T>, x: T): (i: nat)
    requires x in s
    ensures i < |s| && s[i] == x && x !in s[..i]
  {
    if s[0] == x then 0
    else
      assert s == [s[0]] + s[1..];
      var k := FirstIndex(s[1..], x);
      assert s[..k + 1] == [s[0]] + s[1..][..k];
      1 + k
  }

  /** An element of a prefix occurs first at the same position in the whole sequence. */
  lemma FirstIndexInPrefix<T>(s: seq<T>, n: nat, x: T)
    requires n <= |s| && x in s[..n]
    ensures FirstIndex(s, x) == FirstIndex(s[..n], x)
  {
    var i := FirstIndex(s[..n], x);
    var k := FirstIndex(s, x);
    assert s[..n][..i] == s[..i];
  }


  /** LINQ `Distinct()`: keeps the first occurrence of every element, in
      the order of those first occurrences. */
  function Distinct<T(==,!new)>(s: seq<T>): (r: seq<T>)
    ensures NoDuplicates(r)
    ensures forall x :: x in r <==> x in s
    ensures |r| <= |s|
    ensures forall i, j :: 0 <= i < j < |r| ==> FirstIndex(s, r[i]) < FirstIndex(s, r[j])
  {
    if s == [] then []
    else
      var p := s[..|s| - 1];
      var y := s[|s| - 1];
      var d := Distinct(p);
      assert forall x :: x in s <==> x in p || x == y;
      assert s[..|s| - 1] == p;
      forall x | x in p ensures FirstIndex(s, x) == FirstIndex(p, x) {
        FirstIndexInPrefix(s, |s| - 1, x);
      }
      if y in d then d
      else
        var r := d + [y];
        assert FirstIndex(s, y) == |s| - 1;
        assert forall i :: 0 <= i < |d| ==> r[i] == d[i] && d[i] in p;
        r
  }
}

=== FILE: events.dfy ===
/** `EventsService.ComputeStatus`: an event's status at a given time. */
module Events {

  /** The two times of an event that decide its status (DateTime ticks). */
  datatype Event = Event(startTime: int, endTime: int)

  /** `now` is a parameter instead of a read of the clock. */
  function ComputeStatus(ev: Event, now: int): (status: string)
    ensures status == "Upcoming" || status == "Ongoing" || status == "Ended"
    ensures status == "Upcoming" <==> now < ev.startTime
    ensures status == "Ongoing" <==> ev.startTime <= now < ev.endTime
    ensures status == "Ended" <==> now >= ev.startTime && now >= ev.endTime
  {
    if now < ev.startTime then "Upcoming"
    else if now < ev.endTime then "Ongoing"
    else "Ended"
  }

  /** Upcoming, Ongoing and Ended as 0, 1 and 2. */
  function Rank(status: string): nat
  {
    if status == "Upcoming" then 0 else if status == "Ongoing" then 1 else 2
  }

  /** As time passes the status only moves forward. */
  lemma StatusNeverMovesBack(ev: Event, t1: int, t2: int)
    requires t1 <= t2
    ensures Rank(ComputeStatus(ev, t1)) <= Rank(ComputeStatus(ev, t2))
  {
  }

  /** An event that ends no later than it starts is never Ongoing. */
  lemma EmptySpanNeverOngoing(ev: Event, now: int)
    requires ev.endTime <= ev.startTime
    ensures ComputeStatus(ev, now) != "Ongoing"
  {
  }
}

=== FILE: friends.dfy ===
/** Friend requests, `FriendsController` of the Conquest snapshot.

    The Friendships table holds at most one row per ordered pair
    (UserId, FriendId), its composite primary key, so it is a map from the
    pair to the row's status. A request is a Pending row from the sender to
    the receiver; accepting flips it to Accepted and adds the Accepted
    reverse row; removing a friend deletes the Accepted rows of both
    directions. Every step is one `SaveChangesAsync`, so a step that fails
    on the database (an insert whose key is taken) saves nothing. */
module Friends {
  import opened Common

  type UserId = string

  datatype FriendshipStatus = Pending | Accepted | Blocked

  /** The composite key of a Friendships row. */
  datatype Edge = Edge(userId: UserId, friendId: UserId)

  type Friendships = map<Edge, FriendshipStatus>

  /** The controller's answers. */
  datatype Reply =
    | Ok
    | Unauthorized       // the signed-in principal has no user record
    | UserNotFound
    | CannotAddSelf
    | AlreadyFriends
    | AlreadySent
    | AcceptInstead
    | BlockedByThem
    | NoPendingRequest
    | NotFriends
    | DuplicateKey       // the insert collides with an existing row: the save throws

  /** The HTTP status code each answer is sent with. */
  function HttpStatus(r: Reply): (code: int)
    ensures code == 200 <==> r == Ok
    ensures code == 401 <==> r == Unauthorized
    ensures code == 404 <==> r == UserNotFound
    ensures code == 409 <==> r == AlreadyFriends
    ensures code == 500 <==> r == DuplicateKey
    ensures code == 400 <==> r !in {Ok, Unauthorized, UserNotFound, AlreadyFriends, DuplicateKey}
  {
    match r
    case Ok => 200
    case Unauthorized => 401
    case UserNotFound => 404
    case AlreadyFriends => 409
    case DuplicateKey => 500
    case _ => 400
  }

  predicate Has(rows: Friendships, u: UserId, f: UserId, s: FriendshipStatus)
  {
    Edge(u, f) in rows && rows[Edge(u, f)] == s
  }

  /** `UserManager.FindByNameAsync`: the directory is keyed by the upper-cased user name. */
  function FindByName(directory: map<string, UserId>, name: string): (r: Option<UserId>)
    ensures r.Some? <==> ToUpper(name) in directory
    ensures r.Some? ==> r.value == directory[ToUpper(name)]
  {
    var key := ToUpper(name);
    if key in directory then Some(directory[key]) else None
  }

  /** What the three write operations keep true of the table: nobody has a
      row to themselves, Accepted rows come in both directions, and two
      users never have Pending requests to each other at the same time. */
  ghost predicate Valid(rows: Friendships)
  {
    && (forall e :: e in rows ==> e.userId != e.friendId)
    && (forall e :: e in rows && rows[e] == Accepted ==> Has(rows, e.friendId, e.userId, Accepted))
    && (forall e :: e in rows && rows[e] == Pending ==> !Has(rows, e.friendId, e.userId, Pending))
  }

  /** AddFriend after the two user look-ups: `me` is the signed-in user's
      record, `friend` the one found by user name. The checks run in the
      order of the source: the Accepted check in either direction comes
      before the Pending and Blocked checks. */
  function AddFriendStep(rows: Friendships, me: Option<UserId>, friend: Option<UserId>): (r: (Reply, Friendships))
    ensures r.0 != Ok ==> r.1 == rows
    ensures r.0 == Unauthorized <==> me.None?
    ensures r.0 == UserNotFound <==> me.Some? && friend.None?
    ensures r.0 == CannotAddSelf <==> me.Some? && friend.Some? && friend.value == me.value
    ensures me.Some? && friend.Some? && friend.value != me.value ==>
              var u, f := me.value, friend.value;
              && (r.0 == AlreadyFriends <==> Has(rows, u, f, Accepted) || Has(rows, f, u, Accepted))
              && (r.0 == AlreadySent <==> Has(rows, u, f, Pending) && !Has(rows, f, u, Accepted))
              && (r.0 == AcceptInstead <==>
                    Has(rows, f, u, Pending) && !Has(rows, u, f, Accepted) && !Has(rows, u, f, Pending))
              && (r.0 == BlockedByThem <==>
                    Has(rows, f, u, Blocked) && !Has(rows, u, f, Accepted) && !Has(rows, u, f, Pending))
              && (r.0 == DuplicateKey <==> Has(rows, u, f, Blocked) && Edge(f, u) !in rows)
              && (r.0 == Ok <==> Edge(u, f) !in rows && Edge(f, u) !in rows)
    ensures r.0 == Ok ==> r.1 == rows[Edge(me.value, friend.value) := Pending]
  {
    if me.None? then (Unauthorized, rows)
    else if friend.None? then (UserNotFound, rows)
    else
      var u, f := me.value, friend.value;
      if f == u then (CannotAddSelf, rows)
      else if Has(rows, u, f, Accepted) || Has(rows, f, u, Accepted) then (AlreadyFriends, rows)
      else if Has(rows, u, f, Pending) then (AlreadySent, rows)
      else if Has(rows, f, u, Pending) then (AcceptInstead, rows)
      else if Has(rows, f, u, Blocked) then (BlockedByThem, rows)
      else if Edge(u, f) in rows then (DuplicateKey, rows)
      else (Ok, rows[Edge(u, f) := Pending])
  }

  /** AcceptFriend: the Pending row them -> me becomes Accepted, and an
      Accepted row me -> them is inserted unless one is already there. */
  function AcceptFriendStep(rows: Friendships, me: Option<UserId>, friend: Option<UserId>): (r: (Reply, Friendships))
    ensures r.0 != Ok ==> r.1 == rows
    ensures r.0 == Unauthorized <==> me.None?
    ensures r.0 == UserNotFound <==> me.Some? && friend.None?
    ensures r.0 == NoPendingRequest <==> me.Some? && friend.Some? && !Has(rows, friend.value, me.value, Pending)
    ensures r.0 == DuplicateKey <==> me.Some? && friend.Some? && Has(rows, friend.value, me.value, Pending)
                                      && Edge(me.value, friend.value) in rows
                                      && !Has(rows, me.value, friend.value, Accepted)
    ensures r.0 == Ok <==> me.Some? && friend.Some? && Has(rows, friend.value, me.value, Pending)
                           && (Has(rows, me.value, friend.value, Accepted) || Edge(me.value, friend.value) !in rows)
    ensures r.0 == Ok ==>
              var u, f := me.value, friend.value;
              && Has(rows, f, u, Pending)
              && Has(r.1, f, u, Accepted) && Has(r.1, u, f, Accepted)
              && r.1.Keys == rows.Keys + {Edge(u, f)}
              && (forall e :: e in rows && e != Edge(f, u) && e != Edge(u, f) ==> r.1[e] == rows[e])
  {
    if me.None? then (Unauthorized, rows)
    else if friend.None? then (UserNotFound, rows)
    else
      var u, f := me.value, friend.value;
      if !Has(rows, f, u, Pending) then (NoPendingRequest, rows)
      else
        var flipped := rows[Edge(f, u) := Accepted];
        if Has(rows, u, f, Accepted) then (Ok, flipped)
        else if Edge(u, f) in rows then (DuplicateKey, rows)
        else (Ok, flipped[Edge(u, f) := Accepted])
  }

  /** RemoveFriend: deletes whichever of the two Accepted rows exist. */
  function RemoveFriendStep(rows: Friendships, me: Option<UserId>, friend: Option<UserId>): (r: (Reply, Friendships))
    ensures r.0 != Ok ==> r.1 == rows
    ensures r.0 == Unauthorized <==> me.None?
    ensures r.0 == UserNotFound <==> me.Some? && friend.None?
    ensures r.0 == NotFriends <==> me.Some? && friend.Some?
                                   && !Has(rows, me.value, friend.value, Accepted)
                                   && !Has(rows, friend.value, me.value, Accepted)
    ensures r.0 == Ok ==>
              var u, f := me.value, friend.value;
              && !Has(r.1, u, f, Accepted) && !Has(r.1, f, u, Accepted)
              && r.1.Keys <= rows.Keys
              && (forall e :: e in r.1 ==> r.1[e] == rows[e])
              && (forall e :: e in rows && rows[e] != Accepted ==> e in r.1)
              && (forall e :: e in rows && e != Edge(u, f) && e != Edge(f, u) ==> e in r.1)
  {
    if me.None? then (Unauthorized, rows)
    else if friend.None? then (UserNotFound, rows)
    else
      var u, f := me.value, friend.value;
      var first := Has(rows, u, f, Accepted);
      var second := Has(rows, f, u, Accepted);
      if !first && !second then (NotFriends, rows)
      else
        var rows1 := if first then rows - {Edge(u, f)} else rows;
        var rows2 := if second then rows1 - {Edge(f, u)} else rows1;
        (Ok, rows2)
  }

  /** GetMyFriends: the FriendIds of the caller's Accepted rows (None: Unauthorized). */
  function GetMyFriends(rows: Friendships, me: Option<UserId>): (r: Option<set<UserId>>)
    ensures r.None? <==> me.None?
    ensures r.Some? ==> forall f :: f in r.value <==> Has(rows, me.value, f, Accepted)
  {
    if me.None? then None
    else Some(set e | e in rows && e.userId == me.value && rows[e] == Accepted :: e.friendId)
  }

  /** GetIncomingRequests: the UserIds of the Pending rows aimed at the caller. */
  function GetIncomingRequests(rows: Friendships, me: Option<UserId>): (r: Option<set<UserId>>)
    ensures r.None? <==> me.None?
    ensures r.Some? ==> forall u :: u in r.value <==> Has(rows, u, me.value, Pending)
  {
    if me.None? then None
    else Some(set e | e in rows && e.friendId == me.value && rows[e] == Pending :: e.userId)
  }

  lemma AddFriendPreservesValid(rows: Friendships, me: Option<UserId>, friend: Option<UserId>)
    requires Valid(rows)
    ensures Valid(AddFriendStep(rows, me, friend).1)
  {
  }

  lemma AcceptFriendPreservesValid(rows: Friendships, me: Option<UserId>, friend: Option<UserId>)
    requires Valid(rows)
    ensures Valid(AcceptFriendStep(rows, me, friend).1)
  {
    var (r, rows') := AcceptFriendStep(rows, me, friend);
    if r == Ok {
      var u, f := me.value, friend.value;
      assert Edge(f, u) in rows;
      assert !Has(rows, u, f, Accepted);
      forall e | e in rows' && rows'[e] == Accepted ensures Has(rows', e.friendId, e.userId, Accepted) {
        if e != Edge(f, u) && e != Edge(u, f) {
          assert rows[e] == Accepted;
          assert Has(rows, e.friendId, e.userId, Accepted);
        }
      }
    }
  }

  lemma RemoveFriendPreservesValid(rows: Friendships, me: Option<UserId>, friend: Option<UserId>)
    requires Valid(rows)
    ensures Valid(RemoveFriendStep(rows, me, friend).1)
  {
    var (r, rows') := RemoveFriendStep(rows, me, friend);
    if r == Ok {
      var u, f := me.value, friend.value;
      assert Has(rows, u, f, Accepted) <==> Has(rows, f, u, Accepted);
      forall e | e in rows' && rows'[e] == Accepted ensures Has(rows', e.friendId, e.userId, Accepted) {
        assert rows[e] == Accepted;
        assert Has(rows, e.friendId, e.userId, Accepted);
      }
    }
  }

  /** In a valid table friendship is mutual: each is in the other's friend list. */
  lemma FriendsAreMutual(rows: Friendships, a: UserId, b: UserId)
    requires Valid(rows)
    ensures b in GetMyFriends(rows, Some(a)).value <==> a in GetMyFriends(rows, Some(b)).value
  {
    if Has(rows, a, b, Accepted) {
      assert rows[Edge(a, b)] == Accepted;
    }
    if Has(rows, b, a, Accepted) {
      assert rows[Edge(b, a)] == Accepted;
    }
  }

  /** Alice sends a request to Bob and Bob accepts it: each is then listed
      exactly once (sets) among the other's friends, and the request is no
      longer among Bob's incoming requests. */
  lemma RequestThenAccept(rows: Friendships, alice: UserId, bob: UserId)
    requires alice != bob
    requires Edge(alice, bob) !in rows && Edge(bob, alice) !in rows
    ensures var (r1, rows1) := AddFriendStep(rows, Some(alice), Some(bob));
            var (r2, rows2) := AcceptFriendStep(rows1, Some(bob), Some(alice));
            && r1 == Ok && alice in GetIncomingRequests(rows1, Some(bob)).value
            && r2 == Ok
            && bob in GetMyFriends(rows2, Some(alice)).value
            && alice in GetMyFriends(rows2, Some(bob)).value
            && alice !in GetIncomingRequests(rows2, Some(bob)).value
  {
    var (r1, rows1) := AddFriendStep(rows, Some(alice), Some(bob));
    assert Has(rows1, alice, bob, Pending);
    var (r2, rows2) := AcceptFriendStep(rows1, Some(bob), Some(alice));
    assert Has(rows2, alice, bob, Accepted) && Has(rows2, bob, alice, Accepted);
  }

  /** Removing a friend ends the friendship on both sides. */
  lemma RemoveEndsFriendship(rows: Friendships, me: UserId, friend: UserId)
    ensures var (r, rows') := RemoveFriendStep(rows, Some(me), Some(friend));
            && (r == Ok <==> friend in GetMyFriends(rows, Some(me)).value || me in GetMyFriends(rows, Some(friend)).value)
            && friend !in GetMyFriends(rows', Some(me)).value
            && me !in GetMyFriends(rows', Some(friend)).value
  {
  }

  /** The controller over the Friendships table and the identity store's
      user-name directory (which it only reads). */
  class FriendsController {
    var friendships: Friendships
    const usersByName: map<string, UserId>

    constructor (rows: Friendships, directory: map<string, UserId>)
      ensures friendships == rows && usersByName == directory
    {
      friendships := rows;
      usersByName := directory;
    }

    method AddFriend(me: Option<UserId>, username: string) returns (r: Reply)
      modifies this
      ensures (r, friendships) == AddFriendStep(old(friendships), me, FindByName(usersByName, username))
      ensures Valid(old(friendships)) ==> Valid(friendships)
    {
      if me.None? { return Unauthorized; }
      var friend := FindByName(usersByName, username);
      if friend.None? { return UserNotFound; }
      if friend.value == me.value { return CannotAddSelf; }
      var userId, friendId := me.value, friend.value;
      ghost var before := friendships;
      var alreadyFriends := Has(friendships, userId, friendId, Accepted) || Has(friendships, friendId, userId, Accepted);
      if alreadyFriends { return AlreadyFriends; }
      if Has(friendships, userId, friendId, Pending) { return AlreadySent; }
      if Has(friendships, friendId, userId, Pending) { return AcceptInstead; }
      if Has(friendships, friendId, userId, Blocked) { return BlockedByThem; }
      if Edge(userId, friendId) in friendships { return DuplicateKey; }
      friendships := friendships[Edge(userId, friendId) := Pending];
      r := Ok;
      if Valid(before) { AddFriendPreservesValid(before, me, friend); }
    }

    method AcceptFriend(me: Option<UserId>, username: string) returns (r: Reply)
      modifies this
      ensures (r, friendships) == AcceptFriendStep(old(friendships), me, FindByName(usersByName, username))
      ensures Valid(old(friendships)) ==> Valid(friendships)
    {
      if me.None? { return Unauthorized; }
      var friend := FindByName(usersByName, username);
      if friend.None? { return UserNotFound; }
      var userId, friendId := me.value, friend.value;
      ghost var before := friendships;
      if !Has(friendships, friendId, userId, Pending) { return NoPendingRequest; }
      var pending := friendships[Edge(friendId, userId) := Accepted];
      var reverseExists := Has(friendships, userId, friendId, Accepted);
      if !reverseExists {
        if Edge(userId, friendId) in friendships { return DuplicateKey; }
        pending := pending[Edge(userId, friendId) := Accepted];
      }
      friendships := pending;
      r := Ok;
      if Valid(before) { AcceptFriendPreservesValid(before, me, friend); }
    }

    method RemoveFriend(me: Option<UserId>, username: string) returns (r: Reply)
      modifies this
      ensures (r, friendships) == RemoveFriendStep(old(friendships), me, FindByName(usersByName, username))
      ensures Valid(old(friendships)) ==> Valid(friendships)
    {
      if me.None? { return Unauthorized; }
      var friend := FindByName(usersByName, username);
      if friend.None? { return UserNotFound; }
      var userId, friendId := me.value, friend.value;
      ghost var before := friendships;
      var friendship1 := Has(friendships, userId, friendId, Accepted);
      var friendship2 := Has(friendships, friendId, userId, Accepted);
      if !friendship1 && !friendship2 { return NotFriends; }
      if friendship1 { friendships := friendships - {Edge(userId, friendId)}; }
      if friendship2 { friendships := friendships - {Edge(friendId, userId)}; }
      r := Ok;
      if Valid(before) { RemoveFriendPreservesValid(before, me, friend); }
    }
  }
}

=== FILE: pagination.dfy ===
/** Page slicing (`PaginationExtensions`) and the two page envelopes,
    `PaginatedResult` (Conquest snapshot) and `PagedResult` (Ping snapshot). */
module Pagination {
  import opened Common
  import opened Sorting

  /** `(int)Math.Ceiling(count / (double)pageSize)`. Dividing by zero gives
      an infinity or NaN, which has no integer value: `None`. */
  function CeilDiv(count: int, pageSize: int): (r: Option<int>)
    ensures r.None? <==> pageSize == 0
    ensures pageSize > 0 ==> (r.value - 1) * pageSize < count <= r.value * pageSize
    ensures pageSize < 0 ==> r.value * pageSize <= count < (r.value - 1) * pageSize
  {
    if pageSize > 0 then
      var q := (-count) / pageSize;
      assert -count == q * pageSize + (-count) % pageSize;
      Some(-q)
    else if pageSize < 0 then
      var q := count / (-pageSize);
      assert count == q * (-pageSize) + count % (-pageSize);
      Some(-q)
    else None
  }

  /** The page count is exact: no page too few, no page too many, and none
      at all for no rows. */
  lemma PageCountBounds(count: int, pageSize: int)
    requires pageSize > 0 && count >= 0
    ensures CeilDiv(count, pageSize).value >= 0
    ensures CeilDiv(count, pageSize).value == 0 <==> count == 0
    ensures CeilDiv(count, pageSize).value * pageSize >= count
    ensures count > 0 ==> (CeilDiv(count, pageSize).value - 1) * pageSize < count
  {
  }

  /** `PaginatedResult<T>`: the page count is computed once, when the
      result is built. */
  datatype PaginatedResult<T> = PaginatedResult(items: seq<T>, totalCount: int, pageNumber: int, pageSize: int,
                                                totalPages: Option<int>)

  /** The primary constructor of `PaginatedResult<T>`. */
  function NewPaginatedResult<T>(items: seq<T>, count: int, pageNumber: int, pageSize: int): (r: PaginatedResult<T>)
    ensures r.items == items && r.totalCount == count && r.pageNumber == pageNumber && r.pageSize == pageSize
    ensures r.totalPages.None? <==> pageSize == 0
    ensures pageSize > 0 ==> (r.totalPages.value - 1) * pageSize < count <= r.totalPages.value * pageSize
  {
    PaginatedResult(items, count, pageNumber, pageSize, CeilDiv(count, pageSize))
  }

  /** C#'s unchecked `int` arithmetic: the value wrapped into
      [-2^31, 2^31). */
  function Wrap32(x: int): (r: int)
    ensures -0x8000_0000 <= r < 0x8000_0000
    ensures (x - r) % 0x1_0000_0000 == 0
    ensures -0x8000_0000 <= x < 0x8000_0000 ==> r == x
  {
    (x + 0x8000_0000) % 0x1_0000_0000 - 0x8000_0000
  }

  /** The `Skip` count `(pageNumber - 1) * pageSize`, computed on `int`s as
      C# does: both the subtraction and the product wrap. */
  function PageOffset(pageNumber: int, pageSize: int): int
  {
    Wrap32(Wrap32(pageNumber - 1) * pageSize)
  }

  /** Where the page starts in `n` rows: `Skip` of a negative count skips
      nothing, and of more than `n` skips everything. */
  function PageStart(n: nat, pageNumber: int, pageSize: int): (from: nat)
    ensures from <= n
    ensures PageOffset(pageNumber, pageSize) <= 0 ==> from == 0
    ensures 0 <= PageOffset(pageNumber, pageSize) <= n ==> from == PageOffset(pageNumber, pageSize)
    ensures PageOffset(pageNumber, pageSize) >= n ==> from == n
  {
    var start := PageOffset(pageNumber, pageSize);
    if start <= 0 then 0 else if start < n then start else n
  }

  /** `.Skip((pageNumber - 1) * pageSize).Take(pageSize)`: the slice at the
      page's start, as long as pageSize allows and the rows last. The `Skip`
      is the suffix after PageStart, which clamps the offset as `Skip` does. */
  function PageOf<T>(source: seq<T>, pageNumber: int, pageSize: int): (items: seq<T>)
    ensures var from := PageStart(|source|, pageNumber, pageSize);
            && |items| == (if pageSize <= 0 then 0 else if pageSize < |source| - from then pageSize else |source| - from)
            && items == source[from..from + |items|]
            && forall k :: 0 <= k < |items| ==> items[k] == source[from + k]
  {
    var from := PageStart(|source|, pageNumber, pageSize);
    var rest := source[from..];
    Take(rest, pageSize)
  }

  /** The page is the LINQ pipeline itself: `Take(pageSize)` of `Skip` by
      the wrapped offset. */
  lemma PageIsSkipTake<T>(source: seq<T>, pageNumber: int, pageSize: int)
    ensures PageOf(source, pageNumber, pageSize) == Take(Skip(source, PageOffset(pageNumber, pageSize)), pageSize)
  {
    var from := PageStart(|source|, pageNumber, pageSize);
    assert Skip(source, PageOffset(pageNumber, pageSize)) == source[from..];
  }

  /** `ToPaginatedResultAsync` and `ToPaginatedResult`: the two differ only in
      where the rows come from (a query or a list), so one function models
      both. The page is the rows after the first (pageNumber - 1) * pageSize,
      cut to pageSize. */
  function ToPaginatedResult<T>(source: seq<T>, pageNumber: int, pageSize: int): (r: PaginatedResult<T>)
    ensures r.totalCount == |source|
    ensures r.pageNumber == pageNumber && r.pageSize == pageSize
    ensures var from := PageStart(|source|, pageNumber, pageSize);
            && |r.items| == (if pageSize <= 0 then 0 else if pageSize < |source| - from then pageSize else |source| - from)
            && r.items == source[from..from + |r.items|]
    ensures PageOffset(pageNumber, pageSize) >= |source| ==> r.items == []
    ensures r.totalPages.None? <==> pageSize == 0
    ensures pageSize > 0 ==> (r.totalPages.value - 1) * pageSize < |source| <= r.totalPages.value * pageSize
  {
    NewPaginatedResult(PageOf(source, pageNumber, pageSize), |source|, pageNumber, pageSize)
  }

  /** A page inside the range holds exactly pageSize rows starting at its
      offset; the pages 1..TotalPages cover all rows. (A C# list holds fewer
      than 2^31 rows, so the offset of such a page does not wrap.) */
  lemma FullPage<T>(source: seq<T>, pageNumber: int, pageSize: int)
    requires |source| < 0x8000_0000
    requires pageSize > 0 && pageNumber >= 1
    requires pageNumber * pageSize <= |source|
    ensures var start := (pageNumber - 1) * pageSize;
            && 0 <= start && start + pageSize == pageNumber * pageSize
            && ToPaginatedResult(source, pageNumber, pageSize).items == source[start..start + pageSize]
  {
    var start := (pageNumber - 1) * pageSize;
    OffsetInRange(pageNumber, pageSize, |source|);
    var items := ToPaginatedResult(source, pageNumber, pageSize).items;
    var from := PageStart(|source|, pageNumber, pageSize);
    assert from == start;
    assert |items| == pageSize;
    assert items == source[start..start + pageSize];
  }

  /** An offset below a row count that fits in an `int` does not wrap. */
  lemma OffsetInRange(pageNumber: int, pageSize: int, n: int)
    requires n < 0x8000_0000
    requires pageSize > 0 && pageNumber >= 1
    requires pageNumber * pageSize <= n
    ensures 0 <= (pageNumber - 1) * pageSize && (pageNumber - 1) * pageSize + pageSize == pageNumber * pageSize
    ensures PageOffset(pageNumber, pageSize) == (pageNumber - 1) * pageSize
  {
    assert (pageNumber - 1) * pageSize == pageNumber * pageSize - pageSize;
    assert pageNumber <= pageNumber * pageSize by {
      assert pageNumber * pageSize == pageNumber * (pageSize - 1) + pageNumber;
      assert pageNumber * (pageSize - 1) >= 0;
    }
    assert Wrap32(pageNumber - 1) == pageNumber - 1;
  }

  /** A page number far past the end wraps the offset negative, and the
      first page comes back: page 30000000 of 100 rows per page. */
  lemma HugePageWrapsToFirst<T>(source: seq<T>)
    requires |source| >= 100
    ensures PageOffset(30000000, 100) == -1294967396
    ensures ToPaginatedResult(source, 30000000, 100).items == source[..100]
  {
    assert Wrap32(29999999) == 29999999;
    assert Wrap32(2999999900) == -1294967396;
  }

  /** `PagedResult<T>`; every field can be reassigned, and TotalPages is a
      getter, recomputed from the current fields on each read. */
  datatype PagedResult<T> = PagedResult(items: seq<T>, totalCount: int, page: int, pageSize: int)
  {
    function TotalPages(): (r: Option<int>)
      ensures r.None? <==> pageSize == 0
      ensures pageSize > 0 ==> (r.value - 1) * pageSize < totalCount <= r.value * pageSize
    {
      CeilDiv(totalCount, pageSize)
    }
  }

  /** The parameterless constructor: no items and every number 0. */
  function EmptyPagedResult<T>(): (r: PagedResult<T>)
    ensures r.items == [] && r.totalCount == 0 && r.page == 0 && r.pageSize == 0
  {
    PagedResult([], 0, 0, 0)
  }

  /** Changing TotalCount changes what TotalPages reads. */
  lemma TotalPagesFollowsCount<T>(r: PagedResult<T>, count: int)
    requires r.pageSize > 0 && count >= 0
    ensures r.(totalCount := count).TotalPages().value == 0 <==> count == 0
  {
    PageCountBounds(count, r.pageSize);
  }
}

=== FILE: place_queries.dfy ===
/** The parts of the place queries that `PlaceService` and
    `PlacesController` share: the activity filters of a nearby search, the
    distance cut-off with its nearest-first top 100, and the distinct
    activity-kind names of a place.

    A place's activities are the PlaceActivities rows loaded with it, each
    with the name of its ActivityKind when it has one. Distance is a
    real-valued function of a place handed in by the caller; the haversine
    formula behind it is not part of this model. */
module PlaceQueries {
  import opened Common
  import opened Sorting

  /** A PlaceActivity as loaded by `.Include(..).ThenInclude(pa => pa.ActivityKind)`. */
  datatype ActivityRow = ActivityRow(id: int, name: string, activityKindId: Option<int>, kindName: Option<string>)

  /** `.Take(100)` of a nearby search. */
  const MaxNearby: int := 100

  /** The normalised form of a filter: `query.Trim().ToLowerInvariant()`. */
  function Normalize(query: string): string
  {
    ToLower(Trim(query))
  }

  /** The activity-name filter: a blank or missing query keeps every place;
      otherwise some activity's lower-cased name equals the normalised query. */
  predicate NameFilter(activities: seq<ActivityRow>, activityName: Option<string>)
  {
    IsNullOrWhiteSpace(activityName)
    || exists i :: 0 <= i < |activities| && ToLower(activities[i].name) == Normalize(activityName.value)
  }

  /** The activity-kind filter: a blank or missing query keeps every place;
      otherwise some activity has a kind whose lower-cased name equals the
      normalised query. */
  predicate KindFilter(activities: seq<ActivityRow>, activityKind: Option<string>)
  {
    IsNullOrWhiteSpace(activityKind)
    || exists i :: 0 <= i < |activities| && activities[i].kindName.Some?
                   && ToLower(activities[i].kindName.value) == Normalize(activityKind.value)
  }

  /** Neither the letter case nor the white space around a filter matters:
      an activity named "Tennis" is found by " tennis " and by "TENNIS". */
  lemma FilterIgnoresCaseAndPadding(activities: seq<ActivityRow>, i: int, query: string)
    requires 0 <= i < |activities|
    requires ToLower(activities[i].name) == ToLower(Trim(query))
    requires Trim(query) != []
    ensures NameFilter(activities, Some(query))
  {
    BlankIffTrimEmpty(query);
  }

  /** The names of the kinds of a place's activities, each once, in first-seen order. */
  function KindNames(activities: seq<ActivityRow>): (r: seq<string>)
    ensures NoDuplicates(r)
    ensures forall k :: k in r <==> exists i :: 0 <= i < |activities| && activities[i].kindName == Some(k)
  {
    var named := KindsOf(activities);
    Distinct(named)
  }

  /** `.Where(a => a.ActivityKind != null).Select(a => a.ActivityKind!.Name)`. */
  function KindsOf(activities: seq<ActivityRow>): (r: seq<string>)
    ensures forall k :: k in r <==> exists i :: 0 <= i < |activities| && activities[i].kindName == Some(k)
  {
    if activities == [] then []
    else
      var rest := KindsOf(activities[1..]);
      assert forall k :: (exists i :: 0 <= i < |activities[1..]| && activities[1..][i].kindName == Some(k))
                         <==> (exists i :: 1 <= i < |activities| && activities[i].kindName == Some(k)) by {
        forall k ensures (exists i :: 0 <= i < |activities[1..]| && activities[1..][i].kindName == Some(k))
                         <==> (exists i :: 1 <= i < |activities| && activities[i].kindName == Some(k))
        {
          if i :| 1 <= i < |activities| && activities[i].kindName == Some(k) {
            assert activities[1..][i - 1] == activities[i];
          }
        }
      }
      match activities[0].kindName
      case Some(k) => [k] + rest
      case None => rest
  }

  /** `.Where(x => x.DistanceKm <= radiusKm)`: the candidates within the
      radius, in their own order. */
  function WithinRadius<P(!new)>(candidates: seq<P>, dist: P -> real, radiusKm: real): (r: seq<P>)
    ensures forall p :: p in r <==> p in candidates && dist(p) <= radiusKm
    ensures multiset(r) <= multiset(candidates)
  {
    Filter(candidates, (p: P) => dist(p) <= radiusKm)
  }

  /** `.Where(x => x.DistanceKm <= radiusKm).OrderBy(x => x.DistanceKm).Take(100)`:
      the at most 100 nearest candidates within the radius, nearest first.
      No candidate left out inside the radius is nearer than one kept. */
  function NearestWithin<P(!new)>(candidates: seq<P>, dist: P -> real, radiusKm: real): (r: seq<P>)
    ensures var within := WithinRadius(candidates, dist, radiusKm);
            && |r| == (if MaxNearby < |within| then MaxNearby else |within|)
            && multiset(r) <= multiset(within)
    ensures forall p :: p in r ==> p in candidates && dist(p) <= radiusKm
    ensures forall i, j :: 0 <= i < j < |r| ==> dist(r[i]) <= dist(r[j])
    ensures forall p, q :: p in r && q in candidates && dist(q) <= radiusKm && q !in r ==> dist(p) <= dist(q)
    ensures |r| < MaxNearby ==> forall p :: p in candidates && dist(p) <= radiusKm ==> p in r
  {
    var within := WithinRadius(candidates, dist, radiusKm);
    var r := TopAscendingReal(within, dist, MaxNearby);
    assert forall q :: q in candidates && dist(q) <= radiusKm ==> q in within;
    r
  }
}

=== FILE: place_service.dfy ===
/** `PlaceService`: creating places under a daily cap, reading one place
    with its visibility rule, and the nearby search.

    The Places table is a sequence of rows, each carrying the activities
    loaded with it; `nextId` is the next identity value and `now` stands for
    `DateTime.UtcNow`, in ticks. Coordinates are only stored and echoed. */
module PlaceService {
  import opened Common
  import opened Sorting
  import opened PlaceQueries

  datatype Place = Place(id: int, name: string, address: Option<string>, latitude: real, longitude: real,
                         ownerUserId: string, isPublic: bool, createdUtc: int, activities: seq<ActivityRow>)

  datatype ActivitySummaryDto = ActivitySummaryDto(id: int, name: string, activityKindId: Option<int>,
                                                   activityKindName: Option<string>)

  datatype PlaceDetailsDto = PlaceDetailsDto(id: int, name: string, address: string, latitude: real, longitude: real,
                                             isPublic: bool, isOwner: bool, activities: seq<ActivitySummaryDto>,
                                             activityKinds: seq<string>)

  /** How many places one user may add per day. */
  const DailyPlaceLimit: nat := 10

  /** The caller owns the place: signed in, and the place's OwnerUserId. */
  predicate IsOwner(p: Place, userId: Option<string>)
  {
    userId.Some? && p.ownerUserId == userId.value
  }

  /** The caller may see the place: it is public or theirs. */
  predicate Visible(p: Place, userId: Option<string>)
  {
    p.isPublic || IsOwner(p, userId)
  }

  /** `CountAsync(p => p.OwnerUserId == userId && p.CreatedUtc >= since)`. */
  function CreatedSince(places: seq<Place>, userId: string, since: int): (n: nat)
    ensures n <= |places|
  {
    if places == [] then 0
    else
      var last := places[|places| - 1];
      CreatedSince(places[..|places| - 1], userId, since) + (if last.ownerUserId == userId && last.createdUtc >= since then 1 else 0)
  }

  function ToSummary(a: ActivityRow): ActivitySummaryDto
  {
    ActivitySummaryDto(a.id, a.name, a.activityKindId, a.kindName)
  }

  /** The DTO of a place as the caller sees it. */
  function ToDetails(p: Place, userId: Option<string>): (d: PlaceDetailsDto)
    ensures d.id == p.id && d.isPublic == p.isPublic
    ensures d.name == p.name && d.latitude == p.latitude && d.longitude == p.longitude
    ensures d.isOwner <==> IsOwner(p, userId)
    ensures d.address == if p.address.Some? then p.address.value else []
    ensures |d.activities| == |p.activities|
    ensures forall i :: 0 <= i < |p.activities| ==>
              var a := p.activities[i];
              d.activities[i] == ActivitySummaryDto(a.id, a.name, a.activityKindId, a.kindName)
    ensures NoDuplicates(d.activityKinds)
    ensures forall k :: k in d.activityKinds <==> exists i :: 0 <= i < |p.activities| && p.activities[i].kindName == Some(k)
  {
    PlaceDetailsDto(p.id, p.name, if p.address.Some? then p.address.value else [], p.latitude, p.longitude,
                    p.isPublic, IsOwner(p, userId),
                    seq(|p.activities|, i requires 0 <= i < |p.activities| => ToSummary(p.activities[i])),
                    KindNames(p.activities))
  }

  /** CreatePlaceAsync: `None` is the InvalidOperationException of the
      daily cap; otherwise the new place's DTO and the table with it. */
  function CreatePlaceStep(places: seq<Place>, nextId: int, userId: string, name: string, address: string,
                           latitude: real, longitude: real, isPublic: bool, now: nat)
    : (r: (Option<PlaceDetailsDto>, seq<Place>))
    ensures r.0.None? <==> CreatedSince(places, userId, StartOfDay(now)) >= DailyPlaceLimit
    ensures r.0.None? ==> r.1 == places
    ensures r.0.Some? ==>
              var added := Place(nextId, Trim(name), Some(Trim(address)), latitude, longitude, userId, isPublic, now, []);
              && r.1 == places + [added]
              && r.0.value == PlaceDetailsDto(nextId, Trim(name), Trim(address), latitude, longitude, isPublic, true, [], [])
  {
    if CreatedSince(places, userId, StartOfDay(now)) >= DailyPlaceLimit then (None, places)
    else
      var added := Place(nextId, Trim(name), Some(Trim(address)), latitude, longitude, userId, isPublic, now, []);
      (Some(PlaceDetailsDto(added.id, added.name, added.address.value, added.latitude, added.longitude,
                            added.isPublic, true, [], [])),
       places + [added])
  }

  /** The cap holds: starting from at most ten of the user's places today,
      creating never takes the count past ten; other users' counts do not
      move. */
  lemma {:induction false} DailyCapHolds(places: seq<Place>, nextId: int, userId: string, name: string, address: string,
                                         latitude: real, longitude: real, isPublic: bool, now: nat, other: string)
    requires CreatedSince(places, userId, StartOfDay(now)) <= DailyPlaceLimit
    ensures var places' := CreatePlaceStep(places, nextId, userId, name, address, latitude, longitude, isPublic, now).1;
            && CreatedSince(places', userId, StartOfDay(now)) <= DailyPlaceLimit
            && (other != userId ==> CreatedSince(places', other, StartOfDay(now)) == CreatedSince(places, other, StartOfDay(now)))
  {
    var (res, places') := CreatePlaceStep(places, nextId, userId, name, address, latitude, longitude, isPublic, now);
    if res.Some? {
      assert places'[..|places'| - 1] == places;
    }
  }

  /** The first row with this id (`FirstOrDefaultAsync(x => x.Id == id)`). */
  function FindPlace(places: seq<Place>, id: int): (r: Option<nat>)
    ensures r.Some? ==> r.value < |places| && places[r.value].id == id
    ensures r.Some? ==> forall k :: 0 <= k < r.value ==> places[k].id != id
    ensures r.None? ==> forall k :: 0 <= k < |places| ==> places[k].id != id
  {
    if places == [] then None
    else if places[0].id == id then Some(0)
    else
      var rest := FindPlace(places[1..], id);
      if rest.Some? then Some(rest.value + 1) else None
  }

  /** GetPlaceByIdAsync: `None` for a missing id and for a private place
      the caller does not own. */
  function GetPlaceById(places: seq<Place>, id: int, userId: Option<string>): (r: Option<PlaceDetailsDto>)
    ensures r.None? <==> FindPlace(places, id).None? || !Visible(places[FindPlace(places, id).value], userId)
    ensures r.Some? ==> r.value == ToDetails(places[FindPlace(places, id).value], userId)
  {
    var i := FindPlace(places, id);
    if i.None? then None
    else
      var p := places[i.value];
      if !p.isPublic && !IsOwner(p, userId) then None
      else Some(ToDetails(p, userId))
  }

  /** A private place is seen by its owner alone, and only the owner is told
      they own it. */
  lemma PrivatePlaceOnlyForOwner(places: seq<Place>, id: int, userId: Option<string>)
    requires FindPlace(places, id).Some? && !places[FindPlace(places, id).value].isPublic
    ensures GetPlaceById(places, id, userId).Some? <==> userId == Some(places[FindPlace(places, id).value].ownerUserId)
    ensures GetPlaceById(places, id, userId).Some? ==> GetPlaceById(places, id, userId).value.isOwner
  {
  }

  /** The places a nearby search considers before the distance cut-off:
      inside the bounding box, visible to the caller, and passing both
      activity filters. */
  predicate NearbyCandidate(p: Place, userId: Option<string>, activityName: Option<string>, activityKind: Option<string>,
                            inBox: Place -> bool)
  {
    inBox(p) && Visible(p, userId) && NameFilter(p.activities, activityName) && KindFilter(p.activities, activityKind)
  }

  function NearbyCandidates(places: seq<Place>, userId: Option<string>, activityName: Option<string>,
                            activityKind: Option<string>, inBox: Place -> bool): (r: seq<Place>)
    ensures forall p :: p in r <==> p in places && NearbyCandidate(p, userId, activityName, activityKind, inBox)
    ensures multiset(r) <= multiset(places)
  {
    if places == [] then []
    else
      var rest := NearbyCandidates(places[1..], userId, activityName, activityKind, inBox);
      assert places == [places[0]] + places[1..];
      if NearbyCandidate(places[0], userId, activityName, activityKind, inBox) then [places[0]] + rest else rest
  }

  /** The rows SearchNearbyAsync returns, before projection: candidates
      within `radiusKm`, nearest first, at most 100, and none left out that
      is nearer than one kept. `inBox` is the bounding-box test and `dist`
      the distance in kilometres. */
  function SearchNearbyPlaces(places: seq<Place>, radiusKm: real, activityName: Option<string>, activityKind: Option<string>,
                              userId: Option<string>, inBox: Place -> bool, dist: Place -> real): (r: seq<Place>)
    ensures var within := WithinRadius(NearbyCandidates(places, userId, activityName, activityKind, inBox), dist, radiusKm);
            && |r| == (if MaxNearby < |within| then MaxNearby else |within|)
            && multiset(r) <= multiset(within)
    ensures forall p :: p in r ==> p in places && NearbyCandidate(p, userId, activityName, activityKind, inBox)
                                   && dist(p) <= radiusKm
    ensures forall i, j :: 0 <= i < j < |r| ==> dist(r[i]) <= dist(r[j])
    ensures forall p, q :: (p in r && q in places && NearbyCandidate(q, userId, activityName, activityKind, inBox)
                            && dist(q) <= radiusKm && q !in r) ==> dist(p) <= dist(q)
    ensures |r| < MaxNearby ==>
              forall p :: p in places && NearbyCandidate(p, userId, activityName, activityKind, inBox) && dist(p) <= radiusKm
                ==> p in r
  {
    NearestWithin(NearbyCandidates(places, userId, activityName, activityKind, inBox), dist, radiusKm)
  }

  /** A nearby search never shows a private place to anyone but its owner. */
  lemma NearbyHidesOthersPrivatePlaces(places: seq<Place>, radiusKm: real, activityName: Option<string>,
                                       activityKind: Option<string>, userId: Option<string>,
                                       inBox: Place -> bool, dist: Place -> real)
    ensures forall p :: (p in SearchNearbyPlaces(places, radiusKm, activityName, activityKind, userId, inBox, dist)
                         && !p.isPublic) ==> userId == Some(p.ownerUserId)
  {
  }

  /** SearchNearbyAsync: the rows above, projected for the caller. */
  function SearchNearby(places: seq<Place>, radiusKm: real, activityName: Option<string>, activityKind: Option<string>,
                        userId: Option<string>, inBox: Place -> bool, dist: Place -> real): (r: seq<PlaceDetailsDto>)
    ensures var rows := SearchNearbyPlaces(places, radiusKm, activityName, activityKind, userId, inBox, dist);
            |r| == |rows| && forall i :: 0 <= i < |rows| ==> r[i] == ToDetails(rows[i], userId)
  {
    ToDetailsAll(SearchNearbyPlaces(places, radiusKm, activityName, activityKind, userId, inBox, dist), userId)
  }

  /** `.Select(p => new PlaceDetailsDto(..))` over a result list. */
  function ToDetailsAll(rows: seq<Place>, userId: Option<string>): (r: seq<PlaceDetailsDto>)
    ensures |r| == |rows| && forall i :: 0 <= i < |rows| ==> r[i] == ToDetails(rows[i], userId)
  {
    seq(|rows|, i requires 0 <= i < |rows| => ToDetails(rows[i], userId))
  }

  /** The service over the Places table. */
  class PlaceService {
    var places: seq<Place>
    var nextId: int

    constructor (places: seq<Place>, nextId: int)
      ensures this.places == places && this.nextId == nextId
    {
      this.places := places;
      this.nextId := nextId;
    }

    /** CreatePlaceAsync. */
    method CreatePlaceAsync(userId: string, name: string, address: string, latitude: real, longitude: real,
                            isPublic: bool, now: nat) returns (result: Option<PlaceDetailsDto>)
      modifies this
      ensures (result, places) == CreatePlaceStep(old(places), old(nextId), userId, name, address, latitude, longitude, isPublic, now)
      ensures nextId == if result.Some? then old(nextId) + 1 else old(nextId)
    {
      var today := StartOfDay(now);
      var createdToday := CreatedSince(places, userId, today);
      if createdToday >= DailyPlaceLimit {
        return None;
      }
      var place := Place(nextId, Trim(name), Some(Trim(address)), latitude, longitude, userId, isPublic, now, []);
      places := places + [place];
      nextId := nextId + 1;
      result := Some(PlaceDetailsDto(place.id, place.name, place.address.value, place.latitude, place.longitude,
                                     place.isPublic, true, [], []));
    }
  }
}

=== FILE: places_controller.dfy ===
/** `PlacesController`: the controller form of place creation, lookup and
    nearby search. It has no daily cap, no owner and no visibility rule;
    its DTO lists the activity names and the kind names of a place, each
    once.

    The Places table is a sequence of rows with their loaded activities;
    `nextId` is the next identity value. */
module PlacesController {
  import opened Common
  import opened Sorting
  import opened PlaceQueries

  datatype Place = Place(id: int, name: string, address: Option<string>, latitude: real, longitude: real,
                         activities: seq<ActivityRow>)

  datatype PlaceDetailsDto = PlaceDetailsDto(id: int, name: string, address: Option<string>, latitude: real,
                                             longitude: real, activities: seq<string>, activityKinds: seq<string>)

  /** `.Select(a => a.Name)`. */
  function NamesOf(activities: seq<ActivityRow>): (r: seq<string>)
    ensures |r| == |activities|
    ensures forall i :: 0 <= i < |activities| ==> r[i] == activities[i].name
  {
    seq(|activities|, i requires 0 <= i < |activities| => activities[i].name)
  }

  /** The DTO of a place: every activity name and every kind name, each once. */
  function ToDetails(p: Place): (d: PlaceDetailsDto)
    ensures d.id == p.id && d.name == p.name && d.address == p.address
    ensures d.latitude == p.latitude && d.longitude == p.longitude
    ensures NoDuplicates(d.activities)
    ensures forall n :: n in d.activities <==> exists i :: 0 <= i < |p.activities| && p.activities[i].name == n
    ensures NoDuplicates(d.activityKinds)
    ensures forall k :: k in d.activityKinds <==> exists i :: 0 <= i < |p.activities| && p.activities[i].kindName == Some(k)
  {
    var names := NamesOf(p.activities);
    assert forall n :: n in names <==> exists i :: 0 <= i < |p.activities| && p.activities[i].name == n by {
      forall n ensures n in names <==> exists i :: 0 <= i < |p.activities| && p.activities[i].name == n {
        if i :| 0 <= i < |p.activities| && p.activities[i].name == n {
          assert names[i] == n;
        }
      }
    }
    PlaceDetailsDto(p.id, p.name, p.address, p.latitude, p.longitude, Distinct(names), KindNames(p.activities))
  }

  /** Create: the table with the new place, and its DTO. */
  function CreateStep(places: seq<Place>, nextId: int, name: string, address: string, latitude: real, longitude: real)
    : (r: (PlaceDetailsDto, seq<Place>))
    ensures r.1 == places + [Place(nextId, Trim(name), Some(Trim(address)), latitude, longitude, [])]
    ensures r.0 == PlaceDetailsDto(nextId, Trim(name), Some(Trim(address)), latitude, longitude, [], [])
  {
    var place := Place(nextId, Trim(name), Some(Trim(address)), latitude, longitude, []);
    (PlaceDetailsDto(place.id, place.name, place.address, place.latitude, place.longitude, [], []), places + [place])
  }

  /** The stored name and address carry no white space at either end. */
  lemma CreatedFieldsAreTrimmed(places: seq<Place>, nextId: int, name: string, address: string, latitude: real, longitude: real)
    ensures var d := CreateStep(places, nextId, name, address, latitude, longitude).0;
            Trim(d.name) == d.name && Trim(d.address.value) == d.address.value
  {
    TrimIdempotent(name);
    TrimIdempotent(address);
  }

  /** The first row with this id. */
  function FindPlace(places: seq<Place>, id: int): (r: Option<nat>)
    ensures r.Some? ==> r.value < |places| && places[r.value].id == id
    ensures r.None? ==> forall k :: 0 <= k < |places| ==> places[k].id != id
  {
    if places == [] then None
    else if places[0].id == id then Some(0)
    else
      var rest := FindPlace(places[1..], id);
      if rest.Some? then Some(rest.value + 1) else None
  }

  /** GetById: `None` is NotFound. */
  function GetById(places: seq<Place>, id: int): (r: Option<PlaceDetailsDto>)
    ensures r.None? <==> forall k :: 0 <= k < |places| ==> places[k].id != id
    ensures r.Some? ==> exists k :: 0 <= k < |places| && places[k].id == id && r.value == ToDetails(places[k])
  {
    var i := FindPlace(places, id);
    if i.None? then None else Some(ToDetails(places[i.value]))
  }

  /** The places Nearby considers before the distance cut-off: inside the
      bounding box and passing both activity filters; visibility plays no part. */
  predicate NearbyCandidate(p: Place, activityName: Option<string>, activityKind: Option<string>, inBox: Place -> bool)
  {
    inBox(p) && NameFilter(p.activities, activityName) && KindFilter(p.activities, activityKind)
  }

  function NearbyCandidates(places: seq<Place>, activityName: Option<string>, activityKind: Option<string>,
                            inBox: Place -> bool): (r: seq<Place>)
    ensures forall p :: p in r <==> p in places && NearbyCandidate(p, activityName, activityKind, inBox)
    ensures multiset(r) <= multiset(places)
  {
    if places == [] then []
    else
      var rest := NearbyCandidates(places[1..], activityName, activityKind, inBox);
      assert places == [places[0]] + places[1..];
      if NearbyCandidate(places[0], activityName, activityKind, inBox) then [places[0]] + rest else rest
  }

  /** The rows Nearby returns, before projection: candidates within
      `radiusKm`, nearest first, at most 100, none left out nearer than one kept. */
  function NearbyPlaces(places: seq<Place>, radiusKm: real, activityName: Option<string>, activityKind: Option<string>,
                        inBox: Place -> bool, dist: Place -> real): (r: seq<Place>)
    ensures var within := WithinRadius(NearbyCandidates(places, activityName, activityKind, inBox), dist, radiusKm);
            && |r| == (if MaxNearby < |within| then MaxNearby else |within|)
            && multiset(r) <= multiset(within)
    ensures forall p :: p in r ==> p in places && NearbyCandidate(p, activityName, activityKind, inBox) && dist(p) <= radiusKm
    ensures forall i, j :: 0 <= i < j < |r| ==> dist(r[i]) <= dist(r[j])
    ensures forall p, q :: (p in r && q in places && NearbyCandidate(q, activityName, activityKind, inBox)
                            && dist(q) <= radiusKm && q !in r) ==> dist(p) <= dist(q)
    ensures |r| < MaxNearby ==>
              forall p :: p in places && NearbyCandidate(p, activityName, activityKind, inBox) && dist(p) <= radiusKm ==> p in r
  {
    NearestWithin(NearbyCandidates(places, activityName, activityKind, inBox), dist, radiusKm)
  }

  /** With blank filters and at most 100 places in range, Nearby returns
      every place in the box and in range. */
  lemma BlankFiltersKeepEverything(places: seq<Place>, radiusKm: real, inBox: Place -> bool, dist: Place -> real, p: Place)
    requires p in places && inBox(p) && dist(p) <= radiusKm
    requires |NearbyPlaces(places, radiusKm, None, None, inBox, dist)| < MaxNearby
    ensures p in NearbyPlaces(places, radiusKm, None, None, inBox, dist)
  {
    assert NearbyCandidate(p, None, None, inBox);
  }

  /** Nearby: the rows above, projected. */
  function Nearby(places: seq<Place>, radiusKm: real, activityName: Option<string>, activityKind: Option<string>,
                  inBox: Place -> bool, dist: Place -> real): (r: seq<PlaceDetailsDto>)
    ensures var rows := NearbyPlaces(places, radiusKm, activityName, activityKind, inBox, dist);
            |r| == |rows| && forall i :: 0 <= i < |rows| ==> r[i] == ToDetails(rows[i])
  {
    ToDetailsAll(NearbyPlaces(places, radiusKm, activityName, activityKind, inBox, dist))
  }

  /** `.Select(p => new PlaceDetailsDto(..))` over a result list. */
  function ToDetailsAll(rows: seq<Place>): (r: seq<PlaceDetailsDto>)
    ensures |r| == |rows| && forall i :: 0 <= i < |rows| ==> r[i] == ToDetails(rows[i])
  {
    seq(|rows|, i requires 0 <= i < |rows| => ToDetails(rows[i]))
  }

  /** The controller over the Places table. */
  class PlacesController {
    var places: seq<Place>
    var nextId: int

    constructor (places: seq<Place>, nextId: int)
      ensures this.places == places && this.nextId == nextId
    {
      this.places := places;
      this.nextId := nextId;
    }

    /** Create. */
    method Create(name: string, address: string, latitude: real, longitude: real) returns (result: PlaceDetailsDto)
      modifies this
      ensures (result, places) == CreateStep(old(places), old(nextId), name, address, latitude, longitude)
      ensures nextId == old(nextId) + 1
    {
      var place := Place(nextId, Trim(name), Some(Trim(address)), latitude, longitude, []);
      places := places + [place];
      nextId := nextId + 1;
      result := PlaceDetailsDto(place.id, place.name, place.address, place.latitude, place.longitude, [], []);
    }
  }
}

=== FILE: profile_service.dfy ===
/** `ProfileService`: a user's own profile, and the username search that
    matches on Identity's normalised (upper-cased) user name and leaves the
    searching user out.

    The Identity user store is a sequence of users; `FindByIdAsync` is the
    first user with that id. */
module ProfileService {
  import opened Common
  import opened Sorting

  /** An AppUser with the fields the profiles read. `normalizedUserName` is
      the column Identity keeps beside `userName`. */
  datatype AppUser = AppUser(id: string, userName: string, normalizedUserName: string, firstName: string,
                             lastName: string, profileImageUrl: Option<string>, email: string)

  datatype ProfileDto = ProfileDto(id: string, displayName: string, firstName: string, lastName: string,
                                   profilePictureUrl: Option<string>)

  datatype PersonalProfileDto = PersonalProfileDto(id: string, displayName: string, firstName: string, lastName: string,
                                                   profilePictureUrl: Option<string>, email: string)

  /** How many users one search returns at most. */
  const MaxResults: int := 15

  function ToProfile(u: AppUser): ProfileDto
  {
    ProfileDto(u.id, u.userName, u.firstName, u.lastName, u.profileImageUrl)
  }

  function ToPersonal(u: AppUser): PersonalProfileDto
  {
    PersonalProfileDto(u.id, u.userName, u.firstName, u.lastName, u.profileImageUrl, u.email)
  }

  /** `FindByIdAsync(userId)`: the first user with that id. */
  function FindUser(users: seq<AppUser>, userId: string): (r: Option<nat>)
    ensures r.Some? ==> r.value < |users| && users[r.value].id == userId
    ensures r.None? ==> forall k :: 0 <= k < |users| ==> users[k].id != userId
  {
    if users == [] then None
    else if users[0].id == userId then Some(0)
    else
      var rest := FindUser(users[1..], userId);
      if rest.Some? then Some(rest.value + 1) else None
  }

  /** GetMyProfileAsync: `None` is the KeyNotFoundException of an unknown id. */
  function GetMyProfileAsync(users: seq<AppUser>, userId: string): (r: Option<PersonalProfileDto>)
    ensures r.None? <==> forall k :: 0 <= k < |users| ==> users[k].id != userId
    ensures r.Some? ==> exists k :: 0 <= k < |users| && users[k].id == userId && r.value == ToPersonal(users[k])
    ensures r.Some? ==> r.value.id == userId
  {
    var i := FindUser(users, userId);
    if i.None? then None else Some(ToPersonal(users[i.value]))
  }

  /** The service's filter: the normalised name starts with the upper-cased
      query and is not the searching user's upper-cased name. */
  predicate ServiceMatch(u: AppUser, query: string, currentUsername: string)
  {
    StartsWith(u.normalizedUserName, ToUpper(query)) && u.normalizedUserName != ToUpper(currentUsername)
  }

  /** The service's `Where`: the matching users, in table order. */
  function ServiceMatches(users: seq<AppUser>, query: string, currentUsername: string): (r: seq<AppUser>)
    ensures forall u :: u in r <==> u in users && ServiceMatch(u, query, currentUsername)
    ensures multiset(r) <= multiset(users)
  {
    Filter(users, (u: AppUser) => ServiceMatch(u, query, currentUsername))
  }

  /** The users the search returns, before projection: matching users in
      user-name order, at most 15; no matching user left out comes before one
      kept, and with fewer than 15 none is left out. */
  function SearchRows(users: seq<AppUser>, query: string, currentUsername: string): (r: seq<AppUser>)
    ensures var matching := ServiceMatches(users, query, currentUsername);
            && |r| == (if MaxResults < |matching| then MaxResults else |matching|)
            && multiset(r) <= multiset(matching)
    ensures forall u :: u in r ==> u in users && ServiceMatch(u, query, currentUsername)
    ensures forall i, j :: 0 <= i < j < |r| ==> LexLeq(r[i].userName, r[j].userName)
    ensures forall u, v :: (u in r && v in users && ServiceMatch(v, query, currentUsername) && v !in r)
              ==> LexLeq(u.userName, v.userName)
    ensures |r| < MaxResults ==> forall v :: v in users && ServiceMatch(v, query, currentUsername) ==> v in r
  {
    ByUserNameTop(ServiceMatches(users, query, currentUsername))
  }

  /** `OrderBy(u => u.UserName).Take(15)`. */
  function ByUserNameTop(rows: seq<AppUser>): (r: seq<AppUser>)
    ensures |r| == (if MaxResults < |rows| then MaxResults else |rows|)
    ensures multiset(r) <= multiset(rows)
    ensures forall u :: u in r ==> u in rows
    ensures forall i, j :: 0 <= i < j < |r| ==> LexLeq(r[i].userName, r[j].userName)
    ensures forall u, v :: u in r && v in rows && v !in r ==> LexLeq(u.userName, v.userName)
    ensures |r| < MaxResults ==> forall v :: v in rows ==> v in r
  {
    var key := (u: AppUser) => u.userName;
    assert forall u :: key(u) == u.userName;
    TopAscendingString(rows, key, MaxResults)
  }

  /** `.Select(u => new ProfileDto(..))`. */
  function ToProfiles(rows: seq<AppUser>): (r: seq<ProfileDto>)
    ensures |r| == |rows|
    ensures forall i :: 0 <= i < |rows| ==> r[i] == ToProfile(rows[i])
  {
    if rows == [] then [] else [ToProfile(rows[0])] + ToProfiles(rows[1..])
  }

  /** How SearchProfilesAsync ends: the ArgumentException of a blank query,
      or the profiles found. */
  datatype SearchOutcome = BlankQuery | Found(profiles: seq<ProfileDto>)

  /** SearchProfilesAsync. */
  function SearchProfilesAsync(users: seq<AppUser>, query: string, currentUsername: string): (r: SearchOutcome)
    ensures r.BlankQuery? <==> IsBlank(query)
    ensures r.Found? ==> r.profiles == ToProfiles(SearchRows(users, query, currentUsername))
  {
    if IsBlank(query) then BlankQuery else Found(ToProfiles(SearchRows(users, query, currentUsername)))
  }

  /** Identity's invariant: the normalised name is the upper-cased name. */
  predicate Normalized(u: AppUser)
  {
    u.normalizedUserName == ToUpper(u.userName)
  }

  /** The searching user is never among the results, whatever the query. */
  lemma SearchExcludesCaller(users: seq<AppUser>, query: string, me: AppUser)
    requires Normalized(me)
    ensures me !in SearchRows(users, query, me.userName)
  {
  }

  /** With normalised names the search ignores letter case: a user whose
      name starts with the query in any case is found unless it is the
      caller, when there are fewer than 15 matches. */
  lemma SearchIgnoresCase(users: seq<AppUser>, query: string, currentUsername: string, u: AppUser)
    requires u in users && Normalized(u)
    requires StartsWith(ToUpper(u.userName), ToUpper(query)) && ToUpper(u.userName) != ToUpper(currentUsername)
    requires |SearchRows(users, query, currentUsername)| < MaxResults
    ensures u in SearchRows(users, query, currentUsername)
  {
    assert ServiceMatch(u, query, currentUsername);
  }
}

=== FILE: profiles_controller.dfy ===
/** `ProfilesController`: the controller form of the profile endpoints. Its
    search lower-cases both sides, compares against `UserName` itself and
    does not leave the caller out. The user store and the profile types are
    those of `ProfileService`. */
module ProfilesController {
  import opened Common
  import opened Sorting
  import opened ProfileService

  /** The answers of Me. */
  datatype MeResult = Unauthorized | Profile(profile: PersonalProfileDto)

  /** Me: Unauthorized without an id claim or for an unknown id; otherwise
      the same profile the service returns. */
  function Me(users: seq<AppUser>, userId: Option<string>): (r: MeResult)
    ensures r.Unauthorized? <==> userId.None? || forall k :: 0 <= k < |users| ==> users[k].id != userId.value
    ensures r.Profile? ==> Some(r.profile) == GetMyProfileAsync(users, userId.value)
  {
    if userId.None? then Unauthorized
    else
      var i := FindUser(users, userId.value);
      if i.None? then Unauthorized else Profile(ToPersonal(users[i.value]))
  }

  /** The controller's filter: the lower-cased name starts with the
      lower-cased query. */
  predicate ControllerMatch(u: AppUser, username: string)
  {
    StartsWith(ToLower(u.userName), ToLower(username))
  }

  /** The controller's `Where`: the matching users, in table order. */
  function ControllerMatches(users: seq<AppUser>, username: string): (r: seq<AppUser>)
    ensures forall u :: u in r <==> u in users && ControllerMatch(u, username)
    ensures multiset(r) <= multiset(users)
  {
    Filter(users, (u: AppUser) => ControllerMatch(u, username))
  }

  /** The users Search returns, before projection. */
  function SearchMatches(users: seq<AppUser>, username: string): (r: seq<AppUser>)
    ensures var matching := ControllerMatches(users, username);
            && |r| == (if MaxResults < |matching| then MaxResults else |matching|)
            && multiset(r) <= multiset(matching)
    ensures forall u :: u in r ==> u in users && ControllerMatch(u, username)
    ensures forall i, j :: 0 <= i < j < |r| ==> LexLeq(r[i].userName, r[j].userName)
    ensures forall u, v :: (u in r && v in users && ControllerMatch(v, username) && v !in r)
              ==> LexLeq(u.userName, v.userName)
    ensures |r| < MaxResults ==> forall v :: v in users && ControllerMatch(v, username) ==> v in r
  {
    ByUserNameTop(ControllerMatches(users, username))
  }

  /** The answers of Search. */
  datatype SearchResponse = BadRequest | Results(profiles: seq<ProfileDto>)

  /** Search: BadRequest for a missing or blank username. */
  function Search(users: seq<AppUser>, username: Option<string>): (r: SearchResponse)
    ensures r.BadRequest? <==> IsNullOrWhiteSpace(username)
    ensures r.Results? ==> r.profiles == ToProfiles(SearchMatches(users, username.value))
  {
    if IsNullOrWhiteSpace(username) then BadRequest else Results(ToProfiles(SearchMatches(users, username.value)))
  }

  /** Two characters agree upper-cased exactly when they agree lower-cased. */
  lemma CaseFoldsAgree(a: char, b: char)
    ensures UpperChar(a) == UpperChar(b) <==> LowerChar(a) == LowerChar(b)
  {
  }

  /** A prefix test on upper-cased strings agrees with one on lower-cased strings. */
  lemma PrefixFoldsAgree(s: string, q: string)
    ensures StartsWith(ToUpper(s), ToUpper(q)) <==> StartsWith(ToLower(s), ToLower(q))
  {
    if |q| <= |s| {
      forall i | 0 <= i < |q| ensures UpperChar(s[i]) == UpperChar(q[i]) <==> LowerChar(s[i]) == LowerChar(q[i]) {
        CaseFoldsAgree(s[i], q[i]);
      }
      assert ToUpper(s)[..|q|] == ToUpper(q) <==> forall i :: 0 <= i < |q| ==> UpperChar(s[i]) == UpperChar(q[i]) by {
        if forall i :: 0 <= i < |q| ==> UpperChar(s[i]) == UpperChar(q[i]) {
          assert ToUpper(s)[..|q|] == ToUpper(q);
        }
        if ToUpper(s)[..|q|] == ToUpper(q) {
          forall i | 0 <= i < |q| ensures UpperChar(s[i]) == UpperChar(q[i]) {
            assert ToUpper(s)[..|q|][i] == ToUpper(q)[i];
          }
        }
      }
      assert ToLower(s)[..|q|] == ToLower(q) <==> forall i :: 0 <= i < |q| ==> LowerChar(s[i]) == LowerChar(q[i]) by {
        if forall i :: 0 <= i < |q| ==> LowerChar(s[i]) == LowerChar(q[i]) {
          assert ToLower(s)[..|q|] == ToLower(q);
        }
        if ToLower(s)[..|q|] == ToLower(q) {
          forall i | 0 <= i < |q| ensures LowerChar(s[i]) == LowerChar(q[i]) {
            assert ToLower(s)[..|q|][i] == ToLower(q)[i];
          }
        }
      }
    }
  }

  /** For a user whose normalised name is the upper-cased name, the service
      matches exactly the users the controller matches, less the caller. */
  lemma ServiceIsControllerLessCaller(u: AppUser, query: string, currentUsername: string)
    requires Normalized(u)
    ensures ServiceMatch(u, query, currentUsername)
            <==> ControllerMatch(u, query) && ToUpper(u.userName) != ToUpper(currentUsername)
  {
    PrefixFoldsAgree(u.userName, query);
  }

  /** Unlike the service, the controller finds the caller: searching one's
      own name returns oneself when there are fewer than 15 matches. */
  lemma SearchFindsCaller(users: seq<AppUser>, me: AppUser)
    requires me in users
    requires |SearchMatches(users, me.userName)| < MaxResults
    ensures me in SearchMatches(users, me.userName)
  {
    assert ToLower(me.userName)[..|ToLower(me.userName)|] == ToLower(me.userName);
  }
}

=== FILE: review_service.dfy ===
/** `ReviewService`: the service form of review creation and listing.
    Creation has no per-user check here; listing takes a scope, "mine",
    "friends" or anything else, matched without regard to case. The
    caller's friend ids come from the friend service, which is not part of
    this model: they are a parameter. */
module ReviewService {
  import opened Common
  import opened Sorting
  import opened Reviews

  const MineScope: string := "mine"
  const FriendsScope: string := "friends"

  /** How CreateReviewAsync ends: the KeyNotFoundException, or the new review. */
  datatype CreateOutcome = ActivityMissing | Added(review: ReviewDto)

  /** CreateReviewAsync on the Reviews table. */
  function CreateReviewAsyncStep(reviews: seq<Review>, activities: set<int>, nextId: int, placeActivityId: int,
                            userId: string, userName: string, rating: int, content: string, now: int)
    : (r: (CreateOutcome, seq<Review>))
    ensures r.0.ActivityMissing? <==> placeActivityId !in activities
    ensures r.0.ActivityMissing? ==> r.1 == reviews
    ensures r.0.Added? ==>
              var added := Review(nextId, placeActivityId, userId, userName, rating, content, now);
              r.1 == reviews + [added] && r.0.review == ToDto(added)
  {
    if placeActivityId !in activities then (ActivityMissing, reviews)
    else
      var added := Review(nextId, placeActivityId, userId, userName, rating, content, now);
      (Added(ToDto(added)), reviews + [added])
  }

  /** Unlike the controller, the service lets a user review an activity
      twice: from a table with one review of the user, creating again
      leaves two. */
  lemma ServiceAllowsSecondReview(reviews: seq<Review>, activities: set<int>, nextId: int, placeActivityId: int,
                                  userId: string, userName: string, rating: int, content: string, now: int)
    requires placeActivityId in activities
    requires Reviewed(reviews, placeActivityId, userId)
    ensures var reviews' := CreateReviewAsyncStep(reviews, activities, nextId, placeActivityId, userId, userName, rating, content, now).1;
            !OnePerUserActivity(reviews')
  {
    var reviews' := CreateReviewAsyncStep(reviews, activities, nextId, placeActivityId, userId, userName, rating, content, now).1;
    var i :| 0 <= i < |reviews| && reviews[i].placeActivityId == placeActivityId && reviews[i].userId == userId;
    assert reviews'[i] == reviews[i];
    assert reviews'[|reviews|].placeActivityId == placeActivityId && reviews'[|reviews|].userId == userId;
  }

  /** The three arms of the scope switch; "global" and every unknown word
      fall to the default arm. */
  datatype Scope = Mine | Friends | Global

  /** `switch (scope.ToLowerInvariant())`. */
  function ParseScope(scope: string): (s: Scope)
    ensures s == Mine <==> ToLower(scope) == MineScope
    ensures s == Friends <==> ToLower(scope) == FriendsScope
  {
    var lowered := ToLower(scope);
    if lowered == MineScope then Mine else if lowered == FriendsScope then Friends else Global
  }

  /** The scope switch's filter for one row. */
  predicate InScope(r: Review, scope: string, userId: string, friendIds: seq<string>)
  {
    match ParseScope(scope)
    case Mine => r.userId == userId
    case Friends => r.userId in friendIds
    case Global => true
  }

  /** Each row is at least as new as every later one. */
  predicate NewestFirstOrder(rows: seq<Review>)
  {
    forall i, j :: 0 <= i < j < |rows| ==> rows[i].createdAt >= rows[j].createdAt
  }

  /** The rows of `rows` the scope keeps, in their order. */
  function ScopeRows(rows: seq<Review>, scope: string, userId: string, friendIds: seq<string>): (r: seq<Review>)
    ensures forall x :: x in r <==> x in rows && InScope(x, scope, userId, friendIds)
    ensures NewestFirstOrder(rows) ==> NewestFirstOrder(r)
  {
    if rows == [] then []
    else
      var rest := ScopeRows(rows[1..], scope, userId, friendIds);
      assert rows == [rows[0]] + rows[1..];
      if InScope(rows[0], scope, userId, friendIds) then
        assert NewestFirstOrder(rows) ==> NewestFirstOrder([rows[0]] + rest) by {
          if NewestFirstOrder(rows) {
            forall k | 0 <= k < |rest| ensures rows[0].createdAt >= rest[k].createdAt {
              assert rest[k] in rows[1..];
              var m :| 0 <= m < |rows[1..]| && rows[1..][m] == rest[k];
              assert rows[1 + m] == rest[k];
            }
          }
        }
        [rows[0]] + rest
      else rest
  }

  /** The scope keeps every copy of a row in scope and no copy of one out of it. */
  lemma {:induction false} ScopeRowsCounts(rows: seq<Review>, scope: string, userId: string, friendIds: seq<string>)
    ensures forall x :: multiset(ScopeRows(rows, scope, userId, friendIds))[x]
                        == if InScope(x, scope, userId, friendIds) then multiset(rows)[x] else 0
  {
    if rows != [] {
      ScopeRowsCounts(rows[1..], scope, userId, friendIds);
      assert rows == [rows[0]] + rows[1..];
    }
  }

  /** The activity's reviews the scope lets through, in table order. */
  function ListedRows(reviews: seq<Review>, placeActivityId: int, scope: string, userId: string,
                      friendIds: seq<string>): (rows: seq<Review>)
    ensures forall x :: multiset(rows)[x] ==
              if x.placeActivityId == placeActivityId && InScope(x, scope, userId, friendIds) then multiset(reviews)[x] else 0
  {
    var p := (x: Review) => x.placeActivityId == placeActivityId && InScope(x, scope, userId, friendIds);
    FilterCounts(reviews, p);
    Filter(reviews, p)
  }

  /** The scoped listing holds each listed review as often as the table does. */
  lemma ScopedRowsAreListed(reviews: seq<Review>, placeActivityId: int, scope: string, userId: string, friendIds: seq<string>)
    ensures multiset(ScopeRows(NewestFirst(reviews, placeActivityId), scope, userId, friendIds))
            == multiset(ListedRows(reviews, placeActivityId, scope, userId, friendIds))
  {
    var ordered := NewestFirst(reviews, placeActivityId);
    var scoped := ScopeRows(ordered, scope, userId, friendIds);
    var listed := ListedRows(reviews, placeActivityId, scope, userId, friendIds);
    ScopeRowsCounts(ordered, scope, userId, friendIds);
    forall x ensures multiset(scoped)[x] == multiset(listed)[x] {
      assert multiset(ordered)[x] == multiset(ActivityRows(reviews, placeActivityId))[x];
    }
  }

  /** With the "friends" scope and no friends nothing is listed. */
  lemma NoFriendsListsNothing(reviews: seq<Review>, placeActivityId: int, scope: string, userId: string)
    requires ParseScope(scope) == Friends
    ensures ListedRows(reviews, placeActivityId, scope, userId, []) == []
  {
    var rows := ListedRows(reviews, placeActivityId, scope, userId, []);
    assert multiset(rows) == multiset{};
  }

  /** GetReviewsAsync: `None` is the KeyNotFoundException for an unknown
      activity. The activity's reviews, newest first, narrowed by the
      scope; "friends" with no friends is empty. */
  function GetReviewsAsync(reviews: seq<Review>, activities: set<int>, placeActivityId: int, scope: string,
                           userId: string, friendIds: seq<string>): (r: Option<seq<ReviewDto>>)
    ensures r.None? <==> placeActivityId !in activities
    ensures r.Some? ==> forall i, j :: 0 <= i < j < |r.value| ==> r.value[i].createdAt >= r.value[j].createdAt
    ensures r.Some? ==> forall d :: d in r.value ==>
              exists rv :: rv in reviews && rv.placeActivityId == placeActivityId
                           && InScope(rv, scope, userId, friendIds) && ToDto(rv) == d
    ensures r.Some? ==>
              forall rv :: rv in reviews && rv.placeActivityId == placeActivityId && InScope(rv, scope, userId, friendIds)
                ==> ToDto(rv) in r.value
    ensures r.Some? ==> |r.value| == |ListedRows(reviews, placeActivityId, scope, userId, friendIds)|
    ensures r.Some? && ParseScope(scope) == Friends && friendIds == [] ==> r.value == []
  {
    if placeActivityId !in activities then None
    else if ParseScope(scope) == Friends && |friendIds| == 0 then
      NoFriendsListsNothing(reviews, placeActivityId, scope, userId);
      Some([])
    else
      var ordered := NewestFirst(reviews, placeActivityId);
      var scoped := ScopeRows(ordered, scope, userId, friendIds);
      var dtos := ToDtos(scoped);
      ScopedDtos(reviews, placeActivityId, scope, userId, friendIds, scoped, dtos);
      ScopedRowsAreListed(reviews, placeActivityId, scope, userId, friendIds);
      assert |scoped| == |multiset(scoped)|;
      Some(dtos)
  }

  lemma ScopedDtos(reviews: seq<Review>, placeActivityId: int, scope: string, userId: string, friendIds: seq<string>,
                   scoped: seq<Review>, dtos: seq<ReviewDto>)
    requires forall x :: x in scoped <==> x in reviews && x.placeActivityId == placeActivityId && InScope(x, scope, userId, friendIds)
    requires NewestFirstOrder(scoped)
    requires |dtos| == |scoped| && forall i :: 0 <= i < |scoped| ==> dtos[i] == ToDto(scoped[i])
    ensures forall i, j :: 0 <= i < j < |dtos| ==> dtos[i].createdAt >= dtos[j].createdAt
    ensures forall d :: d in dtos ==>
              exists rv :: rv in reviews && rv.placeActivityId == placeActivityId
                           && InScope(rv, scope, userId, friendIds) && ToDto(rv) == d
    ensures forall rv :: rv in reviews && rv.placeActivityId == placeActivityId && InScope(rv, scope, userId, friendIds)
              ==> ToDto(rv) in dtos
  {
    forall i, j | 0 <= i < j < |dtos| ensures dtos[i].createdAt >= dtos[j].createdAt {
      assert dtos[i].createdAt == scoped[i].createdAt;
    }
    forall d | d in dtos
      ensures exists rv :: rv in reviews && rv.placeActivityId == placeActivityId
                           && InScope(rv, scope, userId, friendIds) && ToDto(rv) == d
    {
      var i :| 0 <= i < |dtos| && dtos[i] == d;
      assert scoped[i] in scoped;
    }
    forall rv | rv in reviews && rv.placeActivityId == placeActivityId && InScope(rv, scope, userId, friendIds)
      ensures ToDto(rv) in dtos
    {
      var i :| 0 <= i < |scoped| && scoped[i] == rv;
      assert dtos[i] == ToDto(rv);
    }
  }

  /** "global" falls to the default arm of the switch. */
  lemma GlobalWordIsGlobal()
    ensures ParseScope("global") == Global
  {
    assert ToLower("global") == "global";
  }

  /** Every scope returns a part of the global list. */
  lemma ScopedIsPartOfGlobal(reviews: seq<Review>, activities: set<int>, placeActivityId: int, scope: string,
                             userId: string, friendIds: seq<string>)
    requires placeActivityId in activities
    ensures forall d :: d in GetReviewsAsync(reviews, activities, placeActivityId, scope, userId, friendIds).value ==>
              d in GetReviewsAsync(reviews, activities, placeActivityId, "global", userId, friendIds).value
  {
    var scoped := GetReviewsAsync(reviews, activities, placeActivityId, scope, userId, friendIds);
    var global := GetReviewsAsync(reviews, activities, placeActivityId, "global", userId, friendIds);
    GlobalWordIsGlobal();
    forall d | d in scoped.value ensures d in global.value {
      var rv :| rv in reviews && rv.placeActivityId == placeActivityId && InScope(rv, scope, userId, friendIds) && ToDto(rv) == d;
      assert InScope(rv, "global", userId, friendIds);
    }
  }

  /** The scope is matched without regard to case: "Mine" and "MINE" are "mine". */
  lemma ScopeIgnoresCase(scope: string)
    ensures ParseScope(scope) == ParseScope(ToLower(scope))
  {
    ToLowerIdempotent(scope);
  }

  /** The service over the Reviews table. */
  class ReviewService {
    var reviews: seq<Review>
    var nextId: int
    const activities: set<int>

    constructor (reviews: seq<Review>, nextId: int, activities: set<int>)
      ensures this.reviews == reviews && this.nextId == nextId && this.activities == activities
    {
      this.reviews := reviews;
      this.nextId := nextId;
      this.activities := activities;
    }

    /** CreateReviewAsync. */
    method CreateReviewAsync(placeActivityId: int, userId: string, userName: string,
                             rating: int, content: string, now: int) returns (outcome: CreateOutcome)
      modifies this
      ensures (outcome, reviews) == CreateReviewAsyncStep(old(reviews), activities, old(nextId), placeActivityId, userId, userName, rating, content, now)
      ensures nextId == if outcome.Added? then old(nextId) + 1 else old(nextId)
    {
      if placeActivityId !in activities {
        return ActivityMissing;
      }
      var review := Review(nextId, placeActivityId, userId, userName, rating, content, now);
      reviews := reviews + [review];
      nextId := nextId + 1;
      outcome := Added(ToDto(review));
    }
  }
}

=== FILE: reviews.dfy ===
/** `ReviewsController`: reviews of a place activity. A user may review an
    activity once; reading lists that activity's reviews, newest first.

    The Reviews table is a sequence of rows, `nextId` is the identity
    column's next value, the PlaceActivities table enters only through the
    set of its ids, and `now` stands for `DateTime.UtcNow`. */
module Reviews {
  import opened Common
  import opened Sorting

  /** A Reviews row, with the fields the controller writes. */
  datatype Review = Review(id: int, placeActivityId: int, userId: string, userName: string,
                           rating: int, content: string, createdAt: int)

  datatype ReviewDto = ReviewDto(id: int, rating: int, content: string, userName: string, createdAt: int)

  function ToDto(r: Review): ReviewDto
  {
    ReviewDto(r.id, r.rating, r.content, r.userName, r.createdAt)
  }

  /** The user has a review of the activity. */
  predicate Reviewed(reviews: seq<Review>, placeActivityId: int, userId: string)
  {
    exists i :: 0 <= i < |reviews| && reviews[i].placeActivityId == placeActivityId && reviews[i].userId == userId
  }

  /** At most one review per (user, activity). */
  predicate OnePerUserActivity(reviews: seq<Review>)
  {
    forall i, j :: 0 <= i < j < |reviews| ==>
      reviews[i].placeActivityId != reviews[j].placeActivityId || reviews[i].userId != reviews[j].userId
  }

  /** `Where(r => r.PlaceActivityId == placeActivityId)`. */
  function ActivityRows(reviews: seq<Review>, placeActivityId: int): (rows: seq<Review>)
    ensures forall r :: r in rows <==> r in reviews && r.placeActivityId == placeActivityId
    ensures forall r :: multiset(rows)[r] == if r.placeActivityId == placeActivityId then multiset(reviews)[r] else 0
  {
    var p := (r: Review) => r.placeActivityId == placeActivityId;
    FilterCounts(reviews, p);
    Filter(reviews, p)
  }

  /** `.OrderByDescending(r => r.CreatedAt)` of the activity's rows: the same
      rows, newest first. */
  function NewestFirst(reviews: seq<Review>, placeActivityId: int): (rows: seq<Review>)
    ensures multiset(rows) == multiset(ActivityRows(reviews, placeActivityId))
    ensures forall r :: r in rows <==> r in reviews && r.placeActivityId == placeActivityId
    ensures forall i, j :: 0 <= i < j < |rows| ==> rows[i].createdAt >= rows[j].createdAt
  {
    var key := (r: Review) => r.createdAt;
    KeyOrdersArePreorders(key);
    var matching := ActivityRows(reviews, placeActivityId);
    var rows := SortBy(matching, DescendingBy(key));
    assert forall r :: r in rows <==> r in matching by {
      forall r ensures r in rows <==> r in matching {
        assert r in rows <==> r in multiset(rows);
        assert r in matching <==> r in multiset(matching);
      }
    }
    rows
  }

  /** How CreateReview answers. */
  datatype CreateResult = Unauthorized | ActivityNotFound | AlreadyReviewed | Created(review: ReviewDto)

  /** CreateReview on the Reviews table: the answer and the new table. */
  function CreateReviewStep(reviews: seq<Review>, activities: set<int>, nextId: int, placeActivityId: int,
                            userId: Option<string>, userName: Option<string>, rating: int, content: string, now: int)
    : (r: (CreateResult, seq<Review>))
    ensures r.0.Unauthorized? <==> userId.None? || IsNullOrWhiteSpace(userName)
    ensures r.0.ActivityNotFound? <==> !r.0.Unauthorized? && placeActivityId !in activities
    ensures r.0.AlreadyReviewed? <==>
              !r.0.Unauthorized? && placeActivityId in activities && Reviewed(reviews, placeActivityId, userId.value)
    ensures !r.0.Created? ==> r.1 == reviews
    ensures r.0.Created? ==>
              var added := Review(nextId, placeActivityId, userId.value, userName.value, rating, content, now);
              r.1 == reviews + [added] && r.0.review == ToDto(added)
  {
    if userId.None? || IsNullOrWhiteSpace(userName) then (Unauthorized, reviews)
    else if placeActivityId !in activities then (ActivityNotFound, reviews)
    else if Reviewed(reviews, placeActivityId, userId.value) then (AlreadyReviewed, reviews)
    else
      var added := Review(nextId, placeActivityId, userId.value, userName.value, rating, content, now);
      (Created(ToDto(added)), reviews + [added])
  }

  /** CreateReview keeps the table at one review per (user, activity). */
  lemma CreateKeepsOnePerUser(reviews: seq<Review>, activities: set<int>, nextId: int, placeActivityId: int,
                              userId: Option<string>, userName: Option<string>, rating: int, content: string, now: int)
    requires OnePerUserActivity(reviews)
    ensures OnePerUserActivity(CreateReviewStep(reviews, activities, nextId, placeActivityId, userId, userName, rating, content, now).1)
  {
    var (res, reviews') := CreateReviewStep(reviews, activities, nextId, placeActivityId, userId, userName, rating, content, now);
    if res.Created? {
      forall i, j | 0 <= i < j < |reviews'|
        ensures reviews'[i].placeActivityId != reviews'[j].placeActivityId || reviews'[i].userId != reviews'[j].userId
      {
        if j == |reviews| {
          assert reviews'[i] == reviews[i];
        }
      }
    }
  }

  /** A second review by the same user of the same activity is refused,
      whatever its rating, content or time. */
  lemma SecondReviewConflicts(reviews: seq<Review>, activities: set<int>, nextId: int, placeActivityId: int,
                              userId: string, userName: string, rating: int, content: string, now: int,
                              rating2: int, content2: string, later: int)
    requires !IsBlank(userName)
    ensures var (res, reviews') := CreateReviewStep(reviews, activities, nextId, placeActivityId, Some(userId), Some(userName), rating, content, now);
            res.Created? ==>
              CreateReviewStep(reviews', activities, nextId + 1, placeActivityId, Some(userId), Some(userName), rating2, content2, later)
              == (AlreadyReviewed, reviews')
  {
    var (res, reviews') := CreateReviewStep(reviews, activities, nextId, placeActivityId, Some(userId), Some(userName), rating, content, now);
    if res.Created? {
      assert reviews'[|reviews|].placeActivityId == placeActivityId && reviews'[|reviews|].userId == userId;
    }
  }

  /** `.Select(r => new ReviewDto(..))`. */
  function ToDtos(rows: seq<Review>): (r: seq<ReviewDto>)
    ensures |r| == |rows|
    ensures forall i :: 0 <= i < |rows| ==> r[i] == ToDto(rows[i])
    ensures forall rv :: rv in rows ==> ToDto(rv) in r
    ensures forall d :: d in r ==> exists rv :: rv in rows && ToDto(rv) == d
  {
    if rows == [] then []
    else [ToDto(rows[0])] + ToDtos(rows[1..])
  }

  /** GetReviews: `None` is the NotFound answer for an unknown activity;
      otherwise the activity's reviews, newest first. */
  function GetReviews(reviews: seq<Review>, activities: set<int>, placeActivityId: int): (r: Option<seq<ReviewDto>>)
    ensures r.None? <==> placeActivityId !in activities
    ensures r.Some? ==> forall i, j :: 0 <= i < j < |r.value| ==> r.value[i].createdAt >= r.value[j].createdAt
    ensures r.Some? ==> |r.value| == |ActivityRows(reviews, placeActivityId)|
    ensures r.Some? ==> forall rv :: rv in reviews && rv.placeActivityId == placeActivityId ==> ToDto(rv) in r.value
    ensures r.Some? ==> forall d :: d in r.value ==>
              exists rv :: rv in reviews && rv.placeActivityId == placeActivityId && ToDto(rv) == d
  {
    if placeActivityId !in activities then None
    else
      var rows := NewestFirst(reviews, placeActivityId);
      assert |rows| == |multiset(rows)| == |ActivityRows(reviews, placeActivityId)|;
      Some(ToDtos(rows))
  }

  /** The controller over the Reviews table. */
  class ReviewsController {
    var reviews: seq<Review>
    var nextId: int
    const activities: set<int>

    constructor (reviews: seq<Review>, nextId: int, activities: set<int>)
      ensures this.reviews == reviews && this.nextId == nextId && this.activities == activities
    {
      this.reviews := reviews;
      this.nextId := nextId;
      this.activities := activities;
    }

    /** CreateReview: the guards in order, then one insert. */
    method CreateReview(placeActivityId: int, userId: Option<string>, userName: Option<string>,
                        rating: int, content: string, now: int) returns (result: CreateResult)
      modifies this
      ensures (result, reviews) == CreateReviewStep(old(reviews), activities, old(nextId), placeActivityId, userId, userName, rating, content, now)
      ensures nextId == if result.Created? then old(nextId) + 1 else old(nextId)
      ensures OnePerUserActivity(old(reviews)) ==> OnePerUserActivity(reviews)
    {
      ghost var before := reviews;
      if userId.None? || IsNullOrWhiteSpace(userName) {
        return Unauthorized;
      }
      if placeActivityId !in activities {
        return ActivityNotFound;
      }
      if Reviewed(reviews, placeActivityId, userId.value) {
        return AlreadyReviewed;
      }
      var review := Review(nextId, placeActivityId, userId.value, userName.value, rating, content, now);
      reviews := reviews + [review];
      nextId := nextId + 1;
      result := Created(ToDto(review));
      if OnePerUserActivity(before) {
        CreateKeepsOnePerUser(before, activities, review.id, placeActivityId, userId, userName, rating, content, now);
      }
    }
  }
}

=== FILE: sorting.dfy ===
/** The LINQ pipeline stages the queries are built from: `Where`, `OrderBy`
    / `OrderByDescending`, `Skip` and `Take`, over finite sequences of rows.
    An ordering is a "less than or equal" comparison that is a total
    preorder (rows with equal keys may come in either order, as in SQL). */
module Sorting {
  import opened Common

  /** `Where(p)`: the rows satisfying `p`, in their original order. */
  function Filter<T(!new)>(s: seq<T>, p: T -> bool): (r: seq<T>)
    ensures |r| <= |s|
    ensures forall x :: x in r <==> x in s && p(x)
    ensures multiset(r) <= multiset(s)
    ensures NoDuplicates(s) ==> NoDuplicates(r)
  {
    if s == [] then []
    else
      var rest := Filter(s[1..], p);
      assert s == [s[0]] + s[1..];
      if p(s[0]) then [s[0]] + rest else rest
  }

  /** `Where(p)` keeps every copy of a row that satisfies `p` and no copy of
      one that does not. */
  lemma {:induction false} FilterCounts<T(!new)>(s: seq<T>, p: T -> bool)
    ensures forall x :: multiset(Filter(s, p))[x] == if p(x) then multiset(s)[x] else 0
  {
    if s != [] {
      FilterCounts(s[1..], p);
      assert s == [s[0]] + s[1..];
    }
  }

  /** `Count(p)`. */
  function CountWhere<T(!new)>(s: seq<T>, p: T -> bool): (n: nat)
    ensures n <= |s|
  {
    |Filter(s, p)|
  }

  /** `Take(n)`: the first `n` rows, all of them when there are fewer, none when `n` is not positive. */
  function Take<T>(s: seq<T>, n: int): (r: seq<T>)
    ensures |r| == if n <= 0 then 0 else if n < |s| then n else |s|
    ensures r == s[..|r|]
  {
    if n <= 0 then [] else if n < |s| then s[..n] else s
  }

  /** `Skip(n)`: everything after the first `n` rows; a non-positive `n` skips nothing. */
  function Skip<T>(s: seq<T>, n: int): (r: seq<T>)
    ensures |r| == if n <= 0 then |s| else if n < |s| then |s| - n else 0
    ensures r == s[|s| - |r|..]
  {
    if n <= 0 then s else if n < |s| then s[n..] else []
  }

  /** `leq` is a total preorder: any two rows compare, and comparison chains. */
  ghost predicate IsTotalPreorder<T(!new)>(leq: (T, T) -> bool)
  {
    && (forall a, b :: leq(a, b) || leq(b, a))
    && (forall a, b, c :: leq(a, b) && leq(b, c) ==> leq(a, c))
  }

  /** Every row is `leq` every later row. */
  predicate SortedBy<T>(s: seq<T>, leq: (T, T) -> bool)
  {
    forall i, j :: 0 <= i < j < |s| ==> leq(s[i], s[j])
  }

  /** Places `x` before the first row it is `leq` to. */
  function Insert<T(!new)>(x: T, s: seq<T>, leq: (T, T) -> bool): (r: seq<T>)
    requires IsTotalPreorder(leq)
    requires SortedBy(s, leq)
    ensures SortedBy(r, leq)
    ensures multiset(r) == multiset(s) + multiset{x}
  {
    if s == [] then [x]
    else if leq(x, s[0]) then [x] + s
    else
      var rest := Insert(x, s[1..], leq);
      assert s == [s[0]] + s[1..];
      HeadBelowInserted(x, s, rest, leq);
      [s[0]] + rest
  }

  /** The head of a sorted sequence stays below everything `Insert` puts after it. */
  lemma HeadBelowInserted<T(!new)>(x: T, s: seq<T>, rest: seq<T>, leq: (T, T) -> bool)
    requires IsTotalPreorder(leq)
    requires SortedBy(s, leq) && s != [] && !leq(x, s[0])
    requires SortedBy(rest, leq)
    requires multiset(rest) == multiset(s[1..]) + multiset{x}
    ensures SortedBy([s[0]] + rest, leq)
  {
    forall k | 0 <= k < |rest| ensures leq(s[0], rest[k]) {
      var y := rest[k];
      assert y in multiset(rest);
      if y != x {
        assert y in multiset(s[1..]);
        var m :| 0 <= m < |s[1..]| && s[1..][m] == y;
        assert s[1 + m] == y;
      }
    }
  }

  /** `OrderBy`: a sorted permutation of the rows. */
  function SortBy<T(!new)>(s: seq<T>, leq: (T, T) -> bool): (r: seq<T>)
    requires IsTotalPreorder(leq)
    ensures SortedBy(r, leq)
    ensures multiset(r) == multiset(s)
  {
    if s == [] then []
    else
      assert s == [s[0]] + s[1..];
      Insert(s[0], SortBy(s[1..], leq), leq)
  }

  /** Ascending by an integer key (`OrderBy(x => key(x))`). */
  function AscendingBy<T(!new)>(key: T -> int): (leq: (T, T) -> bool)
    ensures forall a, b :: leq(a, b) <==> key(a) <= key(b)
  {
    (a: T, b: T) => key(a) <= key(b)
  }

  /** Descending by an integer key (`OrderByDescending(x => key(x))`). */
  function DescendingBy<T(!new)>(key: T -> int): (leq: (T, T) -> bool)
    ensures forall a, b :: leq(a, b) <==> key(a) >= key(b)
  {
    (a: T, b: T) => key(a) >= key(b)
  }

  lemma KeyOrdersArePreorders<T(!new)>(key: T -> int)
    ensures IsTotalPreorder(AscendingBy(key))
    ensures IsTotalPreorder(DescendingBy(key))
  {
  }

  /** Ordinal string order, as `OrderBy(u => u.UserName)` with a binary collation. */
  predicate LexLeq(a: string, b: string)
  {
    a == [] || (b != [] && (a[0] < b[0] || (a[0] == b[0] && LexLeq(a[1..], b[1..]))))
  }

  lemma {:induction false} LexLeqTotal(a: string, b: string)
    ensures LexLeq(a, b) || LexLeq(b, a)
  {
    if a != [] && b != [] && a[0] == b[0] {
      LexLeqTotal(a[1..], b[1..]);
    }
  }

  lemma {:induction false} LexLeqTransitive(a: string, b: string, c: string)
    requires LexLeq(a, b) && LexLeq(b, c)
    ensures LexLeq(a, c)
  {
    if a != [] && b != [] && c != [] && a[0] == b[0] == c[0] {
      LexLeqTransitive(a[1..], b[1..], c[1..]);
    }
  }

  /** `OrderBy(key)` on a string key, in ordinal order. */
  function AscendingByString<T(!new)>(key: T -> string): (leq: (T, T) -> bool)
    ensures forall a, b :: leq(a, b) <==> LexLeq(key(a), key(b))
  {
    (a: T, b: T) => LexLeq(key(a), key(b))
  }

  /** Comparing rows by a string key in ordinal order is a total preorder. */
  lemma StringKeyOrderIsPreorder<T(!new)>(key: T -> string)
    ensures IsTotalPreorder(AscendingByString(key))
  {
    forall a, b ensures LexLeq(key(a), key(b)) || LexLeq(key(b), key(a)) {
      LexLeqTotal(key(a), key(b));
    }
    forall a, b, c | LexLeq(key(a), key(b)) && LexLeq(key(b), key(c))
      ensures LexLeq(key(a), key(c))
    {
      LexLeqTransitive(key(a), key(b), key(c));
    }
  }

  /** A prefix of a sorted sequence is sorted; its rows all come from the whole. */
  lemma TakeOfSorted<T>(s: seq<T>, n: int, leq: (T, T) -> bool)
    requires SortedBy(s, leq)
    ensures SortedBy(Take(s, n), leq)
    ensures multiset(Take(s, n)) <= multiset(s)
  {
    var r := Take(s, n);
    assert s == r + s[|r|..];
  }

  /** `OrderBy(..).Take(n)`: the first `n` rows in the order `leq`. No row
      left out ranks strictly before a row that was kept. */
  function TopBy<T(!new)>(s: seq<T>, leq: (T, T) -> bool, n: int): (r: seq<T>)
    requires IsTotalPreorder(leq)
    ensures SortedBy(r, leq)
    ensures multiset(r) <= multiset(s)
    ensures forall x :: x in r ==> x in s
    ensures |r| == if n <= 0 then 0 else if n < |s| then n else |s|
    ensures forall x, y :: x in r && y in s && y !in r ==> leq(x, y)
    ensures n >= |s| ==> multiset(r) == multiset(s)
    ensures n >= |s| ==> forall y :: y in s ==> y in r
    ensures NoDuplicates(s) ==> NoDuplicates(r)
  {
    var sorted := SortBy(s, leq);
    assert NoDuplicates(s) ==> NoDuplicates(Take(sorted, n)) by {
      if NoDuplicates(s) {
        TakeOfSorted(sorted, n, leq);
        SubMultisetKeepsDistinct(Take(sorted, n), s);
      }
    }
    TakeOfSorted(sorted, n, leq);
    TakeIsTop(sorted, n, leq);
    assert |sorted| == |multiset(s)| == |s|;
    forall y | y in s ensures y in sorted {
      assert y in multiset(s);
    }
    forall x | x in Take(sorted, n) ensures x in s {
      assert x in multiset(Take(sorted, n));
    }
    Take(sorted, n)
  }

  /** `OrderBy(key).Take(n)` on an integer key, stated on the key. */
  function TopAscending<T(!new)>(s: seq<T>, key: T -> int, n: int): (r: seq<T>)
    ensures forall x :: x in r ==> x in s
    ensures multiset(r) <= multiset(s)
    ensures |r| == if n <= 0 then 0 else if n < |s| then n else |s|
    ensures forall i, j :: 0 <= i < j < |r| ==> key(r[i]) <= key(r[j])
    ensures forall x, y :: x in r && y in s && y !in r ==> key(x) <= key(y)
    ensures NoDuplicates(s) ==> NoDuplicates(r)
    ensures |r| < n ==> forall y :: y in s ==> y in r
  {
    KeyOrdersArePreorders(key);
    var leq := AscendingBy(key);
    var r := TopBy(s, leq, n);
    assert forall i, j :: 0 <= i < j < |r| ==> key(r[i]) <= key(r[j]) by {
      forall i, j | 0 <= i < j < |r| ensures key(r[i]) <= key(r[j]) { assert leq(r[i], r[j]); }
    }
    assert forall x, y :: x in r && y in s && y !in r ==> key(x) <= key(y) by {
      forall x, y | x in r && y in s && y !in r ensures key(x) <= key(y) { assert leq(x, y); }
    }
    r
  }

  /** `OrderByDescending(key).Take(n)` on an integer key, stated on the key. */
  function TopDescending<T(!new)>(s: seq<T>, key: T -> int, n: int): (r: seq<T>)
    ensures forall x :: x in r ==> x in s
    ensures multiset(r) <= multiset(s)
    ensures |r| == if n <= 0 then 0 else if n < |s| then n else |s|
    ensures forall i, j :: 0 <= i < j < |r| ==> key(r[i]) >= key(r[j])
    ensures forall x, y :: x in r && y in s && y !in r ==> key(x) >= key(y)
    ensures NoDuplicates(s) ==> NoDuplicates(r)
    ensures |r| < n ==> forall y :: y in s ==> y in r
  {
    KeyOrdersArePreorders(key);
    var leq := DescendingBy(key);
    var r := TopBy(s, leq, n);
    assert forall i, j :: 0 <= i < j < |r| ==> key(r[i]) >= key(r[j]) by {
      forall i, j | 0 <= i < j < |r| ensures key(r[i]) >= key(r[j]) { assert leq(r[i], r[j]); }
    }
    assert forall x, y :: x in r && y in s && y !in r ==> key(x) >= key(y) by {
      forall x, y | x in r && y in s && y !in r ensures key(x) >= key(y) { assert leq(x, y); }
    }
    r
  }

  /** `OrderBy(key).Take(n)` on a real-valued key, stated on the key. */
  function TopAscendingReal<T(!new)>(s: seq<T>, key: T -> real, n: int): (r: seq<T>)
    ensures forall x :: x in r ==> x in s
    ensures multiset(r) <= multiset(s)
    ensures |r| == if n <= 0 then 0 else if n < |s| then n else |s|
    ensures forall i, j :: 0 <= i < j < |r| ==> key(r[i]) <= key(r[j])
    ensures forall x, y :: x in r && y in s && y !in r ==> key(x) <= key(y)
    ensures |r| < n ==> forall y :: y in s ==> y in r
  {
    var leq := (a: T, b: T) => key(a) <= key(b);
    assert IsTotalPreorder(leq);
    var r := TopBy(s, leq, n);
    assert forall i, j :: 0 <= i < j < |r| ==> key(r[i]) <= key(r[j]) by {
      forall i, j | 0 <= i < j < |r| ensures key(r[i]) <= key(r[j]) { assert leq(r[i], r[j]); }
    }
    assert forall x, y :: x in r && y in s && y !in r ==> key(x) <= key(y) by {
      forall x, y | x in r && y in s && y !in r ensures key(x) <= key(y) { assert leq(x, y); }
    }
    r
  }

  /** `OrderBy(key).Take(n)` on a string key in ordinal order, stated on the key. */
  function TopAscendingString<T(!new)>(s: seq<T>, key: T -> string, n: int): (r: seq<T>)
    ensures forall x :: x in r ==> x in s
    ensures multiset(r) <= multiset(s)
    ensures |r| == if n <= 0 then 0 else if n < |s| then n else |s|
    ensures forall i, j :: 0 <= i < j < |r| ==> LexLeq(key(r[i]), key(r[j]))
    ensures forall x, y :: x in r && y in s && y !in r ==> LexLeq(key(x), key(y))
    ensures |r| < n ==> forall y :: y in s ==> y in r
  {
    StringKeyOrderIsPreorder(key);
    var leq := AscendingByString(key);
    var r := TopBy(s, leq, n);
    assert forall i, j :: 0 <= i < j < |r| ==> LexLeq(key(r[i]), key(r[j])) by {
      forall i, j | 0 <= i < j < |r| ensures LexLeq(key(r[i]), key(r[j])) { assert leq(r[i], r[j]); }
    }
    assert forall x, y :: x in r && y in s && y !in r ==> LexLeq(key(x), key(y)) by {
      forall x, y | x in r && y in s && y !in r ensures LexLeq(key(x), key(y)) { assert leq(x, y); }
    }
    r
  }

  lemma TakeIsTop<T>(sorted: seq<T>, n: int, leq: (T, T) -> bool)
    requires SortedBy(sorted, leq)
    ensures forall x, y :: x in Take(sorted, n) && y in sorted && y !in Take(sorted, n) ==> leq(x, y)
  {
    var r := Take(sorted, n);
    forall x, y | x in r && y in sorted && y !in r ensures leq(x, y) {
      var i :| 0 <= i < |r| && r[i] == x;
      var j :| 0 <= j < |sorted| && sorted[j] == y;
      assert sorted[i] == x;
    }
  }

  /** Distinct elements occur once each. */
  lemma {:induction false} DistinctCountsOne<T>(s: seq<T>, x: T)
    requires NoDuplicates(s)
    ensures multiset(s)[x] <= 1
  {
    if s != [] {
      var n := |s|;
      assert s == s[..n - 1] + [s[n - 1]];
      assert NoDuplicates(s[..n - 1]);
      if x == s[n - 1] {
        assert x !in s[..n - 1];
      }
      DistinctCountsOne(s[..n - 1], x);
    }
  }

  /** Part of a sequence of distinct elements has distinct elements too. */
  lemma SubMultisetKeepsDistinct<T>(r: seq<T>, s: seq<T>)
    requires multiset(r) <= multiset(s) && NoDuplicates(s)
    ensures NoDuplicates(r)
  {
    forall i, j | 0 <= i < j < |r| ensures r[i] != r[j] {
      if r[i] == r[j] {
        assert r == r[..j] + [r[j]] + r[j + 1..];
        assert r[..j][i] == r[i];
        assert multiset(r)[r[i]] >= 2;
        DistinctCountsOne(s, r[i]);
        assert false;
      }
    }
  }
}

=== FILE: tag_queries.dfy ===
/** The two listing queries of `TagService` (Ping snapshot), popular tags
    and tag suggestions: filter, order and take pipelines over the tables of
    `Tags`. */
module TagQueries {
  import opened Common
  import opened Sorting
  import opened Tags

  /** GetPopularTagsAsync: the listed tags (used at the ping when one is
      given) with their usage, most used first, as many as `count` allows
      and there are. Which rows these are is stated by the three lemmas
      after it. */
  function PopularTags(tags: seq<Tag>, rows: seq<ReviewTag>, reviewPing: map<int, int>, count: int, pingId: Option<int>): (r: seq<TagDto>)
    ensures var cands := PopularCandidates(tags, rows, reviewPing, pingId);
            && |r| == (if count <= 0 then 0 else if count < |cands| then count else |cands|)
            && multiset(r) <= multiset(cands)
    ensures forall i, j :: 0 <= i < j < |r| ==> r[i].count >= r[j].count
  {
    ByCountTop(PopularCandidates(tags, rows, reviewPing, pingId), count)
  }

  /** Every popular tag shown is a listed tag with its own usage count,
      used at the ping when one is given. */
  lemma PopularTagsAreEligible(tags: seq<Tag>, rows: seq<ReviewTag>, reviewPing: map<int, int>, count: int, pingId: Option<int>)
    ensures forall d :: d in PopularTags(tags, rows, reviewPing, count, pingId) ==>
              TagOf(d) in tags && d.isApproved && !d.isBanned
              && d.count == Usage(rows, reviewPing, d.id, pingId) && (pingId.Some? ==> d.count > 0)
  {
    var cands := PopularCandidates(tags, rows, reviewPing, pingId);
    forall d | d in PopularTags(tags, rows, reviewPing, count, pingId)
      ensures TagOf(d) in tags && d.isApproved && !d.isBanned && d.count == Usage(rows, reviewPing, d.id, pingId)
              && (pingId.Some? ==> d.count > 0)
    {
      assert d in cands;
      assert PopularEligible(rows, reviewPing, pingId, TagOf(d));
    }
  }

  /** An eligible tag left out is used no more than any tag shown. */
  lemma PopularTagsLeaveOutLessUsed(tags: seq<Tag>, rows: seq<ReviewTag>, reviewPing: map<int, int>, count: int, pingId: Option<int>)
    ensures var r := PopularTags(tags, rows, reviewPing, count, pingId);
            forall d, t :: (d in r && t in tags && PopularEligible(rows, reviewPing, pingId, t)
                            && ToDto(t, Usage(rows, reviewPing, t.id, pingId)) !in r) ==>
                             d.count >= Usage(rows, reviewPing, t.id, pingId)
  {
    var cands := PopularCandidates(tags, rows, reviewPing, pingId);
    var r := PopularTags(tags, rows, reviewPing, count, pingId);
    forall d, t | d in r && t in tags && PopularEligible(rows, reviewPing, pingId, t)
                  && ToDto(t, Usage(rows, reviewPing, t.id, pingId)) !in r
      ensures d.count >= Usage(rows, reviewPing, t.id, pingId)
    {
      assert ToDto(t, Usage(rows, reviewPing, t.id, pingId)) in cands;
    }
  }

  /** With fewer than `count` tags shown, every eligible tag is shown. */
  lemma PopularTagsAllShownWhenFew(tags: seq<Tag>, rows: seq<ReviewTag>, reviewPing: map<int, int>, count: int, pingId: Option<int>)
    ensures var r := PopularTags(tags, rows, reviewPing, count, pingId);
            |r| < count ==> forall t :: t in tags && PopularEligible(rows, reviewPing, pingId, t) ==>
                                          ToDto(t, Usage(rows, reviewPing, t.id, pingId)) in r
  {
    var cands := PopularCandidates(tags, rows, reviewPing, pingId);
    var r := PopularTags(tags, rows, reviewPing, count, pingId);
    if |r| < count {
      forall t | t in tags && PopularEligible(rows, reviewPing, pingId, t)
        ensures ToDto(t, Usage(rows, reviewPing, t.id, pingId)) in r
      {
        assert ToDto(t, Usage(rows, reviewPing, t.id, pingId)) in cands;
      }
    }
  }

  /** The normalised form of a suggestion query. */
  function NormalizeQuery(query: string): string
  {
    ToLower(Trim(query))
  }

  /** SearchTagsAsync: nothing for a blank query; otherwise the unbanned
      tags whose name contains the trimmed, lower-cased query, with their
      join counts, shortest names first, as many as `count` allows and there
      are. Which rows these are is stated by the three lemmas after it. */
  function SearchTags(tags: seq<Tag>, rows: seq<ReviewTag>, query: string, count: int): (r: seq<TagDto>)
    ensures IsBlank(query) ==> r == []
    ensures !IsBlank(query) ==>
              var cands := SearchCandidates(tags, rows, NormalizeQuery(query));
              && |r| == (if count <= 0 then 0 else if count < |cands| then count else |cands|)
              && multiset(r) <= multiset(cands)
    ensures forall i, j :: 0 <= i < j < |r| ==> |r[i].name| <= |r[j].name|
  {
    if IsBlank(query) then [] else ByNameLengthTop(SearchCandidates(tags, rows, NormalizeQuery(query)), count)
  }

  /** Every suggestion is an unbanned tag containing the normalised query,
      with its join count. */
  lemma SearchTagsMatch(tags: seq<Tag>, rows: seq<ReviewTag>, query: string, count: int)
    ensures forall d :: d in SearchTags(tags, rows, query, count) ==>
              TagOf(d) in tags && !d.isBanned && Contains(d.name, NormalizeQuery(query)) && d.count == JoinCount(rows, d.id)
  {
    if !IsBlank(query) {
      var cands := SearchCandidates(tags, rows, NormalizeQuery(query));
      forall d | d in SearchTags(tags, rows, query, count)
        ensures TagOf(d) in tags && !d.isBanned && Contains(d.name, NormalizeQuery(query)) && d.count == JoinCount(rows, d.id)
      {
        assert d in cands;
      }
    }
  }

  /** A matching tag left out has a name no shorter than any suggestion. */
  lemma SearchTagsShortestFirst(tags: seq<Tag>, rows: seq<ReviewTag>, query: string, count: int)
    ensures var r := SearchTags(tags, rows, query, count);
            forall d, t :: (d in r && t in tags && SearchEligible(NormalizeQuery(query), t)
                            && ToDto(t, JoinCount(rows, t.id)) !in r) ==> |d.name| <= |t.name|
  {
    var r := SearchTags(tags, rows, query, count);
    if !IsBlank(query) {
      var q := NormalizeQuery(query);
      var cands := SearchCandidates(tags, rows, q);
      forall d, t | d in r && t in tags && SearchEligible(q, t) && ToDto(t, JoinCount(rows, t.id)) !in r
        ensures |d.name| <= |t.name|
      {
        assert ToDto(t, JoinCount(rows, t.id)) in cands;
      }
    }
  }

  /** For a non-blank query with fewer than `count` suggestions, every
      matching tag is suggested. */
  lemma SearchTagsAllShownWhenFew(tags: seq<Tag>, rows: seq<ReviewTag>, query: string, count: int)
    ensures var r := SearchTags(tags, rows, query, count);
            !IsBlank(query) && |r| < count ==>
              forall t :: t in tags && SearchEligible(NormalizeQuery(query), t) ==> ToDto(t, JoinCount(rows, t.id)) in r
  {
    var r := SearchTags(tags, rows, query, count);
    if !IsBlank(query) && |r| < count {
      var q := NormalizeQuery(query);
      var cands := SearchCandidates(tags, rows, q);
      forall t | t in tags && SearchEligible(q, t) ensures ToDto(t, JoinCount(rows, t.id)) in r {
        assert ToDto(t, JoinCount(rows, t.id)) in cands;
      }
    }
  }

  /** Banning a tag hides it from both queries. */
  lemma BannedTagIsHidden(tags: seq<Tag>, rows: seq<ReviewTag>, reviewPing: map<int, int>, id: int,
                          count: int, pingId: Option<int>, query: string)
    ensures forall d :: d in PopularTags(SetFlags(tags, id, false, true), rows, reviewPing, count, pingId) ==> d.id != id
    ensures forall d :: d in SearchTags(SetFlags(tags, id, false, true), rows, query, count) ==> d.id != id
  {
    var banned := SetFlags(tags, id, false, true);
    forall t | t in banned && t.id == id ensures t.isBanned {
      var i :| 0 <= i < |banned| && banned[i] == t;
    }
    PopularTagsAreEligible(banned, rows, reviewPing, count, pingId);
    SearchTagsMatch(banned, rows, query, count);
  }
}

=== FILE: tags.dfy ===
/** Tag moderation and suggestions, `TagService` of the Ping snapshot.

    The Tags table is a sequence of rows with distinct ids; the ReviewTags
    join table a sequence of (ReviewId, TagId) rows without repeats, the
    pair being its primary key. Approving and banning flip the two flags,
    merging moves a tag's join rows onto another tag. The rows the two
    listing queries choose from are projected here; the queries themselves
    are in `TagQueries`. */
module Tags {
  import opened Common
  import opened Sorting

  datatype Tag = Tag(id: int, name: string, isApproved: bool, isBanned: bool)

  datatype ReviewTag = ReviewTag(reviewId: int, tagId: int)

  datatype TagDto = TagDto(id: int, name: string, count: nat, isApproved: bool, isBanned: bool)

  /** `Done`, or the `KeyNotFoundException` the service throws. */
  datatype Outcome = Done | KeyNotFound

  function TagIds(tags: seq<Tag>): set<int>
  {
    set t | t in tags :: t.id
  }

  /** The primary key of Tags. */
  predicate UniqueIds(tags: seq<Tag>)
  {
    forall i, j :: 0 <= i < j < |tags| ==> tags[i].id != tags[j].id
  }

  /** `db.Tags.FindAsync(id)`: the position of the row with that id. */
  function Find(tags: seq<Tag>, id: int): (r: Option<nat>)
    ensures r.None? <==> id !in TagIds(tags)
    ensures r.Some? ==> r.value < |tags| && tags[r.value].id == id
  {
    if tags == [] then None
    else if tags[0].id == id then Some(0)
    else
      assert tags == [tags[0]] + tags[1..];
      assert TagIds(tags) == {tags[0].id} + TagIds(tags[1..]);
      match Find(tags[1..], id)
      case None => None
      case Some(i) => Some(i + 1)
  }

  /** The tag rows after setting both flags of the tag `id`. */
  function SetFlags(tags: seq<Tag>, id: int, approved: bool, banned: bool): (r: seq<Tag>)
    ensures |r| == |tags| && TagIds(r) == TagIds(tags)
    ensures forall i :: 0 <= i < |r| && tags[i].id == id ==>
              r[i].isApproved == approved && r[i].isBanned == banned
    ensures forall i :: 0 <= i < |r| ==> r[i].id == tags[i].id && r[i].name == tags[i].name
    ensures forall i :: 0 <= i < |r| && tags[i].id != id ==> r[i] == tags[i]
  {
    var r := seq(|tags|, i requires 0 <= i < |tags| =>
                   if tags[i].id == id then tags[i].(isApproved := approved, isBanned := banned) else tags[i]);
    SameIdsAt(tags, r);
    r
  }

  /** Rows with the same id at every position have the same ids. */
  lemma SameIdsAt(tags: seq<Tag>, r: seq<Tag>)
    requires |r| == |tags| && forall i :: 0 <= i < |r| ==> r[i].id == tags[i].id
    ensures TagIds(r) == TagIds(tags)
  {
    forall x | x in TagIds(r) ensures x in TagIds(tags) {
      var i :| 0 <= i < |r| && r[i].id == x;
      assert tags[i] in tags;
    }
    forall x | x in TagIds(tags) ensures x in TagIds(r) {
      var i :| 0 <= i < |tags| && tags[i].id == x;
      assert r[i] in r;
    }
  }

  /** The tag rows without the tag `id`. */
  function RemoveTag(tags: seq<Tag>, id: int): (r: seq<Tag>)
    ensures TagIds(r) == TagIds(tags) - {id}
    ensures forall t :: t in r <==> t in tags && t.id != id
    ensures NoDuplicates(tags) ==> NoDuplicates(r)
  {
    var r := Filter(tags, (t: Tag) => t.id != id);
    assert forall t :: t in r <==> t in tags && t.id != id;
    r
  }

  lemma RemoveTagKeepsUnique(tags: seq<Tag>, id: int)
    requires UniqueIds(tags)
    ensures UniqueIds(RemoveTag(tags, id))
  {
    var r := RemoveTag(tags, id);
    assert NoDuplicates(tags) by {
      forall p, q | 0 <= p < q < |tags| ensures tags[p] != tags[q] {
        assert tags[p].id != tags[q].id;
      }
    }
    forall i, j | 0 <= i < j < |r| ensures r[i].id != r[j].id {
      assert r[i] in tags && r[j] in tags;
      var a :| 0 <= a < |tags| && tags[a] == r[i];
      var b :| 0 <= b < |tags| && tags[b] == r[j];
      assert r[i] != r[j];
    }
  }

  /** The join rows as a set: the table's content without its order. */
  function JoinSet(rows: seq<ReviewTag>): set<ReviewTag>
  {
    set x | x in rows
  }

  /** The reviews joined to tag `tagId`. */
  function ReviewsWith(rows: set<ReviewTag>, tagId: int): set<int>
  {
    set x | x in rows && x.tagId == tagId :: x.reviewId
  }

  /** What a merge of `source` into `target` leaves in the join table: the
      rows of every other tag as they were, and each review of the source
      joined to the target instead. */
  function MergedJoins(rows: set<ReviewTag>, source: int, target: int): set<ReviewTag>
  {
    (set x | x in rows && x.tagId != source) + (set x | x in rows && x.tagId == source :: ReviewTag(x.reviewId, target))
  }

  /** After a merge the target is joined to the reviews of both tags, the
      source to none, and no other tag's rows change. */
  lemma MergeReparents(rows: set<ReviewTag>, source: int, target: int)
    requires source != target
    ensures ReviewsWith(MergedJoins(rows, source, target), target) == ReviewsWith(rows, target) + ReviewsWith(rows, source)
    ensures ReviewsWith(MergedJoins(rows, source, target), source) == {}
    ensures forall x: ReviewTag :: x.tagId != source && x.tagId != target ==> (x in MergedJoins(rows, source, target) <==> x in rows)
  {
    var m := MergedJoins(rows, source, target);
    forall r | r in ReviewsWith(rows, source) ensures r in ReviewsWith(m, target) {
      var x :| x in rows && x.tagId == source && x.reviewId == r;
      assert ReviewTag(r, target) in m;
    }
    forall r | r in ReviewsWith(rows, target) ensures r in ReviewsWith(m, target) {
      var x :| x in rows && x.tagId == target && x.reviewId == r;
      assert x in m;
    }
  }

  /** Tags shown publicly: approved and not banned. */
  predicate Listed(t: Tag)
  {
    t.isApproved && !t.isBanned
  }

  /** `t.ReviewTags.Count`. */
  function JoinCount(rows: seq<ReviewTag>, tagId: int): nat
  {
    CountWhere(rows, (x: ReviewTag) => x.tagId == tagId)
  }

  /** The join rows of a tag whose review belongs to the ping (place)
      `pingId`; `reviewPing` maps a review to the ping of its activity. */
  function JoinCountAt(rows: seq<ReviewTag>, reviewPing: map<int, int>, tagId: int, pingId: int): (n: nat)
    ensures n > 0 <==> exists x :: x in rows && x.tagId == tagId && x.reviewId in reviewPing && reviewPing[x.reviewId] == pingId
  {
    var f := Filter(rows, (x: ReviewTag) => x.tagId == tagId && x.reviewId in reviewPing && reviewPing[x.reviewId] == pingId);
    assert f != [] ==> f[0] in f;
    |f|
  }

  /** Without its first row a table keeps unique ids, none equal to that row's. */
  lemma DropFirstKeepsUnique(tags: seq<Tag>)
    requires tags != []
    ensures UniqueIds(tags) ==> UniqueIds(tags[1..])
    ensures UniqueIds(tags) ==> forall x :: x in tags[1..] ==> x.id != tags[0].id
  {
    if UniqueIds(tags) {
      forall x | x in tags[1..] ensures x.id != tags[0].id {
        var k :| 0 <= k < |tags[1..]| && tags[1..][k] == x;
        assert tags[k + 1] == x;
      }
    }
  }

  /** The ids of the tags `p` accepts, in table order. */
  function EligibleIds(tags: seq<Tag>, p: Tag -> bool): seq<int>
  {
    if tags == [] then []
    else if p(tags[0]) then [tags[0].id] + EligibleIds(tags[1..], p)
    else EligibleIds(tags[1..], p)
  }

  /** Putting an id outside `ids` in front of distinct ids from `ids` keeps them distinct. */
  lemma PrependFreshId(x: int, rest: seq<int>, ids: set<int>)
    requires x !in ids
    requires forall k :: 0 <= k < |rest| ==> rest[k] in ids
    requires NoDuplicates(rest)
    ensures NoDuplicates([x] + rest)
  {
    var e := [x] + rest;
    forall i, j | 0 <= i < j < |e| ensures e[i] != e[j] {
      assert e[j] == rest[j - 1];
      if i > 0 {
        assert e[i] == rest[i - 1];
      }
    }
  }

  /** Each accepted id is an id of the table; with unique ids in the table none repeats. */
  lemma {:induction false} EligibleIdsDistinct(tags: seq<Tag>, p: Tag -> bool)
    ensures forall k :: 0 <= k < |EligibleIds(tags, p)| ==> EligibleIds(tags, p)[k] in TagIds(tags)
    ensures UniqueIds(tags) ==> NoDuplicates(EligibleIds(tags, p))
  {
    if tags != [] {
      EligibleIdsDistinct(tags[1..], p);
      DropFirstKeepsUnique(tags);
      var t := tags[0];
      var rest := EligibleIds(tags[1..], p);
      assert TagIds(tags) == {t.id} + TagIds(tags[1..]) by {
        assert tags == [t] + tags[1..];
      }
      if p(t) && UniqueIds(tags) {
        assert t.id !in TagIds(tags[1..]);
        PrependFreshId(t.id, rest, TagIds(tags[1..]));
      }
    }
  }

  /** The ids of a list of tag rows, position by position. */
  function DtoIds(r: seq<TagDto>): (ids: seq<int>)
    ensures |ids| == |r| && forall k :: 0 <= k < |r| ==> ids[k] == r[k].id
  {
    seq(|r|, k requires 0 <= k < |r| => r[k].id)
  }

  lemma DtoIdsCons(d: TagDto, rest: seq<TagDto>)
    ensures DtoIds([d] + rest) == [d.id] + DtoIds(rest)
  {
    assert forall k :: 0 < k < |rest| + 1 ==> ([d] + rest)[k] == rest[k - 1];
  }

  /** The usage count GetPopularTagsAsync sorts by. */
  function Usage(rows: seq<ReviewTag>, reviewPing: map<int, int>, tagId: int, pingId: Option<int>): nat
  {
    if pingId.Some? then JoinCountAt(rows, reviewPing, tagId, pingId.value) else JoinCount(rows, tagId)
  }

  function ToDto(t: Tag, count: nat): TagDto
  {
    TagDto(t.id, t.name, count, t.isApproved, t.isBanned)
  }

  function TagOf(d: TagDto): Tag
  {
    Tag(d.id, d.name, d.isApproved, d.isBanned)
  }

  /** Tags GetPopularTagsAsync considers: listed, and used at the ping when one is given. */
  predicate PopularEligible(rows: seq<ReviewTag>, reviewPing: map<int, int>, pingId: Option<int>, t: Tag)
  {
    Listed(t) && (pingId.Some? ==> Usage(rows, reviewPing, t.id, pingId) > 0)
  }

  /** The projected rows before ordering. */
  function PopularCandidates(tags: seq<Tag>, rows: seq<ReviewTag>, reviewPing: map<int, int>, pingId: Option<int>): (r: seq<TagDto>)
    ensures forall d :: d in r ==> TagOf(d) in tags && PopularEligible(rows, reviewPing, pingId, TagOf(d))
                                   && d.count == Usage(rows, reviewPing, d.id, pingId)
    ensures forall t :: t in tags && PopularEligible(rows, reviewPing, pingId, t) ==> ToDto(t, Usage(rows, reviewPing, t.id, pingId)) in r
  {
    if tags == [] then []
    else
      var rest := PopularCandidates(tags[1..], rows, reviewPing, pingId);
      var t := tags[0];
      assert forall x :: x in tags <==> x == t || x in tags[1..];
      if PopularEligible(rows, reviewPing, pingId, t) then [ToDto(t, Usage(rows, reviewPing, t.id, pingId))] + rest
      else rest
  }

  /** `OrderByDescending(t => t.Count).Take(count)`. */
  function ByCountTop(cands: seq<TagDto>, count: int): (r: seq<TagDto>)
    ensures |r| == if count <= 0 then 0 else if count < |cands| then count else |cands|
    ensures multiset(r) <= multiset(cands)
    ensures forall d :: d in r ==> d in cands
    ensures |r| < count ==> forall e :: e in cands ==> e in r
    ensures forall i, j :: 0 <= i < j < |r| ==> r[i].count >= r[j].count
    ensures forall d, e :: d in r && e in cands && e !in r ==> d.count >= e.count
  {
    var key := (d: TagDto) => d.count as int;
    assert forall d :: key(d) == d.count;
    TopDescending(cands, key, count)
  }

  /** `OrderBy(t => t.Name.Length).Take(count)`. */
  function ByNameLengthTop(cands: seq<TagDto>, count: int): (r: seq<TagDto>)
    ensures |r| == if count <= 0 then 0 else if count < |cands| then count else |cands|
    ensures multiset(r) <= multiset(cands)
    ensures forall d :: d in r ==> d in cands
    ensures forall i, j :: 0 <= i < j < |r| ==> |r[i].name| <= |r[j].name|
    ensures forall d, e :: d in r && e in cands && e !in r ==> |d.name| <= |e.name|
    ensures |r| < count ==> forall e :: e in cands ==> e in r
  {
    var key := (d: TagDto) => |d.name|;
    assert forall d :: key(d) == |d.name|;
    TopAscending(cands, key, count)
  }

  /** The tags SearchTagsAsync can suggest for the normalised query `q`. */
  predicate SearchEligible(q: string, t: Tag)
  {
    Contains(t.name, q) && !t.isBanned
  }

  /** The projected matches before ordering (projecting first does not
      change the order: the key, the name's length, is kept). */
  function SearchCandidates(tags: seq<Tag>, rows: seq<ReviewTag>, q: string): (r: seq<TagDto>)
    ensures forall d :: d in r ==> TagOf(d) in tags && SearchEligible(q, TagOf(d)) && d.count == JoinCount(rows, d.id)
    ensures forall t :: t in tags && SearchEligible(q, t) ==> ToDto(t, JoinCount(rows, t.id)) in r
  {
    if tags == [] then []
    else
      var rest := SearchCandidates(tags[1..], rows, q);
      var t := tags[0];
      assert forall x :: x in tags <==> x == t || x in tags[1..];
      if SearchEligible(q, t) then [ToDto(t, JoinCount(rows, t.id))] + rest else rest
  }

  /** One popular candidate per eligible tag: as many as there are
      eligible tags. */
  lemma {:induction false} PopularCandidatesCount(tags: seq<Tag>, rows: seq<ReviewTag>, reviewPing: map<int, int>,
                                                  pingId: Option<int>)
    ensures |PopularCandidates(tags, rows, reviewPing, pingId)| == CountWhere(tags, (t: Tag) => PopularEligible(rows, reviewPing, pingId, t))
  {
    if tags != [] {
      PopularCandidatesCount(tags[1..], rows, reviewPing, pingId);
    }
  }

  /** The popular candidates carry, in order, the ids of the eligible tags. */
  lemma {:induction false} PopularCandidatesIds(tags: seq<Tag>, rows: seq<ReviewTag>, reviewPing: map<int, int>, pingId: Option<int>)
    ensures DtoIds(PopularCandidates(tags, rows, reviewPing, pingId)) == EligibleIds(tags, (t: Tag) => PopularEligible(rows, reviewPing, pingId, t))
  {
    if tags != [] {
      PopularCandidatesIds(tags[1..], rows, reviewPing, pingId);
      var rest := PopularCandidates(tags[1..], rows, reviewPing, pingId);
      var t := tags[0];
      if PopularEligible(rows, reviewPing, pingId, t) {
        DtoIdsCons(ToDto(t, Usage(rows, reviewPing, t.id, pingId)), rest);
      }
    }
  }

  /** With unique tag ids no two popular candidates share an id: one row per tag. */
  lemma PopularCandidatesDistinct(tags: seq<Tag>, rows: seq<ReviewTag>, reviewPing: map<int, int>, pingId: Option<int>)
    ensures var r := PopularCandidates(tags, rows, reviewPing, pingId);
            UniqueIds(tags) ==> forall i, j :: 0 <= i < j < |r| ==> r[i].id != r[j].id
  {
    PopularCandidatesIds(tags, rows, reviewPing, pingId);
    EligibleIdsDistinct(tags, (t: Tag) => PopularEligible(rows, reviewPing, pingId, t));
    var r := PopularCandidates(tags, rows, reviewPing, pingId);
    if UniqueIds(tags) {
      assert NoDuplicates(DtoIds(r));
    }
  }

  /** One search candidate per matching tag: as many as there are
      matching tags. */
  lemma {:induction false} SearchCandidatesCount(tags: seq<Tag>, rows: seq<ReviewTag>, q: string)
    ensures |SearchCandidates(tags, rows, q)| == CountWhere(tags, (t: Tag) => SearchEligible(q, t))
  {
    if tags != [] {
      SearchCandidatesCount(tags[1..], rows, q);
    }
  }

  /** The search candidates carry, in order, the ids of the matching tags. */
  lemma {:induction false} SearchCandidatesIds(tags: seq<Tag>, rows: seq<ReviewTag>, q: string)
    ensures DtoIds(SearchCandidates(tags, rows, q)) == EligibleIds(tags, (t: Tag) => SearchEligible(q, t))
  {
    if tags != [] {
      SearchCandidatesIds(tags[1..], rows, q);
      var rest := SearchCandidates(tags[1..], rows, q);
      var t := tags[0];
      if SearchEligible(q, t) {
        DtoIdsCons(ToDto(t, JoinCount(rows, t.id)), rest);
      }
    }
  }

  /** With unique tag ids no two search candidates share an id: one row per tag. */
  lemma SearchCandidatesDistinct(tags: seq<Tag>, rows: seq<ReviewTag>, q: string)
    ensures var r := SearchCandidates(tags, rows, q);
            UniqueIds(tags) ==> forall i, j :: 0 <= i < j < |r| ==> r[i].id != r[j].id
  {
    SearchCandidatesIds(tags, rows, q);
    EligibleIdsDistinct(tags, (t: Tag) => SearchEligible(q, t));
    var r := SearchCandidates(tags, rows, q);
    if UniqueIds(tags) {
      assert NoDuplicates(DtoIds(r));
    }
  }

  /** The tag service over the Tags and ReviewTags tables. */
  class TagService {
    var tags: seq<Tag>
    var reviewTags: seq<ReviewTag>

    /** Both primary keys hold. */
    ghost predicate Valid()
      reads this
    {
      UniqueIds(tags) && NoDuplicates(reviewTags)
    }

    constructor (tags0: seq<Tag>, reviewTags0: seq<ReviewTag>)
      ensures tags == tags0 && reviewTags == reviewTags0
    {
      tags := tags0;
      reviewTags := reviewTags0;
    }

    /** ApproveTagAsync: IsApproved on, IsBanned off. */
    method ApproveTag(id: int) returns (r: Outcome)
      requires Valid()
      modifies this
      ensures Valid()
      ensures r == KeyNotFound <==> id !in TagIds(old(tags))
      ensures tags == if r == Done then SetFlags(old(tags), id, true, false) else old(tags)
      ensures reviewTags == old(reviewTags)
    {
      r := SetTagFlags(id, true, false);
    }

    /** BanTagAsync: IsBanned on, IsApproved off. */
    method BanTag(id: int) returns (r: Outcome)
      requires Valid()
      modifies this
      ensures Valid()
      ensures r == KeyNotFound <==> id !in TagIds(old(tags))
      ensures tags == if r == Done then SetFlags(old(tags), id, false, true) else old(tags)
      ensures reviewTags == old(reviewTags)
    {
      r := SetTagFlags(id, false, true);
    }

    method SetTagFlags(id: int, approved: bool, banned: bool) returns (r: Outcome)
      requires Valid()
      modifies this
      ensures Valid()
      ensures r == KeyNotFound <==> id !in TagIds(old(tags))
      ensures tags == if r == Done then SetFlags(old(tags), id, approved, banned) else old(tags)
      ensures reviewTags == old(reviewTags)
    {
      var found := Find(tags, id);
      if found.None? {
        return KeyNotFound;
      }
      var i := found.value;
      ghost var before := tags;
      tags := tags[i := tags[i].(isApproved := approved, isBanned := banned)];
      assert tags == SetFlags(before, id, approved, banned);
      r := Done;
    }

    /** DeleteTagAsAdminAsync: removes the tag if there is one. Its join
        rows go with it (the ReviewTag -> Tag relationship is required, so
        the database deletes them in cascade). */
    method DeleteTagAsAdmin(id: int)
      requires Valid()
      modifies this
      ensures Valid()
      ensures id !in TagIds(old(tags)) ==> tags == old(tags) && reviewTags == old(reviewTags)
      ensures id in TagIds(old(tags)) ==>
                tags == RemoveTag(old(tags), id)
                && reviewTags == Filter(old(reviewTags), (x: ReviewTag) => x.tagId != id)
    {
      var found := Find(tags, id);
      if found.Some? {
        RemoveTagKeepsUnique(tags, id);
        tags := RemoveTag(tags, id);
        reviewTags := Filter(reviewTags, (x: ReviewTag) => x.tagId != id);
      }
    }

    /** MergeTagAsync: every join row of `sourceId` is removed, and re-added
        for `targetId` unless that review already has the target tag; then
        the source tag is deleted. */
    method MergeTag(sourceId: int, targetId: int) returns (r: Outcome)
      requires Valid()
      modifies this
      ensures Valid()
      ensures r == KeyNotFound <==>
                sourceId != targetId && (sourceId !in TagIds(old(tags)) || targetId !in TagIds(old(tags)))
      ensures r == KeyNotFound || sourceId == targetId ==> tags == old(tags) && reviewTags == old(reviewTags)
      ensures r == Done && sourceId != targetId ==>
                tags == RemoveTag(old(tags), sourceId)
                && JoinSet(reviewTags) == MergedJoins(JoinSet(old(reviewTags)), sourceId, targetId)
    {
      if sourceId == targetId {
        return Done;
      }
      var sourceTag := Find(tags, sourceId);
      var targetTag := Find(tags, targetId);
      if sourceTag.None? || targetTag.None? {
        return KeyNotFound;
      }
      var rows := ReparentJoins(reviewTags, sourceId, targetId);
      RemoveTagKeepsUnique(tags, sourceId);
      reviewTags := rows;
      tags := RemoveTag(tags, sourceId);
      r := Done;
    }
  }

  /** The loop of MergeTagAsync over the source tag's join rows: each is
      removed, and a row joining its review to the target is added unless
      that review already had one. */
  method ReparentJoins(reviewTags: seq<ReviewTag>, sourceId: int, targetId: int) returns (rows: seq<ReviewTag>)
    requires sourceId != targetId
    requires NoDuplicates(reviewTags)
    ensures NoDuplicates(rows)
    ensures JoinSet(rows) == MergedJoins(JoinSet(reviewTags), sourceId, targetId)
  {
    var sourceRows := Filter(reviewTags, (x: ReviewTag) => x.tagId == sourceId);
    var reviewIdsWithSource := set x | x in sourceRows :: x.reviewId;
    var alreadyHaving := set x | x in reviewTags && x.tagId == targetId && x.reviewId in reviewIdsWithSource :: x.reviewId;
    AlreadyHavingBoth(reviewTags, sourceRows, sourceId, targetId, reviewIdsWithSource, alreadyHaving);
    rows := reviewTags;
    ghost var visited: set<int> := {};
    var i := 0;
    while i < |sourceRows|
      invariant 0 <= i <= |sourceRows|
      invariant MergeProgress(reviewTags, sourceRows, i, sourceId, targetId, alreadyHaving, visited, rows)
    {
      var rt := sourceRows[i];
      var removed := Filter(rows, (x: ReviewTag) => x != rt);
      var next := removed;
      if rt.reviewId !in alreadyHaving {
        next := removed + [ReviewTag(rt.reviewId, targetId)];
      }
      MergeStep(reviewTags, sourceRows, i, sourceId, targetId, alreadyHaving, visited, rows, removed, next);
      rows := next;
      visited := visited + {rt.reviewId};
      i := i + 1;
    }
    MergeLoopResult(reviewTags, sourceRows, sourceId, targetId, alreadyHaving, visited, rows);
  }

  /** The reviews MergeTagAsync finds already joined to the target are those
      joined to both tags. */
  lemma AlreadyHavingBoth(rows0: seq<ReviewTag>, sourceRows: seq<ReviewTag>, source: int, target: int,
                          reviewIdsWithSource: set<int>, alreadyHaving: set<int>)
    requires sourceRows == Filter(rows0, (x: ReviewTag) => x.tagId == source)
    requires reviewIdsWithSource == set x | x in sourceRows :: x.reviewId
    requires alreadyHaving == set x | x in rows0 && x.tagId == target && x.reviewId in reviewIdsWithSource :: x.reviewId
    ensures forall rid :: rid in alreadyHaving <==> ReviewTag(rid, target) in rows0 && ReviewTag(rid, source) in rows0
  {
    forall rid | ReviewTag(rid, target) in rows0 && ReviewTag(rid, source) in rows0 ensures rid in alreadyHaving {
      assert ReviewTag(rid, source) in sourceRows;
      assert rid in reviewIdsWithSource;
    }
    forall rid | rid in alreadyHaving ensures ReviewTag(rid, target) in rows0 && ReviewTag(rid, source) in rows0 {
      var x :| x in rows0 && x.tagId == target && x.reviewId in reviewIdsWithSource && x.reviewId == rid;
      var y :| y in sourceRows && y.reviewId == rid;
      assert x == ReviewTag(rid, target) && y == ReviewTag(rid, source);
    }
  }

  /** What the merge loop keeps true after visiting the first `i` source
      rows: the visited rows are gone, and each visited review the target
      did not have yet is joined to it. */
  ghost predicate MergeProgress(rows0: seq<ReviewTag>, sourceRows: seq<ReviewTag>, i: nat, source: int, target: int,
                                alreadyHaving: set<int>, visited: set<int>, rows: seq<ReviewTag>)
    requires i <= |sourceRows|
  {
    && NoDuplicates(rows)
    && (forall y :: y in sourceRows[..i] ==> y.reviewId in visited)
    && (forall rid :: rid in visited ==> ReviewTag(rid, source) in sourceRows[..i])
    && (forall x :: x in rows <==>
          (x in rows0 && x !in sourceRows[..i])
          || (x.tagId == target && x.reviewId !in alreadyHaving && x.reviewId in visited))
  }

  /** One iteration of the merge loop keeps `MergeProgress`; in particular the
      row it adds for the target is not in the table yet. */
  lemma MergeStep(rows0: seq<ReviewTag>, sourceRows: seq<ReviewTag>, i: nat, source: int, target: int,
                  alreadyHaving: set<int>, visited: set<int>, rows: seq<ReviewTag>, removed: seq<ReviewTag>,
                  next: seq<ReviewTag>)
    requires source != target
    requires NoDuplicates(sourceRows)
    requires forall x :: x in sourceRows ==> x in rows0 && x.tagId == source
    requires forall rid :: rid in alreadyHaving <==> ReviewTag(rid, target) in rows0 && ReviewTag(rid, source) in rows0
    requires i < |sourceRows|
    requires MergeProgress(rows0, sourceRows, i, source, target, alreadyHaving, visited, rows)
    requires forall x :: x in removed <==> x in rows && x != sourceRows[i]
    requires NoDuplicates(removed)
    requires next == if sourceRows[i].reviewId in alreadyHaving then removed
                     else removed + [ReviewTag(sourceRows[i].reviewId, target)]
    ensures MergeProgress(rows0, sourceRows, i + 1, source, target, alreadyHaving, visited + {sourceRows[i].reviewId}, next)
  {
    var rt := sourceRows[i];
    var done := sourceRows[..i];
    assert sourceRows[..i + 1] == done + [rt];
    assert rt in sourceRows;
    assert rt !in done;
    if rt.reviewId !in alreadyHaving {
      assert rt in rows0;
      NoDuplicatesAppend(removed, ReviewTag(rt.reviewId, target));
    }
    StepMembership(rows0, done, rt, target, alreadyHaving, visited, rows, removed, next);
  }

  lemma StepMembership(rows0: seq<ReviewTag>, done: seq<ReviewTag>, rt: ReviewTag, target: int,
                       alreadyHaving: set<int>, visited: set<int>, rows: seq<ReviewTag>, removed: seq<ReviewTag>,
                       next: seq<ReviewTag>)
    requires rt.tagId != target
    requires forall x :: x in rows <==>
               (x in rows0 && x !in done) || (x.tagId == target && x.reviewId !in alreadyHaving && x.reviewId in visited)
    requires forall x :: x in removed <==> x in rows && x != rt
    requires next == if rt.reviewId in alreadyHaving then removed else removed + [ReviewTag(rt.reviewId, target)]
    ensures forall x :: x in next <==>
              (x in rows0 && x !in done + [rt])
              || (x.tagId == target && x.reviewId !in alreadyHaving && x.reviewId in visited + {rt.reviewId})
  {
  }

  /** When the merge loop has visited every source row, the table is
      `MergedJoins` of the one it started from. */
  lemma MergeLoopResult(rows0: seq<ReviewTag>, sourceRows: seq<ReviewTag>, source: int, target: int,
                        alreadyHaving: set<int>, visited: set<int>, rows: seq<ReviewTag>)
    requires source != target
    requires sourceRows == Filter(rows0, (x: ReviewTag) => x.tagId == source)
    requires forall rid :: rid in alreadyHaving <==> ReviewTag(rid, target) in rows0 && ReviewTag(rid, source) in rows0
    requires MergeProgress(rows0, sourceRows, |sourceRows|, source, target, alreadyHaving, visited, rows)
    ensures JoinSet(rows) == MergedJoins(JoinSet(rows0), source, target)
  {
    var m := MergedJoins(JoinSet(rows0), source, target);
    assert sourceRows[..|sourceRows|] == sourceRows;
    forall x | x in rows ensures x in m {
      if x in rows0 && x !in sourceRows {
        assert x.tagId != source;
      } else {
        var y := ReviewTag(x.reviewId, source);
        assert y in rows0;
        assert x == ReviewTag(y.reviewId, target);
      }
    }
    forall x | x in m ensures x in rows {
      if x in rows0 && x.tagId != source {
        assert x !in sourceRows;
      } else {
        var y :| y in rows0 && y.tagId == source && x == ReviewTag(y.reviewId, target);
        assert y in sourceRows;
      }
    }
  }
}
